=== FILE: README.md ===
# Scotland Yard: the JarvisX MrX AI and the game-state engine, in Dafny

This project models three Java classes of a Scotland Yard coursework.

- **`JarvisX`** is the AI that plays MrX. It computes a distance table from a node (`findDistances` with `topOfPriorityQueue`). It scores a location from its neighbours and the median distance to the detectives (`score`, `medianDetectiveDistance`). It ranks MrX's immediate locations (`jarvisXLocationPriority`) and prunes and enumerates the detectives' replies (`reduceCombinations`, `findCombinations`). It runs a depth-5 minimax with alpha-beta pruning (`maximiser`, `minimiser`). Finally it turns the best location back into one of the available moves (`extractMoveInfo`, `pickMove`).
- **`MyGameStateFactory.MyGameState`** is the rules engine. It validates players and setup and generates single and double moves with their ticket rules. It decides the winner, and `advance` moves tickets, relocates pieces, writes MrX's travel log and rotates the turn.
- **`MyModelFactory.MyModel`** is the observer registry around a game state. `chooseMove` maps the new state's winner set to the event it emits.

Every Java exception the modelled code can raise is a `Failure` of `Wrappers.Result`:

- `IllegalArgument(reason)` carries the Java message where one exists.
- The other failures are `NullPointer`, `IndexOutOfBounds` and `NoSuchElement`.

Java `int` arithmetic is explicit where it matters:

- `Int32.Wrap` models the 32-bit wrap-around of `score -= 500`.
- `Int32.Clamp` models the saturating `(int)` cast of a `double`.

The median is carried doubled (`TwiceMedianOf`), so `floor(10 × median)` is exactly `5 × (2 × median)` and no floating point is needed.

Modules, in dependency order:

- `Wrappers`, `Int32`: the result type and Java's integer behaviour.
- `AiGraph`: the AI's view of the board graph, a node mapped to its neighbours in iteration order.
- `Sorting`: the ascending sort used by the median.
- `Distances`: `findDistances` and `topOfPriorityQueue`.
- `Evaluator`: the median and `score`.
- `Priority`: the root `TreeSet` and its comparator.
- `Opponents`: `reduceCombinations` and `findCombinations`.
- `Search`: `maximiser` and `minimiser`.
- `Driver`: `extractMoveInfo` and `pickMove`.
- `Types`: pieces, tickets, transports, moves, players, the board graph with transport sets, and the game setup.
- `Checks`: `checkPlayerAttributes` and `checkSetup`.
- `Moves`: single- and double-move generation.
- `GameState`: the constructor, `checkGameOver`, `updateLog`, `updateRemaining`, `advance` and `getAvailableMoves`.
- `Invariants`: what every reachable game keeps.
- `ModelFactory`: the observer registry and `chooseMove`.
- `Findings`: two defects of the double-move generator, shown on concrete boards.

The double-move generator, and every game state, carries a `Moves.DoubleRule`. `AsWritten` is the code as it stands. `Corrected` repairs the two defects listed under "## Findings". `Invariants.NewGame` and `ModelFactory.NewModel` build with either rule. The validity invariants (`Invariants.AdvanceKeepsValid` and what depends on it) are proved for `Corrected`, because the as-written generator offers moves that `advance` cannot complete.

## Where the code departs from its own description

The model follows the code in each case below.

- **Distance table.** The code's comments call `findDistances` "Dijkstra's Shortest Path" and say `topOfPriorityQueue` returns "the closest node to the given source node which has not been checked yet" (JarvisX.java:315, 339). `topOfPriorityQueue` never lowers `min` (JarvisX.java:343-347), so it returns the highest-numbered unvisited node with a finite entry. The table is therefore not a table of shortest distances. For example, take edges 1-2, 2-3, 1-9, 9-8, 8-3, 3-4 and source 1. Node 4 gets 4 although it is 3 steps away. The model proves what does hold: every finite entry is the length of a real walk from the source (`Distances.FindDistances`), so it is never below the true distance.
- **Median of an even count.** It reads the sorted entries at n/2 and n/2+1 rather than the two middle ones (JarvisX.java:307-308). With 0 or 2 detectives this is an index error (`Evaluator.TwiceMedianOf`).
- **Distance table can throw.** When an unvisited node remains but the scan finds no unvisited index with a finite entry, it returns -1 and `adjacentNodes(-1)` throws IllegalArgumentException (JarvisX.java:326-327, 343). This happens when some node is unreachable from the source. It also happens when node 0 is a node other than the source, because the scan starts at index 1. `Distances.FindDistances` states exactly when the table exists.
- **Node 0 means "none yet".** `maximiser` starts with best location 0 and replaces it with the first eligible location while it is still 0 (JarvisX.java:118, 123). A real node 0 is therefore indistinguishable from "no best location", so the horizon property `Search.HorizonMaximiser` is stated for graphs without node 0.
- **Capture penalty.** The comment says a reply in which a detective lands on MrX is lowered by 500 (JarvisX.java:181-182). The subtraction is 32-bit, so when MrX's best answer is already `MIN_VALUE` (no escape), the reply becomes `MAX_VALUE - 499` and the detectives' ply, which minimises, avoids that capture (`Search.CapturePenalised`).
- **Empty choice.** The AI can fail with no move to return. The root candidates come from the raw adjacency, so the best location may be reached by no available move, and then `nextInt(0)` throws (`Driver.PickMove`).

## Model

Source paths are relative to the repository root.

| member | source | states |
|---|---|---|
| Int32.Wrap | cw-ai/src/main/java/uk/ac/bris/cs/scotlandyard/ui/ai/JarvisX.java:182 | the result is a 32-bit int congruent to the exact value modulo 2^32, and equal to it when it fits |
| Int32.Clamp | cw-ai/src/main/java/uk/ac/bris/cs/scotlandyard/ui/ai/JarvisX.java:269 | the `(int)` cast of a double saturates: in range it is the identity, below range MIN_VALUE, above range MAX_VALUE |
| Distances.Scan | cw-ai/src/main/java/uk/ac/bris/cs/scotlandyard/ui/ai/JarvisX.java:343-347 | the scan's candidate is -1 or an unvisited index with an entry below `min`, and no later index it passed over qualifies |
| Distances.TopOfPriorityQueue | cw-ai/src/main/java/uk/ac/bris/cs/scotlandyard/ui/ai/JarvisX.java:340-349 | the result is -1 or an unvisited index ≥ 1 with a finite entry, and it is the LARGEST such index |
| Distances.Relax | cw-ai/src/main/java/uk/ac/bris/cs/scotlandyard/ui/ai/JarvisX.java:327-331 | relaxing keeps the length, keeps the source's entry, never raises an entry, changes only neighbours' entries and only to d[src]+1, and leaves every neighbour at most d[src]+1 |
| Distances.RelaxKeepsSupport | cw-ai/src/main/java/uk/ac/bris/cs/scotlandyard/ui/ai/JarvisX.java:327-331 | after relaxing, every entry is still the source's, unreached, or larger than the entry of some node that has it as a neighbour |
| Distances.StepKeepsInv | cw-ai/src/main/java/uk/ac/bris/cs/scotlandyard/ui/ai/JarvisX.java:326-334 | one iteration of the while loop keeps the loop invariant (a 200-entry table, source at 0, supported entries, visited nodes finite) and lowers no entry |
| Distances.AllVisitedIsSettled | cw-ai/src/main/java/uk/ac/bris/cs/scotlandyard/ui/ai/JarvisX.java:326 | when the loop exits because every node is visited, every node of the graph has a finite entry |
| Distances.DistanceLoop | cw-ai/src/main/java/uk/ac/bris/cs/scotlandyard/ui/ai/JarvisX.java:326-334 | a loop that completes leaves a table with the source at 0, entries no higher than at the start, every entry supported, and every node reached; a loop that fails fails with the illegal argument `adjacentNodes(-1)` throws |
| Distances.ExpandsNode | cw-ai/src/main/java/uk/ac/bris/cs/scotlandyard/ui/ai/JarvisX.java:326-327 | while nodes remain unvisited from a source that reaches every node, the node the loop expands next is a node of the graph, so `adjacentNodes` does not throw |
| Distances.ProgressKept | cw-ai/src/main/java/uk/ac/bris/cs/scotlandyard/ui/ai/JarvisX.java:326-334 | one expansion keeps the source expanded first, the next node the scan's choice, every neighbour of a visited node reached, and every finite entry at most the number of visited nodes |
| Distances.LoopCompletes | cw-ai/src/main/java/uk/ac/bris/cs/scotlandyard/ui/ai/JarvisX.java:326-334 | from a source that reaches every node, with node 0 a node only as the source, the loop runs until every node is visited |
| Distances.CompletedFromOne | cw-ai/src/main/java/uk/ac/bris/cs/scotlandyard/ui/ai/JarvisX.java:326-349 | a loop that completes has visited node 0 only as the source, since the scan starts at index 1 |
| Distances.LoopCompletesIff | cw-ai/src/main/java/uk/ac/bris/cs/scotlandyard/ui/ai/JarvisX.java:317-336 | from the initial table the loop completes exactly when every node is reachable from the source and node 0 is a node only when it is the source |
| Distances.SupportedIsReachable | cw-ai/src/main/java/uk/ac/bris/cs/scotlandyard/ui/ai/JarvisX.java:317-336 | every finite entry of a supported table is the length of a walk from the source |
| Distances.FindDistances | cw-ai/src/main/java/uk/ac/bris/cs/scotlandyard/ui/ai/JarvisX.java:317-336 | a source outside the 200-entry table is an index error; otherwise the table exists exactly when every node is reachable from the source and node 0 is a node only as the source, and else the error is the illegal argument of `adjacentNodes(-1)`; a completed table has 200 entries, 0 at the source, a finite entry for every node, and every finite entry bounds a real walk from the source |
| Sorting.Sort | cw-ai/src/main/java/uk/ac/bris/cs/scotlandyard/ui/ai/JarvisX.java:303 | the sorted list is ascending and a permutation of the input |
| Sorting.SortedUnique | cw-ai/src/main/java/uk/ac/bris/cs/scotlandyard/ui/ai/JarvisX.java:303 | two ascending permutations of the same multiset are equal |
| Sorting.SortIsPermutationInvariant | cw-ai/src/main/java/uk/ac/bris/cs/scotlandyard/ui/ai/JarvisX.java:303 | sorting any two orderings of the same distances gives the same list |
| Evaluator.TwiceMedianOf | cw-ai/src/main/java/uk/ac/bris/cs/scotlandyard/ui/ai/JarvisX.java:303-311 | after an ascending sort, an odd count gives twice the entry at n/2 and an even count of 4 or more the sum of the entries at n/2 and n/2+1, one past the middle pair; 0 and 2 distances, and only those, are an index error; the entries read are entries of the input, at distinct positions for an even count |
| Evaluator.MedianDrawsFrom | cw-ai/src/main/java/uk/ac/bris/cs/scotlandyard/ui/ai/JarvisX.java:305-309 | the entries read off the sorted list are entries of the unsorted list, at distinct positions for an even count |
| Evaluator.MedianPermutationInvariant | cw-ai/src/main/java/uk/ac/bris/cs/scotlandyard/ui/ai/JarvisX.java:298-311 | the median depends only on the multiset of detective distances, not on the detectives' order |
| Evaluator.DetectiveDistances | cw-ai/src/main/java/uk/ac/bris/cs/scotlandyard/ui/ai/JarvisX.java:298-301 | one table entry per detective, in detective order, or an index error when a detective location is outside the table |
| Evaluator.TwiceMedianDistance | cw-ai/src/main/java/uk/ac/bris/cs/scotlandyard/ui/ai/JarvisX.java:289-312 | succeeds exactly when the distance table exists, every detective location is inside it, and there are neither 0 nor 2 detectives; its value is `TwiceMedianOf` of the detectives' table entries in detective order, never negative; with a table, every failure is an index error |
| Evaluator.NeighbourTally | cw-ai/src/main/java/uk/ac/bris/cs/scotlandyard/ui/ai/JarvisX.java:260-267 | the neighbour loop adds 10 per free neighbour and subtracts 500 per neighbour a detective stands on |
| Evaluator.Score | cw-ai/src/main/java/uk/ac/bris/cs/scotlandyard/ui/ai/JarvisX.java:257-271 | an occupied location scores MIN_VALUE, and a successful score is MIN_VALUE only there; an unoccupied location scores exactly when it is a node and its median exists, and then the clamped sum of the neighbour tally and 10 × the median, always a 32-bit int |
| Priority.PlaceIn | cw-ai/src/main/java/uk/ac/bris/cs/scotlandyard/ui/ai/JarvisX.java:152-169 | a `TreeSet.add` under the comparator keeps the set strictly descending by key, keeps every element, adds nothing but `x`, and leaves `x`'s key present |
| Priority.PlaceAll | cw-ai/src/main/java/uk/ac/bris/cs/scotlandyard/ui/ai/JarvisX.java:169 | `addAll` succeeds exactly when every added location has a score; it keeps the order strictly descending; every element is an old one or a location with its own key; every location's key is held by some element |
| Priority.LocationPriority | cw-ai/src/main/java/uk/ac/bris/cs/scotlandyard/ui/ai/JarvisX.java:151-171 | succeeds exactly when every location has a score; the root locations by strictly descending key, MIN_VALUE read as -10000, one element per distinct key, and empty exactly when there are no locations |
| Priority.LocationsRanked | cw-ai/src/main/java/uk/ac/bris/cs/scotlandyard/ui/ai/JarvisX.java:151-171 | reading the locations off the `TreeSet` in order gives locations that all score, by strictly descending key |
| Opponents.Closer | cw-ai/src/main/java/uk/ac/bris/cs/scotlandyard/ui/ai/JarvisX.java:203-208 | the filter keeps exactly the neighbours whose distance to MrX is within the bound, or fails on an index outside the table |
| Opponents.ReduceCombinations | cw-ai/src/main/java/uk/ac/bris/cs/scotlandyard/ui/ai/JarvisX.java:201-213 | succeeds exactly when MrX's distance table exists and the detective and every neighbour index the table; the result is drawn from `adjacent`; it is all of `adjacent` when the filter keeps at most one or under 30%, and otherwise exactly the neighbours no further from MrX than the detective |
| Opponents.Candidates | cw-ai/src/main/java/uk/ac/bris/cs/scotlandyard/ui/ai/JarvisX.java:220-221 | succeeds exactly when the detective stands on a graph node and MrX's distance table exists; the candidates are neighbours of that node |
| Opponents.CandidateLists | cw-ai/src/main/java/uk/ac/bris/cs/scotlandyard/ui/ai/JarvisX.java:219-221 | succeeds exactly when every detective stands on a graph node and, if there is a detective, MrX's distance table exists; one list per detective, in detective order, the j-th being detective j's candidates and drawn from its neighbours |
| Opponents.FindCombinations | cw-ai/src/main/java/uk/ac/bris/cs/scotlandyard/ui/ai/JarvisX.java:217-238 | succeeds exactly when the candidate lists exist; with ≥ 2 candidates for the first detective and ≥ 1 for each other, it returns (k1-1)·k2·…·kn combinations, each with one entry per detective in order, drawn from that detective's candidates, the first detective's entry from its candidates after the first |
| Opponents.InnerIsCross | cw-ai/src/main/java/uk/ac/bris/cs/scotlandyard/ui/ai/JarvisX.java:223-233 | once combinations exist, the candidate loop appends the Cartesian extension of the combinations by the candidates |
| Opponents.StepExtendsEvery | cw-ai/src/main/java/uk/ac/bris/cs/scotlandyard/ui/ai/JarvisX.java:222-235 | a later detective's turn extends every combination by every candidate, in order |
| Opponents.StepFromEmpty | cw-ai/src/main/java/uk/ac/bris/cs/scotlandyard/ui/ai/JarvisX.java:224-225 | while no combination exists, a turn yields one singleton list [c] for each candidate c after the first; the first candidate is lost |
| Opponents.FirstStep | cw-ai/src/main/java/uk/ac/bris/cs/scotlandyard/ui/ai/JarvisX.java:224-235 | the first detective's turn leaves k1-1 combinations, each with one entry from its candidates after the first |
| Opponents.CrossShaped | cw-ai/src/main/java/uk/ac/bris/cs/scotlandyard/ui/ai/JarvisX.java:227-232 | extending well-shaped combinations by a candidate list keeps one entry per detective, each drawn from its list |
| Opponents.ExtendShaped | cw-ai/src/main/java/uk/ac/bris/cs/scotlandyard/ui/ai/JarvisX.java:228-231 | copying a combination and appending one candidate keeps it well-shaped |
| Opponents.FoldSize | cw-ai/src/main/java/uk/ac/bris/cs/scotlandyard/ui/ai/JarvisX.java:219-236 | from n combinations, the remaining detectives multiply the count by the product of their candidate counts |
| Opponents.FoldShaped | cw-ai/src/main/java/uk/ac/bris/cs/scotlandyard/ui/ai/JarvisX.java:219-236 | the remaining detectives' turns keep every combination one entry per detective, drawn from its candidates |
| Opponents.CombinationCount | cw-ai/src/main/java/uk/ac/bris/cs/scotlandyard/ui/ai/JarvisX.java:217-238 | with ≥ 2 candidates for the first detective and ≥ 1 for each other, there are (k1-1)·k2·…·kn combinations, each with n entries drawn in detective order and the first never being the first detective's first candidate |
| Search.AppendNew | cw-ai/src/main/java/uk/ac/bris/cs/scotlandyard/ui/ai/JarvisX.java:115 | `addAll` yields exactly the union, keeps the existing elements first and in order, and adds no duplicate |
| Search.Hops | cw-ai/src/main/java/uk/ac/bris/cs/scotlandyard/ui/ai/JarvisX.java:112-114 | the two-hop loop gathers exactly the neighbours of unoccupied single-hop locations, without duplicates |
| Search.HopSet | cw-ai/src/main/java/uk/ac/bris/cs/scotlandyard/ui/ai/JarvisX.java:112-114 | `doubleLocations` is exactly the set of neighbours of unoccupied single-hop locations |
| Search.DoubleCondition | cw-ai/src/main/java/uk/ac/bris/cs/scotlandyard/ui/ai/JarvisX.java:110-111 | with no double ticket the rule is decided and does not fire; with one it is decided exactly when the median detective distance exists, and fires exactly when (median ≤ 3 and degree ≤ 4) or every single location is deadly |
| Search.TopKeyIsLargest | cw-ai/src/main/java/uk/ac/bris/cs/scotlandyard/ui/ai/JarvisX.java:104 | the first element of the descending set carries the largest key present |
| Search.FirstNegativeMeansAllNegative | cw-ai/src/main/java/uk/ac/bris/cs/scotlandyard/ui/ai/JarvisX.java:103-104 | the first root location scores below 0 exactly when every root location does |
| Search.RootCandidates | cw-ai/src/main/java/uk/ac/bris/cs/scotlandyard/ui/ai/JarvisX.java:96-116 | succeeds exactly when MrX has a neighbour, every neighbour scores, the double rule is decided and, if it fires (with "all deadly" meaning every neighbour scores below zero), every two-hop location scores; the locations all score and come by strictly descending key; each is a single or two-hop location; the double set is the whole hop set exactly when the rule fires, and empty otherwise |
| Search.RootPlies | cw-ai/src/main/java/uk/ac/bris/cs/scotlandyard/ui/ai/JarvisX.java:100-116 | given the ranked singles: succeeds exactly when the double rule is decided and, if it fires, every two-hop location scores; the double set is the hop set exactly when the rule fires; the locations come by strictly descending key |
| Search.RootLocations | cw-ai/src/main/java/uk/ac/bris/cs/scotlandyard/ui/ai/JarvisX.java:101-115 | succeeds exactly when the rule is off or every two-hop location scores; the locations come by strictly descending key and are single-hop locations or, only when the rule fires, two-hop ones |
| Search.InnerCandidates | cw-ai/src/main/java/uk/ac/bris/cs/scotlandyard/ui/ai/JarvisX.java:106-116 | succeeds exactly when the double rule is decided; the single hops come first, in adjacency order; the double set is the hop set exactly when the cornered condition fires, and every double location is a candidate; every candidate is a single or double location; with no double ticket the candidates are exactly the single hops |
| Search.Candidates | cw-ai/src/main/java/uk/ac/bris/cs/scotlandyard/ui/ai/JarvisX.java:96-116 | succeeds exactly when MrX is on a node, the double rule is decided and, at the root, MrX has a neighbour, every neighbour scores and, if the rule fires, every two-hop location scores; root candidates come by strictly descending key; every location is a single hop or a two-hop location; two-hop locations are present only with a double ticket, and then they are the whole hop set; below the root every single hop is a candidate |
| Search.CandidatesAreNodes | cw-ai/src/main/java/uk/ac/bris/cs/scotlandyard/ui/ai/JarvisX.java:96-116 | every candidate location, single or two-hop, is a node of the graph |
| Search.NextTickets | cw-ai/src/main/java/uk/ac/bris/cs/scotlandyard/ui/ai/JarvisX.java:127-129 | the double-ticket count passed down never increases, and drops by one exactly for a two-hop location |
| Search.Maximiser | cw-ai/src/main/java/uk/ac/bris/cs/scotlandyard/ui/ai/JarvisX.java:95-148 | the best location is (0, MIN_VALUE) or an eligible candidate, never a detective's location at the root; with no eligible candidate it is (0, MIN_VALUE) |
| Search.MaxLoop | cw-ai/src/main/java/uk/ac/bris/cs/scotlandyard/ui/ai/JarvisX.java:117-147 | the loop's best score never falls, its best location is the starting one or an eligible location of the loop, skipping every location changes nothing, and a loop that keeps its score keeps a non-zero best location |
| Search.HorizonBest | cw-ai/src/main/java/uk/ac/bris/cs/scotlandyard/ui/ai/JarvisX.java:117-147 | at the horizon ply, a score the loop raises above its start is the `score` of the best location it returns |
| Search.HorizonNoneHigher | cw-ai/src/main/java/uk/ac/bris/cs/scotlandyard/ui/ai/JarvisX.java:117-147 | at the horizon ply, unless a score reached `beta` and cut the loop, every eligible location scores and none scores above the loop's best |
| Search.HorizonMaximiser | cw-ai/src/main/java/uk/ac/bris/cs/scotlandyard/ui/ai/JarvisX.java:95-148 | a horizon call of `maximiser` returns the best `score` over the eligible candidates: a best above MIN_VALUE is the best location's score, and without a beta cut no eligible candidate scores higher |
| Search.Minimiser | cw-ai/src/main/java/uk/ac/bris/cs/scotlandyard/ui/ai/JarvisX.java:174-197 | the detectives' reply value is at most MAX_VALUE, and exactly MAX_VALUE when there are no combinations |
| Search.MinLoop | cw-ai/src/main/java/uk/ac/bris/cs/scotlandyard/ui/ai/JarvisX.java:178-196 | the reply loop's minimum never rises, with no combination left it is unchanged, and otherwise the first reply is evaluated and the minimum is at most its value |
| Search.CapturePenalised | cw-ai/src/main/java/uk/ac/bris/cs/scotlandyard/ui/ai/JarvisX.java:179-183 | a reply exists exactly when MrX's answer does; it is the answer's score when no detective lands on MrX; when one does, it is that score less 500 if that stays in int range, and MAX_VALUE - 499 when the answer is MIN_VALUE, because the subtraction wraps |
| Search.MinLoopAttained | cw-ai/src/main/java/uk/ac/bris/cs/scotlandyard/ui/ai/JarvisX.java:178-196 | a minimum below the starting one is the value of one of the replies, evaluated with `beta` narrowed to at most its starting value |
| Search.MinLoopBelowEvery | cw-ai/src/main/java/uk/ac/bris/cs/scotlandyard/ui/ai/JarvisX.java:178-196 | when the window starts open and the minimum stays above `alpha`, no reply is cut off, and every reply is worth at least the minimum |
| Driver.ExtractMoveInfo | cw-ai/src/main/java/uk/ac/bris/cs/scotlandyard/ui/ai/JarvisX.java:64-92 | the source is the last move's source, or 0 with no moves; every single move is recorded with its destination and every double move with its second destination, and nothing else is recorded |
| Driver.MovesTo | cw-ai/src/main/java/uk/ac/bris/cs/scotlandyard/ui/ai/JarvisX.java:48-50 | exactly the recorded moves whose destination is the given location |
| Driver.PickMove | cw-ai/src/main/java/uk/ac/bris/cs/scotlandyard/ui/ai/JarvisX.java:42-58 | a failed search fails the same way; otherwise a move is chosen exactly when some available move ends at the best location, and else the failure is `nextInt(0)`'s illegal argument; the chosen move is available and ends at the best location; it is a double move only when no single move ends there; it never ends on a detective unless it ends at 0 |
| Driver.RootSearch | cw-ai/src/main/java/uk/ac/bris/cs/scotlandyard/ui/ai/JarvisX.java:44-45 | the root search's best location is never occupied by a detective, unless it is 0 |
| Driver.ChooseMove | cw-ai/src/main/java/uk/ac/bris/cs/scotlandyard/ui/ai/JarvisX.java:45-58 | a move is chosen exactly when some available move ends at the location, and else the failure is an illegal argument; the chosen move is available, ends there, and is a double move only when no single move ends there |
| Checks.CheckDetectives | cw-model/src/main/java/uk/ac/bris/cs/scotlandyard/model/MyGameStateFactory.java:88-92 | succeeds exactly when every detective is a detective without a secret or double ticket, else an illegal-argument error |
| Checks.CheckRow | cw-model/src/main/java/uk/ac/bris/cs/scotlandyard/model/MyGameStateFactory.java:94-99 | succeeds exactly when detective i shares neither colour nor location with any later detective from j on |
| Checks.CheckPairs | cw-model/src/main/java/uk/ac/bris/cs/scotlandyard/model/MyGameStateFactory.java:93-100 | succeeds exactly when no two detectives from i on share a colour or a location |
| Checks.CheckPlayerAttributes | cw-model/src/main/java/uk/ac/bris/cs/scotlandyard/model/MyGameStateFactory.java:86-101 | succeeds exactly when MrX is MrX, every detective is a detective with no illegal ticket, and colours and locations are distinct; every failure is an illegal argument |
| Checks.CheckSetup | cw-model/src/main/java/uk/ac/bris/cs/scotlandyard/model/MyGameStateFactory.java:104-108 | succeeds exactly when the rounds and the graph are both non-empty, else an illegal argument |
| Moves.CheckIfOccupied | cw-model/src/main/java/uk/ac/bris/cs/scotlandyard/model/MyGameStateFactory.java:168-175 | the scan over the detectives reports the destination occupied exactly when some detective's location is the destination |
| Moves.MakeSingleMoves | cw-model/src/main/java/uk/ac/bris/cs/scotlandyard/model/MyGameStateFactory.java:145-165 | every single move starts at the source, ends at an unoccupied neighbour, and pays with a held ticket of a transport on that edge or, for MrX, a secret ticket; conversely every such move is generated |
| Moves.FindPaths | cw-model/src/main/java/uk/ac/bris/cs/scotlandyard/model/MyGameStateFactory.java:178-196 | (d1, d2) is a path exactly when d1 is an unoccupied neighbour of the source and d2 an unoccupied neighbour of d1 |
| Moves.AddSecondMove | cw-model/src/main/java/uk/ac/bris/cs/scotlandyard/model/MyGameStateFactory.java:199-206 | the move is added exactly when (ticket2 = ticket1 and count ≥ 2) or (ticket2 ≠ ticket1 and ticket2 is held), and it is that one double move |
| Moves.SecondLegs | cw-model/src/main/java/uk/ac/bris/cs/scotlandyard/model/MyGameStateFactory.java:223-229 | each second leg pays with the ticket of a transport on the second edge, repeating the first leg's ticket only with count ≥ 2 |
| Moves.TicketFirst | cw-model/src/main/java/uk/ac/bris/cs/scotlandyard/model/MyGameStateFactory.java:224-234 | double moves whose first leg uses the edge's own ticket follow the path and ticket rules, and are affordable whenever a double ticket is held |
| Moves.SecretFirst | cw-model/src/main/java/uk/ac/bris/cs/scotlandyard/model/MyGameStateFactory.java:226-239 | double moves whose first leg is secret follow the path rules; under the corrected count they are also affordable |
| Moves.RouteMoves | cw-model/src/main/java/uk/ac/bris/cs/scotlandyard/model/MyGameStateFactory.java:219-241 | the double moves along one route and first transport go from the source via d1 to d2, use no double ticket as a leg, and match the edges' tickets |
| Moves.MakeDoubleMoves | cw-model/src/main/java/uk/ac/bris/cs/scotlandyard/model/MyGameStateFactory.java:209-246 | no double moves without a double ticket or when too few rounds remain; each one follows a `findPaths` route with leg tickets matching the edges, and a ticket of some transport on the first edge is held, even for a secret-first move; under the corrected rule every one is affordable |
| Moves.DoubleMovesComplete | cw-model/src/main/java/uk/ac/bris/cs/scotlandyard/model/MyGameStateFactory.java:209-246 | under the corrected rule no double move is missed: every affordable double along a `findPaths` route whose leg tickets match the edges or are secret, with a held ticket for the first edge, is generated |
| Moves.RouteComplete | cw-model/src/main/java/uk/ac/bris/cs/scotlandyard/model/MyGameStateFactory.java:219-241 | for one route and first transport, every affordable double whose first leg uses that transport's ticket or a secret one, and whose second leg matches the edge or is secret, is generated |
| GameState.DetectivePieces | cw-model/src/main/java/uk/ac/bris/cs/scotlandyard/model/MyGameStateFactory.java:123-126 | the winning set is exactly the pieces of the detectives |
| GameState.AllMoves | cw-model/src/main/java/uk/ac/bris/cs/scotlandyard/model/MyGameStateFactory.java:58-76 | the moves are exactly the single moves of the players in `remaining` and, when MrX is in `remaining`, his double moves |
| GameState.CheckGameOver | cw-model/src/main/java/uk/ac/bris/cs/scotlandyard/model/MyGameStateFactory.java:111-142 | MrX wins when no detective holds a ticket or the rounds are used up; otherwise the detectives win when MrX is cornered on his turn or caught; the winner is empty exactly when the game goes on |
| GameState.Build | cw-model/src/main/java/uk/ac/bris/cs/scotlandyard/model/MyGameStateFactory.java:37-82 | construction succeeds exactly when the players and setup pass the checks, otherwise an illegal argument; the built state stores its inputs with the derived moves and winner |
| GameState.AvailableMoves | cw-model/src/main/java/uk/ac/bris/cs/scotlandyard/model/MyGameStateFactory.java:403-406 | the available moves are exactly the moves while there is no winner and none once there is one; they belong to pieces whose turn it is, and are never empty on MrX's turn without a winner |
| GameState.UpdateLog | cw-model/src/main/java/uk/ac/bris/cs/scotlandyard/model/MyGameStateFactory.java:323-329 | the log becomes the old log plus one entry: the leg's ticket, with the destination revealed exactly when that round is a reveal round; a round past the setup is an index error |
| GameState.UpdateRemaining | cw-model/src/main/java/uk/ac/bris/cs/scotlandyard/model/MyGameStateFactory.java:340-364 | after MrX, the detectives holding a ticket; after a detective with others left, the ticket-holding remaining detectives but the mover; otherwise MrX |
| GameState.MoveDetective | cw-model/src/main/java/uk/ac/bris/cs/scotlandyard/model/MyGameStateFactory.java:302-313 | the mover spends the ticket and moves to the destination; every other detective is unchanged |
| GameState.MrXSingle | cw-model/src/main/java/uk/ac/bris/cs/scotlandyard/model/MyGameStateFactory.java:288-291 | MrX's single move succeeds exactly when a round is left and the checks pass; MrX spends exactly the leg's ticket and ends at the destination; the detectives are unchanged; the log gains exactly the entry for the leg in the current round, revealed iff that round is a reveal round |
| GameState.MrXDouble | cw-model/src/main/java/uk/ac/bris/cs/scotlandyard/model/MyGameStateFactory.java:288-299 | MrX's double move succeeds exactly when two rounds are left and the checks pass; it spends both legs' tickets and the double ticket and ends at the second destination; the log gains exactly the first leg's entry in the current round and the second leg's in the next, each revealed iff its round is a reveal round |
| GameState.DetectiveTravels | cw-model/src/main/java/uk/ac/bris/cs/scotlandyard/model/MyGameStateFactory.java:301-317 | only the mover changes: it becomes the old detective that has used the ticket and stands at the destination; the other detectives are unchanged; MrX stays put and receives the spent ticket; the log is unchanged |
| GameState.Receive | cw-model/src/main/java/uk/ac/bris/cs/scotlandyard/model/MyGameStateFactory.java:311 | MrX receives the move's tickets when the mover is a detective in play, and otherwise nothing |
| GameState.Advance | cw-model/src/main/java/uk/ac/bris/cs/scotlandyard/model/MyGameStateFactory.java:263-320 | a move not among the moves is an illegal argument; otherwise the result is exactly that of the detective move, MrX's single move or MrX's double move; an MrX move spends its tickets, ends at its final destination, leaves detectives alone and logs exactly one entry per leg, revealed iff its round is a reveal round; a detective move leaves MrX's location and the log alone |
| Invariants.NewGame | cw-model/src/main/java/uk/ac/bris/cs/scotlandyard/model/MyGameStateFactory.java:423-428 | `build` under either double rule (`AsWritten` is the code's own) succeeds exactly when the checks pass, and then stores that rule with MrX to move and an empty log; under the corrected rule the new game is valid |
| Invariants.MrXSingleStep | cw-model/src/main/java/uk/ac/bris/cs/scotlandyard/model/MyGameStateFactory.java:288-291 | an available single move of MrX always advances, to a valid game |
| Invariants.ChargeSingle | cw-model/src/main/java/uk/ac/bris/cs/scotlandyard/model/MyGameStateFactory.java:289 | paying a single move with a held ticket leaves no ticket count negative |
| Invariants.ChargeDouble | cw-model/src/main/java/uk/ac/bris/cs/scotlandyard/model/MyGameStateFactory.java:289-296 | paying an affordable double move leaves no ticket count negative |
| Invariants.MrXDoubleStep | cw-model/src/main/java/uk/ac/bris/cs/scotlandyard/model/MyGameStateFactory.java:288-299 | an available double move of MrX always advances, to a valid game |
| Invariants.MoveDetectiveKeepsOk | cw-model/src/main/java/uk/ac/bris/cs/scotlandyard/model/MyGameStateFactory.java:302-313 | moving a detective to an unoccupied node with a held transport ticket keeps the detectives legal, distinct and non-negative |
| Invariants.DetectiveOrigin | cw-model/src/main/java/uk/ac/bris/cs/scotlandyard/model/MyGameStateFactory.java:145-165 | a detective's move is a single move by a detective in play, with a held transport ticket, to an unoccupied node |
| Invariants.DetectiveStep | cw-model/src/main/java/uk/ac/bris/cs/scotlandyard/model/MyGameStateFactory.java:301-317 | an available detective move always advances, to a valid game |
| Invariants.AdvanceKeepsValid | cw-model/src/main/java/uk/ac/bris/cs/scotlandyard/model/MyGameStateFactory.java:263-320 | in a valid game, every available move advances without error to a valid game |
| ModelFactory.RemoveFirst | cw-model/src/main/java/uk/ac/bris/cs/scotlandyard/model/MyModelFactory.java:52 | `List.remove` takes one occurrence off the multiset, and changes nothing when the element is absent |
| ModelFactory.NewModel | cw-model/src/main/java/uk/ac/bris/cs/scotlandyard/model/MyModelFactory.java:19-36 | the model exists exactly when the game builds, holds the game `build` returns under the same double rule, and starts with no observers, MrX to move and an empty log |
| ModelFactory.Register | cw-model/src/main/java/uk/ac/bris/cs/scotlandyard/model/MyModelFactory.java:43-47 | null is a null-pointer error and a registered observer an illegal argument; otherwise the observer is appended and the registry stays duplicate-free |
| ModelFactory.Unregister | cw-model/src/main/java/uk/ac/bris/cs/scotlandyard/model/MyModelFactory.java:49-53 | null is a null-pointer error and an unregistered observer an illegal argument; otherwise exactly one occurrence of it is removed |
| ModelFactory.Observers | cw-model/src/main/java/uk/ac/bris/cs/scotlandyard/model/MyModelFactory.java:55-58 | the observer set holds exactly the registered observers |
| ModelFactory.RemoveAppended | cw-model/src/main/java/uk/ac/bris/cs/scotlandyard/model/MyModelFactory.java:46-52 | removing an element just appended to a list that lacked it gives back the list |
| ModelFactory.RegisterUnregister | cw-model/src/main/java/uk/ac/bris/cs/scotlandyard/model/MyModelFactory.java:43-53 | registering then unregistering the same observer restores the previous model |
| ModelFactory.UnregisterRemovesExactly | cw-model/src/main/java/uk/ac/bris/cs/scotlandyard/model/MyModelFactory.java:49-58 | in a duplicate-free registry, unregistering removes exactly that observer from the observer set |
| ModelFactory.CountOfDistinct | cw-model/src/main/java/uk/ac/bris/cs/scotlandyard/model/MyModelFactory.java:45-46 | in a duplicate-free registry each registered observer occurs exactly once |
| ModelFactory.ChooseMove | cw-model/src/main/java/uk/ac/bris/cs/scotlandyard/model/MyModelFactory.java:66-70 | the state becomes `advance(move)`, the observers are kept, and the event is GAME_OVER exactly when the new winner set is non-empty |
| ModelFactory.ChooseAvailableMove | cw-model/src/main/java/uk/ac/bris/cs/scotlandyard/model/MyModelFactory.java:66-70 | in a valid game an available move never fails, keeps the game valid, and GAME_OVER leaves no available move |
| Findings.LastRoundDoubleGenerated | cw-model/src/main/java/uk/ac/bris/cs/scotlandyard/model/MyGameStateFactory.java:214 | as written, a double move is generated in the last round of a two-round game |
| Findings.LastRoundDoubleFails | cw-model/src/main/java/uk/ac/bris/cs/scotlandyard/model/MyGameStateFactory.java:323-329 | with one round left and MrX to move, any generated double move is available, and advancing it is an index error |
| Findings.LastRoundDouble | cw-model/src/main/java/uk/ac/bris/cs/scotlandyard/model/MyGameStateFactory.java:214 | a concrete game is built whose available double move makes `advance` fail with an index error |
| Findings.SecretTwiceWithOneSecret | cw-model/src/main/java/uk/ac/bris/cs/scotlandyard/model/MyGameStateFactory.java:226-229 | as written, MrX holding one secret ticket is offered a double move that spends two |

## Left out

- The wall-clock cut-off of `maximiser` and `minimiser` (`System.currentTimeMillis`) is not modelled. The search is modelled as run to completion, the case where the deadline never fires.
- `new Random().nextInt` in `pickMove` becomes the parameter `pick`, reduced modulo the number of best moves.
- The static `distancesMap` cache is pure memoisation. Distances are recomputed as a function of the source.
- Floating point is not modelled. The median is kept doubled, and `0.3 × |adjacent|` is compared as `10·|r| < 3·|adjacent|`. Both are exact for the integer values involved.
- Priority.PlaceIn: keys are compared as unbounded integers. In Java the comparator's `score1 - score2` overflows when two scores are far apart, for example when one location's median distance is unreachable and its score saturates at MAX_VALUE. The set's order then differs from the model's.
- Java's `HashSet` iteration order is not modelled. Where the code iterates a `HashSet`, the model uses adjacency order instead. This applies to the inner plies' `new HashSet<>(singleLocations)` (JarvisX.java:107), `doubleLocations` (JarvisX.java:97) and `reducedAdjacent` (JarvisX.java:203). The sets' contents are modelled exactly, but the order can change which branches alpha-beta cuts off and, at the root, which of two equal-score locations the `TreeSet` keeps.
- Search.Minimiser: alpha-beta pruning is not proved equal to plain minimax. The contracts state bounds and the location rules only.
- Search.Maximiser: the pair's score is tied to `score` only at the horizon ply (`Search.HorizonMaximiser`). At inner plies it is not proved equal to the minimum over the detectives' replies, because alpha-beta is not proved equal to minimax.
- MinLoop: each reply is evaluated with `beta` narrowed by the earlier replies, and its value is not proved independent of that window. `Search.MinLoopAttained` and `Search.MinLoopBelowEvery` therefore speak of some evaluation with `beta` at most the starting one.
- Search.Maximiser: the model requires that the search depth and the horizon have the same parity. That is the case for the only call, from depth 1 with horizon 5.
- Distances.FindDistances: the table is not claimed to hold shortest distances, and neighbouring nodes' entries are not claimed to differ by at most one. The code does not compute shortest distances, as the counterexample above shows.
- Node ids of the AI's graph are assumed to lie in the 200-entry table (`AiGraph.WellFormed`). Guava's graph would accept larger ids, and the code would then fail with an index error.
- A player location that is not a node of the rules graph gets no moves in the model. Guava's `adjacentNodes` would throw instead.
- `updateLog` increments the old state's `round` field. The model computes the round from the log length of the state being advanced, so advancing the same state twice is not modelled.
- `notifyObserver` and the observers' callbacks are foreign calls. Only the emitted event is modelled.
- The board queries are not modelled: `getDetectiveLocations`, `getPlayers`, `getDetectiveLocation`, `getPlayerTickets`, `MyTicketBoard`, `getSetup` and `getMrXTravelLog`.
- `Player`, `GameSetup`, `Transport`, `LogEntry` and `Move` are framework classes outside this model. They become small datatypes (`Types`). `use`, `at` and `give` are decrement, relocate and increment, with no check that a ticket is held.
- Moves.MakeDoubleMoves: completeness (`Moves.DoubleMovesComplete`) is proved for the corrected rule only. The as-written rule also offers moves that are not affordable, as the findings below show. Under both rules a secret-first double move still needs a held ticket of some transport on the first edge.
- The game can stall with no winner and no available move. This happens when every remaining detective holds tickets but none can reach an unoccupied node with them. The code does not say what should happen then, so this is not reported as a defect.

## Findings

| source | as written | input that shows it | evidently intended | confidence | as-written member | corrected member |
|---|---|---|---|---|---|---|
| cw-model/src/main/java/uk/ac/bris/cs/scotlandyard/model/MyGameStateFactory.java:214 | double moves are refused only when the whole game has one round, so MrX is offered doubles in the last round; `advance` then reads `rounds.get(round)` one past the end (lines 323-329) | taxi line 1-2-3, rounds [false, false], log of one entry, MrX on 1 with 2 taxi and 1 double ticket: `Double(MrX, 1, Taxi, 2, Taxi, 3)` is available and `advance` throws IndexOutOfBounds | a double move is offered only when at least two rounds remain | not executed | Findings.LastRoundDouble | Invariants.AdvanceKeepsValid |
| cw-model/src/main/java/uk/ac/bris/cs/scotlandyard/model/MyGameStateFactory.java:226-229 | the secret-first second leg is checked against the count of the first edge's ticket, so a secret second leg passes `ticket2 == ticket1 && count >= 2` with a single secret ticket | route 1-2 by taxi, 2-3 by ferry; MrX on 1 with 2 taxi, 1 secret and 1 double ticket is offered `Double(MrX, 1, Secret, 2, Secret, 3)` | the secret-first leg uses the secret count, so two secret legs need two secret tickets | not executed | Findings.SecretTwiceWithOneSecret | Moves.MakeDoubleMoves |

=== FILE: aigraph.dfy ===
/** The board as the AI iterates over it: each node's neighbours in the
    (unspecified, but fixed) order `adjacentNodes` yields them. */
module AiGraph {
  import opened Wrappers

  /** The distance table has this many entries; node ids must index it. */
  const TableSize: int := 200

  type Adjacency = map<int, seq<int>>

  /** No element occurs twice. */
  ghost predicate NoDuplicates(s: seq<int>) {
    forall i, j :: 0 <= i < j < |s| ==> s[i] != s[j]
  }

  /** Node ids fit the distance table, neighbours are nodes, and each
      neighbour list is a set. */
  ghost predicate WellFormed(g: Adjacency) {
    forall v :: v in g ==>
      && 0 <= v < TableSize
      && (forall k :: 0 <= k < |g[v]| ==> g[v][k] in g)
      && NoDuplicates(g[v])
  }

  /** `adjacentNodes(v)`, which rejects a node that is not in the graph. */
  function Neighbours(g: Adjacency, v: int): (r: Result<seq<int>>)
    ensures r.Success? <==> v in g
    ensures r.Success? ==> r.value == g[v]
  {
    if v in g then Success(g[v]) else Failure(IllegalArgument("node not in graph"))
  }

  lemma {:induction false} DistinctElements(s: seq<int>)
    requires NoDuplicates(s)
    ensures |set x | x in s| == |s|
  {
    if s != [] {
      var rest := s[1..];
      DistinctElements(rest);
      assert s == [s[0]] + rest;
      assert (set x | x in s) == (set x | x in rest) + {s[0]};
      assert s[0] !in (set x | x in rest);
    }
  }

  /** The ids 0 .. n-1. */
  function Range(n: nat): (r: set<int>)
    ensures |r| == n
    ensures forall i :: i in r <==> 0 <= i < n
  {
    if n == 0 then {} else Range(n - 1) + {n - 1}
  }

  lemma SubsetSize(a: set<int>, b: set<int>)
    requires a <= b
    ensures |a| <= |b|
  {
    assert b == a + (b - a) && a * (b - a) == {};
  }

  /** No node has more neighbours than the table has entries. */
  lemma DegreeBound(g: Adjacency, v: int)
    requires WellFormed(g) && v in g
    ensures |g[v]| <= TableSize
  {
    DistinctElements(g[v]);
    SubsetSize((set x | x in g[v]), Range(TableSize));
  }
}

=== FILE: checks.dfy ===
/** The constructor's argument checks (`checkPlayerAttributes`, `checkSetup`). */
module Checks {
  import opened Wrappers
  import opened Types

  /** A detective holding a ticket only MrX may hold. */
  predicate IllegalTicket(d: Player) {
    d.Has(Secret) || d.Has(DoubleTicket)
  }

  /** Every entry of `detectives` is a detective without illegal tickets. */
  predicate DetectivesOk(detectives: seq<Player>) {
    forall i :: 0 <= i < |detectives| ==> detectives[i].piece.IsDetective() && !IllegalTicket(detectives[i])
  }

  /** No two detectives share a colour or a location. */
  predicate Distinct(detectives: seq<Player>) {
    forall i, j :: 0 <= i < j < |detectives| ==>
      detectives[i].piece != detectives[j].piece && detectives[i].location != detectives[j].location
  }

  predicate PlayersOk(mrX: Player, detectives: seq<Player>) {
    mrX.piece.IsMrX() && DetectivesOk(detectives) && Distinct(detectives)
  }

  predicate SetupOk(setup: GameSetup) {
    |setup.rounds| > 0 && |setup.graph| > 0
  }

  /** The first loop of `checkPlayerAttributes`, from `detectives[0]` on. */
  function CheckDetectives(detectives: seq<Player>): (r: Result<()>)
    ensures r.Success? <==> DetectivesOk(detectives)
    ensures r.Failure? ==> r.error.IllegalArgument?
  {
    if detectives == [] then Success(())
    else if !detectives[0].piece.IsDetective() then Failure(IllegalArgument("It is not a detective!"))
    else if IllegalTicket(detectives[0]) then Failure(IllegalArgument("Detective has illegal ticket!"))
    else
      var r := CheckDetectives(detectives[1..]);
      assert forall i :: 1 <= i < |detectives| ==> detectives[i] == detectives[1..][i - 1];
      r
  }

  /** The inner loop of the pair check: detective `i` against `j` and later ones. */
  function CheckRow(detectives: seq<Player>, i: nat, j: nat): (r: Result<()>)
    requires i < |detectives|
    ensures r.Success? <==> forall k :: j <= k < |detectives| ==>
              detectives[i].piece != detectives[k].piece && detectives[i].location != detectives[k].location
    ensures r.Failure? ==> r.error.IllegalArgument?
    decreases |detectives| - j
  {
    if j >= |detectives| then Success(())
    else if detectives[i].piece == detectives[j].piece then
      Failure(IllegalArgument("More than one detective with same colour!"))
    else if detectives[i].location == detectives[j].location then
      Failure(IllegalArgument("More than one detective in the same location!"))
    else CheckRow(detectives, i, j + 1)
  }

  /** The outer loop of the pair check, from row `i` on. */
  function CheckPairs(detectives: seq<Player>, i: nat): (r: Result<()>)
    ensures r.Success? <==> forall a, b :: i <= a < b < |detectives| ==>
              detectives[a].piece != detectives[b].piece && detectives[a].location != detectives[b].location
    ensures r.Failure? ==> r.error.IllegalArgument?
    decreases |detectives| - i
  {
    if i >= |detectives| then Success(())
    else
      var row := CheckRow(detectives, i, i + 1);
      if row.Failure? then row
      else CheckPairs(detectives, i + 1)
  }

  /** `checkPlayerAttributes`: MrX first, then each detective, then each pair. */
  function CheckPlayerAttributes(mrX: Player, detectives: seq<Player>): (r: Result<()>)
    ensures r.Success? <==> PlayersOk(mrX, detectives)
    ensures r.Failure? ==> r.error.IllegalArgument?
  {
    if !mrX.piece.IsMrX() then Failure(IllegalArgument("No MrX!"))
    else
      var _ :- CheckDetectives(detectives);
      CheckPairs(detectives, 0)
  }

  /** `checkSetup`: the rounds and the graph must not be empty. */
  function CheckSetup(setup: GameSetup): (r: Result<()>)
    ensures r.Success? <==> SetupOk(setup)
    ensures r.Failure? ==> r.error.IllegalArgument?
  {
    if |setup.rounds| == 0 then Failure(IllegalArgument("Empty Rounds!"))
    else if |setup.graph| == 0 then Failure(IllegalArgument("Empty Graph!"))
    else Success(())
  }
}

=== FILE: distances.dfy ===
/** The AI's distance table (`findDistances` and `topOfPriorityQueue`):
    a Dijkstra-shaped relaxation loop over a 200-entry table whose
    "priority queue" yields the highest-numbered unvisited node with a
    finite entry rather than the closest one. */
module Distances {
  import opened Wrappers
  import opened Int32
  import opened AiGraph

  /** The entry of a node nothing has reached (`Integer.MAX_VALUE`). */
  const Unreachable: int := MaxValue

  ghost predicate IsTable(d: seq<int>) {
    |d| == TableSize && forall i :: 0 <= i < |d| ==> 0 <= d[i] <= Unreachable
  }

  /** `i` is reachable from `s` along at most `k` edges. */
  ghost predicate ReachWithin(g: Adjacency, s: int, i: int, k: nat)
    decreases k
  {
    i == s || (k > 0 && exists j :: j in g && i in g[j] && ReachWithin(g, s, j, k - 1))
  }

  /** The scan of `topOfPriorityQueue` from index `i` on, with `top` the
      candidate so far; `min` is compared against but never lowered. */
  function Scan(d: seq<int>, visited: set<int>, min: int, i: int, top: int): (r: int)
    requires 1 <= i
    requires top == -1 || (1 <= top < i && top < |d| && d[top] < min && top !in visited)
    ensures r == -1 || (1 <= r < |d| && d[r] < min && r !in visited)
    ensures r == top || r >= i
    ensures forall k :: i <= k < |d| && r < k ==> !(d[k] < min && k !in visited)
    decreases |d| - i
  {
    if i >= |d| then top
    else Scan(d, visited, min, i + 1, if d[i] < min && !(i in visited) then i else top)
  }

  /** The next node to expand: the LARGEST index from 1 on that is unvisited
      and has a finite entry, or -1 when there is none. */
  function TopOfPriorityQueue(d: seq<int>, visited: set<int>): (top: int)
    ensures top == -1 || (1 <= top < |d| && d[top] < Unreachable && top !in visited)
    ensures forall k :: 1 <= k < |d| && top < k ==> !(d[k] < Unreachable && k !in visited)
  {
    var min := Unreachable;
    Scan(d, visited, min, 1, -1)
  }

  /** Lowers the entry of each neighbour of `src` to `d[src] + 1` where that is smaller. */
  function Relax(d: seq<int>, src: int, nbrs: seq<int>): (r: seq<int>)
    requires 0 <= src < |d| && d[src] < Unreachable
    requires forall k :: 0 <= k < |nbrs| ==> 0 <= nbrs[k] < |d|
    ensures |r| == |d| && r[src] == d[src]
    ensures forall i :: 0 <= i < |d| ==> r[i] <= d[i]
    ensures forall i :: 0 <= i < |d| ==> r[i] == d[i] || (r[i] == d[src] + 1 && i in nbrs)
    ensures forall k :: 0 <= k < |nbrs| ==> r[nbrs[k]] <= d[src] + 1
    decreases |nbrs|
  {
    if nbrs == [] then d
    else
      var loc := nbrs[0];
      var d' := if d[src] + 1 < d[loc] then d[loc := d[src] + 1] else d;
      var r := Relax(d', src, nbrs[1..]);
      RelaxCons(d, src, nbrs, d', r);
      r
  }

  /** Relaxing the first neighbour and then the rest relaxes them all. */
  lemma RelaxCons(d: seq<int>, src: int, nbrs: seq<int>, d': seq<int>, r: seq<int>)
    requires 0 <= src < |d| && d[src] < Unreachable && nbrs != []
    requires forall k :: 0 <= k < |nbrs| ==> 0 <= nbrs[k] < |d|
    requires d' == if d[src] + 1 < d[nbrs[0]] then d[nbrs[0] := d[src] + 1] else d
    requires |r| == |d'| && r[src] == d'[src]
    requires forall i :: 0 <= i < |d'| ==> r[i] <= d'[i]
    requires forall i :: 0 <= i < |d'| ==> r[i] == d'[i] || (r[i] == d'[src] + 1 && i in nbrs[1..])
    requires forall k :: 0 <= k < |nbrs[1..]| ==> r[nbrs[1..][k]] <= d'[src] + 1
    ensures |r| == |d| && r[src] == d[src]
    ensures forall i :: 0 <= i < |d| ==> r[i] <= d[i]
    ensures forall i :: 0 <= i < |d| ==> r[i] == d[i] || (r[i] == d[src] + 1 && i in nbrs)
    ensures forall k :: 0 <= k < |nbrs| ==> r[nbrs[k]] <= d[src] + 1
  {
    var loc := nbrs[0];
    assert d'[src] == d[src] && d'[loc] <= d[src] + 1;
    assert forall k :: 1 <= k < |nbrs| ==> nbrs[1..][k - 1] == nbrs[k];
    assert forall x :: x in nbrs[1..] ==> x in nbrs;
  }

  /** Entry `i` is the source's, unreached, or one more than at least an
      entry of a node that has `i` as a neighbour. */
  ghost predicate Supported(g: Adjacency, d: seq<int>, s0: int, i: int)
    requires 0 <= i < |d|
  {
    i == s0 || d[i] == Unreachable
    || exists j :: 0 <= j < |d| && j in g && i in g[j] && d[j] < d[i]
  }

  ghost predicate LoopInv(g: Adjacency, d: seq<int>, s0: int, visited: set<int>, src: int) {
    && WellFormed(g)
    && IsTable(d)
    && 0 <= s0 < |d| && d[s0] == 0
    && visited <= g.Keys
    && src !in visited
    && (src == -1 || (0 <= src < |d| && d[src] < Unreachable))
    && (forall i :: 0 <= i < |d| ==> Supported(g, d, s0, i))
    && (forall v :: v in visited ==> 0 <= v < |d| && d[v] < Unreachable)
  }

  lemma RelaxKeepsSupport(g: Adjacency, d: seq<int>, s0: int, src: int)
    requires WellFormed(g) && IsTable(d) && 0 <= s0 < |d|
    requires src in g && d[src] < Unreachable
    requires forall i :: 0 <= i < |d| ==> Supported(g, d, s0, i)
    ensures forall i :: 0 <= i < |d| ==> Supported(g, Relax(d, src, g[src]), s0, i)
  {
    var r := Relax(d, src, g[src]);
    forall i | 0 <= i < |d|
      ensures Supported(g, r, s0, i)
    {
      if r[i] != d[i] {
        assert r[src] < r[i] && i in g[src];
      } else if i != s0 && d[i] != Unreachable {
        assert Supported(g, d, s0, i);
        var j :| 0 <= j < |d| && j in g && i in g[j] && d[j] < d[i];
        assert r[j] < r[i];
      }
    }
  }

  lemma SubsetOfSameSize(a: set<int>, b: set<int>)
    requires a <= b && |a| == |b|
    ensures a == b
  {
    var c := b - a;
    assert b == a + c && a * c == {};
    assert |b| == |a| + |c|;
  }

  /** The `while (visited.size() != map.nodes().size())` loop from the
      state (`d`, `visited`, `src`). */
  function DistanceLoop(g: Adjacency, d: seq<int>, s0: int, visited: set<int>, src: int): (r: Result<seq<int>>)
    requires LoopInv(g, d, s0, visited, src)
    ensures r.Success? ==> Settled(g, d, s0, r.value)
    ensures r.Failure? ==> r.error.IllegalArgument?
    decreases g.Keys - visited
  {
    if |visited| == |g.Keys| then
      AllVisitedIsSettled(g, d, s0, visited, src);
      Success(d)
    else
      var nbrs :- Neighbours(g, src);
      var d' := Relax(d, src, nbrs);
      var visited' := visited + {src};
      StepKeepsInv(g, d, s0, visited, src);
      var r := DistanceLoop(g, d', s0, visited', TopOfPriorityQueue(d', visited'));
      if r.Success? then
        SettledBelow(g, d, d', s0, r.value);
        r
      else r
  }

  /** With every node visited, the table itself is the loop's outcome. */
  lemma AllVisitedIsSettled(g: Adjacency, d: seq<int>, s0: int, visited: set<int>, src: int)
    requires LoopInv(g, d, s0, visited, src) && |visited| == |g.Keys|
    ensures Settled(g, d, s0, d)
  {
    SubsetOfSameSize(visited, g.Keys);
  }

  /** A table settled below `d'` is settled below any `d` above `d'`. */
  lemma SettledBelow(g: Adjacency, d: seq<int>, d': seq<int>, s0: int, r: seq<int>)
    requires WellFormed(g) && 0 <= s0 < |d| == |d'|
    requires forall i :: 0 <= i < |d| ==> d'[i] <= d[i]
    requires Settled(g, d', s0, r)
    ensures Settled(g, d, s0, r)
  {
  }

  /** What the loop leaves behind when every node is visited: a table with
      the source at 0, no entry above the starting one, every entry
      supported, and every node of the graph reached. */
  ghost predicate Settled(g: Adjacency, d: seq<int>, s0: int, r: seq<int>)
    requires WellFormed(g) && 0 <= s0 < |d|
  {
    && IsTable(r) && |r| == |d| && r[s0] == 0
    && (forall i :: 0 <= i < |d| ==> r[i] <= d[i])
    && (forall i :: 0 <= i < |d| ==> Supported(g, r, s0, i))
    && (forall v :: v in g ==> r[v] < Unreachable)
  }

  /** One expansion of `src` keeps the loop invariant and lowers no entry. */
  lemma StepKeepsInv(g: Adjacency, d: seq<int>, s0: int, visited: set<int>, src: int)
    requires LoopInv(g, d, s0, visited, src) && src in g
    ensures var d' := Relax(d, src, g[src]);
            && LoopInv(g, d', s0, visited + {src}, TopOfPriorityQueue(d', visited + {src}))
            && (forall i :: 0 <= i < |d| ==> d'[i] <= d[i])
  {
    RelaxKeepsSupport(g, d, s0, src);
  }

  lemma {:induction false} ReachMonotone(g: Adjacency, s: int, i: int, k: nat, k': nat)
    requires k <= k' && ReachWithin(g, s, i, k)
    ensures ReachWithin(g, s, i, k')
    decreases k
  {
    if i != s {
      var j :| j in g && i in g[j] && ReachWithin(g, s, j, k - 1);
      ReachMonotone(g, s, j, k - 1, k' - 1);
    }
  }

  /** A supported table only holds lengths of real walks from the source. */
  lemma {:induction false} SupportedIsReachable(g: Adjacency, d: seq<int>, s0: int, i: int)
    requires IsTable(d) && 0 <= s0 < |d|
    requires forall k :: 0 <= k < |d| ==> Supported(g, d, s0, k)
    requires 0 <= i < |d| && d[i] < Unreachable
    ensures ReachWithin(g, s0, i, d[i])
    decreases d[i]
  {
    if i != s0 {
      assert Supported(g, d, s0, i);
      var j :| 0 <= j < |d| && j in g && i in g[j] && d[j] < d[i];
      SupportedIsReachable(g, d, s0, j);
      ReachMonotone(g, s0, j, d[j], d[i] - 1);
    }
  }

  /** `v` is reachable from `s` along some walk. */
  ghost predicate Reachable(g: Adjacency, s: int, v: int) {
    exists k: nat :: ReachWithin(g, s, v, k)
  }

  /** The sources from which the loop visits every node: every node is
      reachable, and node 0, which the scan never yields, is a node only
      when it is the source itself. */
  ghost predicate Completes(g: Adjacency, s: int) {
    && (forall v :: v in g ==> Reachable(g, s, v))
    && (0 in g ==> s == 0)
  }

  /** What the loop keeps, beyond `LoopInv`, from a source that `Completes`:
      the source is expanded first, `src` is the scan's choice afterwards,
      every neighbour of a visited node is reached, and no finite entry
      exceeds the number of nodes visited. */
  ghost predicate Progress(g: Adjacency, d: seq<int>, s0: int, visited: set<int>, src: int)
    requires LoopInv(g, d, s0, visited, src)
  {
    && Completes(g, s0)
    && (visited == {} ==> src == s0)
    && (visited != {} ==> s0 in visited && src == TopOfPriorityQueue(d, visited))
    && (forall j, u :: j in visited && u in g[j] ==> 0 <= u < |d| && d[u] < Unreachable)
    && (forall i :: 0 <= i < |d| && d[i] < Unreachable ==> d[i] <= |visited|)
  }

  /** A walk into a node starts at a node. */
  lemma {:induction false} WalkStartsAtNode(g: Adjacency, s: int, v: int, k: nat)
    requires v in g && ReachWithin(g, s, v, k)
    ensures s in g
    decreases k
  {
    if v != s {
      var j :| j in g && v in g[j] && ReachWithin(g, s, j, k - 1);
      WalkStartsAtNode(g, s, j, k - 1);
    }
  }

  /** A walk from a visited node to an unvisited one steps from some
      visited node `j` to an unvisited neighbour `u`. */
  lemma {:induction false} Frontier(g: Adjacency, visited: set<int>, s: int, v: int, k: nat)
    returns (j: int, u: int)
    requires s in visited && v !in visited && ReachWithin(g, s, v, k)
    ensures j in visited && j in g && u in g[j] && u !in visited
    decreases k
  {
    var j' :| j' in g && v in g[j'] && ReachWithin(g, s, j', k - 1);
    if j' in visited {
      j, u := j', v;
    } else {
      j, u := Frontier(g, visited, s, j', k - 1);
    }
  }

  /** The graph has at most as many nodes as the table has entries. */
  lemma NodeCount(g: Adjacency)
    requires WellFormed(g)
    ensures |g.Keys| <= TableSize
  {
    SubsetSize(g.Keys, Range(TableSize));
  }

  /** A node outside a smaller subset of the nodes. */
  lemma Unvisited(keys: set<int>, visited: set<int>) returns (v: int)
    requires visited <= keys && |visited| < |keys|
    ensures v in keys && v !in visited
  {
    var rest := keys - visited;
    if forall y :: y !in rest {
      forall y | y in keys
        ensures y in visited
      {
        assert y !in rest;
      }
      SubsetSize(keys, visited);
    }
    var x :| x in rest;
    v := x;
  }

  /** While nodes remain unvisited, the node to expand is a node of the graph. */
  lemma ExpandsNode(g: Adjacency, d: seq<int>, s0: int, visited: set<int>, src: int)
    requires LoopInv(g, d, s0, visited, src) && Progress(g, d, s0, visited, src)
    requires |visited| < |g.Keys|
    ensures src in g
  {
    var v := Unvisited(g.Keys, visited);
    var k: nat :| ReachWithin(g, s0, v, k);
    if visited == {} {
      WalkStartsAtNode(g, s0, v, k);
    } else {
      if src == -1 {
        var j, u := Frontier(g, visited, s0, v, k);
        assert false;
      }
      assert Supported(g, d, s0, src);
    }
  }

  /** One expansion from a source that `Completes` keeps `Progress`. */
  lemma ProgressKept(g: Adjacency, d: seq<int>, s0: int, visited: set<int>, src: int)
    requires LoopInv(g, d, s0, visited, src) && Progress(g, d, s0, visited, src)
    requires |visited| < |g.Keys| && src in g
    ensures var d' := Relax(d, src, g[src]);
            && LoopInv(g, d', s0, visited + {src}, TopOfPriorityQueue(d', visited + {src}))
            && Progress(g, d', s0, visited + {src}, TopOfPriorityQueue(d', visited + {src}))
  {
    StepKeepsInv(g, d, s0, visited, src);
    NodeCount(g);
    var d' := Relax(d, src, g[src]);
    var visited' := visited + {src};
    assert |visited'| == |visited| + 1;
    forall j, u | j in visited' && u in g[j]
      ensures 0 <= u < |d'| && d'[u] < Unreachable
    {
      if j == src {
        var k :| 0 <= k < |g[src]| && g[src][k] == u;
      }
    }
  }

  /** From a source that `Completes`, the loop runs to the end. */
  lemma {:induction false} LoopCompletes(g: Adjacency, d: seq<int>, s0: int, visited: set<int>, src: int)
    requires LoopInv(g, d, s0, visited, src) && Progress(g, d, s0, visited, src)
    ensures DistanceLoop(g, d, s0, visited, src).Success?
    decreases g.Keys - visited
  {
    if |visited| != |g.Keys| {
      assert |visited| < |g.Keys| by {
        SubsetSize(visited, g.Keys);
      }
      ExpandsNode(g, d, s0, visited, src);
      ProgressKept(g, d, s0, visited, src);
      var d' := Relax(d, src, g[src]);
      LoopCompletes(g, d', s0, visited + {src}, TopOfPriorityQueue(d', visited + {src}));
    }
  }

  /** Only the source and indices the scan yields (1 and up) are visited. */
  ghost predicate FromOne(s0: int, visited: set<int>, src: int) {
    && (forall v :: v in visited ==> v == s0 || v >= 1)
    && (src == s0 || src == -1 || src >= 1)
  }

  /** A loop that completes has visited node 0 only as the source. */
  lemma {:induction false} CompletedFromOne(g: Adjacency, d: seq<int>, s0: int, visited: set<int>, src: int)
    requires LoopInv(g, d, s0, visited, src) && FromOne(s0, visited, src)
    requires DistanceLoop(g, d, s0, visited, src).Success?
    ensures 0 in g ==> s0 == 0
    decreases g.Keys - visited
  {
    if |visited| == |g.Keys| {
      SubsetOfSameSize(visited, g.Keys);
    } else {
      StepKeepsInv(g, d, s0, visited, src);
      var d' := Relax(d, src, g[src]);
      CompletedFromOne(g, d', s0, visited + {src}, TopOfPriorityQueue(d', visited + {src}));
    }
  }

  /** The loop from the initial table completes exactly from a source that `Completes`. */
  lemma LoopCompletesIff(g: Adjacency, d: seq<int>, source: int)
    requires LoopInv(g, d, source, {}, source)
    requires forall i :: 0 <= i < |d| && i != source ==> d[i] == Unreachable
    ensures DistanceLoop(g, d, source, {}, source).Success? <==> Completes(g, source)
  {
    var r := DistanceLoop(g, d, source, {}, source);
    if Completes(g, source) {
      LoopCompletes(g, d, source, {}, source);
    }
    if r.Success? {
      CompletedFromOne(g, d, source, {}, source);
      forall v | v in g
        ensures Reachable(g, source, v)
      {
        SupportedIsReachable(g, r.value, source, v);
      }
    }
  }

  /** `findDistances(source)`: the table, or the exception the loop raises. */
  function FindDistances(g: Adjacency, source: int): (r: Result<seq<int>>)
    requires WellFormed(g)
    ensures !(0 <= source < TableSize) ==> r == Failure(IndexOutOfBounds)
    ensures r.Success? ==> IsTable(r.value) && r.value[source] == 0
    ensures r.Success? ==> forall i :: 0 <= i < TableSize && r.value[i] < Unreachable ==>
              ReachWithin(g, source, i, r.value[i])
    ensures r.Success? ==> forall v :: v in g ==> r.value[v] < Unreachable
    ensures 0 <= source < TableSize ==> (r.Success? <==> Completes(g, source))
    ensures 0 <= source < TableSize && r.Failure? ==> r.error.IllegalArgument?
  {
    if !(0 <= source < TableSize) then Failure(IndexOutOfBounds)
    else
      var d := seq(TableSize, i => if i == source then 0 else Unreachable);
      assert forall i :: 0 <= i < |d| ==> Supported(g, d, source, i);
      var r := DistanceLoop(g, d, source, {}, source);
      LoopCompletesIff(g, d, source);
      if r.Success? then
        forall i | 0 <= i < TableSize && r.value[i] < Unreachable
          ensures ReachWithin(g, source, i, r.value[i])
        {
          SupportedIsReachable(g, r.value, source, i);
        }
        r
      else r
  }
}

=== FILE: driver.dfy ===
/** The AI's entry point `pickMove`: reads MrX's location and the
    destination of each available move, runs the search from the root and
    turns the best location back into one of the available moves. */
module Driver {
  import opened Wrappers
  import opened Int32
  import opened Types
  import opened AiGraph
  import opened Search

  const MaxDepth: int := 5

  /** What `extractMoveInfo` gathers: MrX's location, and each single
      (double) move with its (final) destination. */
  datatype MoveInfo = MoveInfo(source: int, singles: seq<(Move, int)>, doubles: seq<(Move, int)>)

  /** `extractMoveInfo(moves, singleMoves, doubleMoves)`. */
  function ExtractMoveInfo(moves: seq<Move>): (r: MoveInfo)
    ensures r.source == if moves == [] then 0 else moves[|moves| - 1].source
    ensures forall p :: p in r.singles ==> p.0 in moves && p.0.Single? && p.1 == p.0.destination
    ensures forall p :: p in r.doubles ==> p.0 in moves && p.0.Double? && p.1 == p.0.destination2
    ensures forall m :: m in moves && m.Single? ==> (m, m.destination) in r.singles
    ensures forall m :: m in moves && m.Double? ==> (m, m.destination2) in r.doubles
    decreases |moves|
  {
    if moves == [] then MoveInfo(0, [], [])
    else
      var last := moves[|moves| - 1];
      var prefix := ExtractMoveInfo(moves[..|moves| - 1]);
      assert moves == moves[..|moves| - 1] + [last];
      match last
      case Single(_, _, _, destination) =>
        MoveInfo(last.source, prefix.singles + [(last, destination)], prefix.doubles)
      case Double(_, _, _, _, _, destination2) =>
        MoveInfo(last.source, prefix.singles, prefix.doubles + [(last, destination2)])
  }

  /** The moves of `table` whose destination is `location`. */
  function MovesTo(table: seq<(Move, int)>, location: int): (r: seq<Move>)
    ensures forall m :: m in r <==> (m, location) in table
  {
    if table == [] then []
    else
      var rest := MovesTo(table[1..], location);
      assert table == [table[0]] + table[1..];
      if table[0].1 == location then [table[0].0] + rest else rest
  }

  /** The tail of `pickMove` once the search has settled on `bestLocation`:
      a move reaching it by a single move if one exists, else by a double
      move; `pick` stands for the random index. Fails as `nextInt(0)` does
      when no available move reaches the location. */
  function ChooseMove(moves: seq<Move>, bestLocation: int, pick: nat): (r: Result<Move>)
    ensures r.Success? ==> r.value in moves && r.value.FinalDestination() == bestLocation
    ensures r.Success? && r.value.Double? ==>
              forall m :: m in moves && m.Single? ==> m.destination != bestLocation
    ensures r.Success? <==> exists m :: m in moves && m.FinalDestination() == bestLocation
    ensures r.Failure? ==> r.error.IllegalArgument?
  {
    var info := ExtractMoveInfo(moves);
    var singleMoves := MovesTo(info.singles, bestLocation);
    var bestMoves := if |singleMoves| == 0 then MovesTo(info.doubles, bestLocation) else singleMoves;
    if |bestMoves| == 0 then Failure(IllegalArgument("bound must be positive"))
    else
      var chosen := bestMoves[pick % |bestMoves|];
      assert chosen in bestMoves;
      Success(chosen)
  }

  /** The search `pickMove` runs from MrX's location at the root, with the
      full window. Its best location is never a detective's, bar 0. */
  function RootSearch(g: Adjacency, moves: seq<Move>, occupied: seq<int>, doubleTickets: int): (r: Result<(int, int)>)
    requires WellFormed(g)
    ensures r.Success? && r.value.0 != 0 ==> r.value.0 !in occupied
  {
    Maximiser(g, ExtractMoveInfo(moves).source, occupied, 1, MaxDepth, MinValue, MaxValue, doubleTickets)
  }

  /** `pickMove`: the search from MrX's location, then the choice of a move
      reaching the best location. */
  function PickMove(g: Adjacency, moves: seq<Move>, occupied: seq<int>, doubleTickets: int, pick: nat): (r: Result<Move>)
    requires WellFormed(g)
    ensures r.Success? ==>
              var best := RootSearch(g, moves, occupied, doubleTickets);
              && best.Success?
              && r.value in moves
              && r.value.FinalDestination() == best.value.0
              && (r.value.Double? ==> forall m :: m in moves && m.Single? ==> m.destination != best.value.0)
    ensures r.Success? && r.value.FinalDestination() != 0 ==> r.value.FinalDestination() !in occupied
    ensures var best := RootSearch(g, moves, occupied, doubleTickets);
            && (best.Failure? ==> r == Failure(best.error))
            && (best.Success? ==>
                  (r.Success? <==> exists m :: m in moves && m.FinalDestination() == best.value.0))
            && (best.Success? && r.Failure? ==> r.error.IllegalArgument?)
  {
    var best :- RootSearch(g, moves, occupied, doubleTickets);
    ChooseMove(moves, best.0, pick)
  }
}

=== FILE: evaluator.dfy ===
/** The AI's position evaluator: the median detective distance and `score`. */
module Evaluator {
  import opened Wrappers
  import opened Int32
  import opened AiGraph
  import opened Distances
  import opened Sorting

  const DetectivePenalty: int := 500
  const FreeReward: int := 10

  /** Twice the median of `ds` as `medianDetectiveDistance` reads it after
      sorting: the middle element for an odd count, and for an even count the
      elements at n/2 and n/2+1 (one past the true middle pair), which are
      out of range for 0 and 2 elements. Doubling keeps the half-integer exact. */
  function TwiceMedianOf(ds: seq<int>): (r: Result<int>)
    ensures r.Failure? <==> |ds| == 0 || |ds| == 2
    ensures r.Failure? ==> r.error == IndexOutOfBounds
    ensures r.Success? && |ds| % 2 == 1 ==> exists i :: 0 <= i < |ds| && r.value == 2 * ds[i]
    ensures r.Success? && |ds| % 2 == 0 ==>
              exists i, j :: 0 <= i < |ds| && 0 <= j < |ds| && i != j && r.value == ds[i] + ds[j]
    ensures |ds| % 2 == 1 ==> r == Success(2 * Sort(ds)[|ds| / 2])
    ensures |ds| % 2 == 0 && |ds| >= 4 ==> r == Success(Sort(ds)[|ds| / 2] + Sort(ds)[|ds| / 2 + 1])
  {
    MedianOfSorted(ds);
    SortedMedian(Sort(ds))
  }

  /** What `SortedMedian` of the sorted distances is, stated about `ds`. */
  lemma {:induction false} MedianOfSorted(ds: seq<int>)
    ensures var r := SortedMedian(Sort(ds));
            && (r.Failure? <==> |ds| == 0 || |ds| == 2)
            && (r.Failure? ==> r.error == IndexOutOfBounds)
            && (r.Success? && |ds| % 2 == 1 ==> exists i :: 0 <= i < |ds| && r.value == 2 * ds[i])
            && (r.Success? && |ds| % 2 == 0 ==>
                  exists i, j :: 0 <= i < |ds| && 0 <= j < |ds| && i != j && r.value == ds[i] + ds[j])
            && (|ds| % 2 == 1 ==> r == Success(2 * Sort(ds)[|ds| / 2]))
            && (|ds| % 2 == 0 && |ds| >= 4 ==> r == Success(Sort(ds)[|ds| / 2] + Sort(ds)[|ds| / 2 + 1]))
  {
    var sorted := Sort(ds);
    MedianDrawsFrom(ds, sorted);
    SortedMedianAt(ds);
  }

  /** The entries `SortedMedian` reads from the sorted distances, by the
      parity of the count. */
  lemma {:induction false} SortedMedianAt(ds: seq<int>)
    ensures |ds| % 2 == 1 ==> SortedMedian(Sort(ds)) == Success(2 * Sort(ds)[|ds| / 2])
    ensures |ds| % 2 == 0 && |ds| >= 4 ==>
              SortedMedian(Sort(ds)) == Success(Sort(ds)[|ds| / 2] + Sort(ds)[|ds| / 2 + 1])
  {
    var sorted := Sort(ds);
    var n := |ds|;
    assert |sorted| == n;
    if n % 2 == 0 && n >= 4 {
      assert n / 2 + 1 < n;
      assert SortedMedian(sorted) == Success(sorted[n / 2] + sorted[n / 2 + 1]);
    }
  }

  /** The median read off an already sorted sequence, doubled. */
  function SortedMedian(sorted: seq<int>): Result<int> {
    var n := |sorted|;
    if n % 2 == 1 then Success(2 * sorted[n / 2])
    else if n / 2 + 1 < n then Success(sorted[n / 2] + sorted[n / 2 + 1])
    else Failure(IndexOutOfBounds)
  }

  /** The entries `SortedMedian` reads are entries of any permutation `ds`. */
  lemma MedianDrawsFrom(ds: seq<int>, sorted: seq<int>)
    requires multiset(ds) == multiset(sorted)
    ensures var r := SortedMedian(sorted);
            && (r.Failure? <==> |ds| == 0 || |ds| == 2)
            && (r.Failure? ==> r.error == IndexOutOfBounds)
            && (r.Success? && |ds| % 2 == 1 ==> exists i :: 0 <= i < |ds| && r.value == 2 * ds[i])
            && (r.Success? && |ds| % 2 == 0 ==>
                  exists i, j :: 0 <= i < |ds| && 0 <= j < |ds| && i != j && r.value == ds[i] + ds[j])
  {
    assert |ds| == |multiset(ds)| == |sorted|;
    var n := |sorted|;
    if n % 2 == 1 {
      ElementOfPermutation(ds, sorted, n / 2);
    } else if n / 2 + 1 < n {
      PairOfPermutation(ds, sorted, n / 2, n / 2 + 1);
    }
  }

  lemma ElementOfPermutation(a: seq<int>, b: seq<int>, k: int)
    requires multiset(a) == multiset(b) && 0 <= k < |b|
    ensures exists i :: 0 <= i < |a| && a[i] == b[k]
  {
    assert b[k] in multiset(b);
    assert b[k] in a;
  }

  lemma PairOfPermutation(a: seq<int>, b: seq<int>, k: int, l: int)
    requires multiset(a) == multiset(b) && 0 <= k < |b| && 0 <= l < |b| && k != l
    ensures exists i, j :: 0 <= i < |a| && 0 <= j < |a| && i != j && a[i] == b[k] && a[j] == b[l]
  {
    ElementOfPermutation(a, b, k);
    var i :| 0 <= i < |a| && a[i] == b[k];
    var j := OtherOfPermutation(a, b, i, k, l);
  }

  /** Once `a[i]` is matched with `b[k]`, another entry of `a` matches `b[l]`. */
  lemma OtherOfPermutation(a: seq<int>, b: seq<int>, i: int, k: int, l: int) returns (j: int)
    requires multiset(a) == multiset(b) && 0 <= k < |b| && 0 <= l < |b| && k != l
    requires 0 <= i < |a| && a[i] == b[k]
    ensures 0 <= j < |a| && j != i && a[j] == b[l]
  {
    RemoveAt(a, i);
    RemoveAt(b, k);
    var l' := if l < k then l else l - 1;
    assert Without(b, k)[l'] == b[l];
    ElementOfPermutation(Without(a, i), Without(b, k), l');
    var j' :| 0 <= j' < |Without(a, i)| && Without(a, i)[j'] == b[l];
    j := if j' < i then j' else j' + 1;
  }

  /** `s` without its entry at `k`. */
  function Without(s: seq<int>, k: int): (r: seq<int>)
    requires 0 <= k < |s|
    ensures |r| == |s| - 1
    ensures forall p :: 0 <= p < |r| ==> r[p] == s[if p < k then p else p + 1]
  {
    s[..k] + s[k + 1..]
  }

  lemma RemoveAt(s: seq<int>, k: int)
    requires 0 <= k < |s|
    ensures multiset(Without(s, k)) == multiset(s) - multiset{s[k]}
  {
    assert s == s[..k] + [s[k]] + s[k + 1..];
    assert multiset(s) == multiset(Without(s, k)) + multiset{s[k]};
  }

  /** The median depends only on the multiset of distances, not their order. */
  lemma MedianPermutationInvariant(a: seq<int>, b: seq<int>)
    requires multiset(a) == multiset(b)
    ensures TwiceMedianOf(a) == TwiceMedianOf(b)
  {
    assert |a| == |b| by {
      assert |a| == |multiset(a)| && |b| == |multiset(b)|;
    }
    assert Sort(a) == Sort(b) by {
      SortIsPermutationInvariant(a, b);
    }
  }

  /** The table entry of each detective location, in detective order. */
  function DetectiveDistances(d: seq<int>, occupied: seq<int>): (r: Result<seq<int>>)
    ensures r.Success? <==> forall k :: 0 <= k < |occupied| ==> 0 <= occupied[k] < |d|
    ensures r.Success? ==> |r.value| == |occupied|
    ensures r.Success? ==> forall k :: 0 <= k < |occupied| ==> r.value[k] == d[occupied[k]]
    ensures r.Failure? ==> r.error == IndexOutOfBounds
  {
    if occupied == [] then Success([])
    else if !(0 <= occupied[0] < |d|) then Failure(IndexOutOfBounds)
    else
      var rest :- DetectiveDistances(d, occupied[1..]);
      Success([d[occupied[0]]] + rest)
  }

  /** `medianDetectiveDistance(source, occupied)`, doubled: twice the median
      of the detectives' entries in the distance table from `source`. */
  function TwiceMedianDistance(g: Adjacency, source: int, occupied: seq<int>): (r: Result<int>)
    requires WellFormed(g)
    ensures r.Success? <==>
              && FindDistances(g, source).Success?
              && (forall k :: 0 <= k < |occupied| ==> 0 <= occupied[k] < TableSize)
              && |occupied| != 0 && |occupied| != 2
    ensures r.Failure? && FindDistances(g, source).Success? ==> r.error == IndexOutOfBounds
    ensures r.Success? ==>
              var d := FindDistances(g, source).value;
              r == TwiceMedianOf(seq(|occupied|, k requires 0 <= k < |occupied| =>
                                       if 0 <= occupied[k] < |d| then d[occupied[k]] else 0))
    ensures r.Success? ==> r.value >= 0
  {
    var d :- FindDistances(g, source);
    var ds :- DetectiveDistances(d, occupied);
    assert ds == seq(|occupied|, k requires 0 <= k < |occupied| =>
                       if 0 <= occupied[k] < |d| then d[occupied[k]] else 0);
    TwiceMedianOf(ds)
  }

  /** The neighbours of a location that a detective stands on. */
  function Threatened(nbrs: seq<int>, occupied: seq<int>): set<int> {
    set x | x in nbrs && x in occupied
  }

  /** The neighbour loop of `score`: -500 per occupied neighbour, +10 per free one. */
  function NeighbourTally(nbrs: seq<int>, occupied: seq<int>): (r: int)
    requires NoDuplicates(nbrs)
    ensures |Threatened(nbrs, occupied)| <= |nbrs|
    ensures r == FreeReward * (|nbrs| - |Threatened(nbrs, occupied)|)
                 - DetectivePenalty * |Threatened(nbrs, occupied)|
  {
    if nbrs == [] then
      assert Threatened(nbrs, occupied) == {};
      0
    else
      var x := nbrs[0];
      var rest := nbrs[1..];
      var t := NeighbourTally(rest, occupied);
      assert x !in rest;
      assert nbrs == [x] + rest;
      if x in occupied then
        assert Threatened(nbrs, occupied) == Threatened(rest, occupied) + {x};
        t - DetectivePenalty
      else
        assert Threatened(nbrs, occupied) == Threatened(rest, occupied);
        t + FreeReward
  }

  /** `score(location, occupied)`. */
  function Score(g: Adjacency, location: int, occupied: seq<int>): (r: Result<int>)
    requires WellFormed(g)
    ensures location in occupied ==> r == Success(MinValue)
    ensures location !in occupied ==>
              (r.Success? <==> location in g && TwiceMedianDistance(g, location, occupied).Success?)
    ensures r.Success? ==> InRange(r.value)
    ensures r.Success? ==> (r.value == MinValue <==> location in occupied)
    ensures r.Success? && location !in occupied ==>
              && location in g
              && TwiceMedianDistance(g, location, occupied).Success?
              && r.value == Clamp(FreeReward * (|g[location]| - |Threatened(g[location], occupied)|)
                                  - DetectivePenalty * |Threatened(g[location], occupied)|
                                  + 5 * TwiceMedianDistance(g, location, occupied).value)
  {
    if location in occupied then Success(MinValue)
    else
      var nbrs :- Neighbours(g, location);
      DegreeBound(g, location);
      var tally := NeighbourTally(nbrs, occupied);
      var twice :- TwiceMedianDistance(g, location, occupied);
      Success(Clamp(tally + 5 * twice))
  }
}

=== FILE: findings.dfy ===
/** Concrete games in which the double-move generation as written goes wrong.
    The corrected rule used by the rest of the model avoids both. */
module Findings {
  import opened Wrappers
  import opened Types
  import opened Moves
  import opened GameState

  /** A line of three nodes joined by taxi edges, and an isolated node 5. */
  function TaxiLine(): Graph {
    map[1 := map[2 := {TaxiRide}],
        2 := map[1 := {TaxiRide}, 3 := {TaxiRide}],
        3 := map[2 := {TaxiRide}],
        5 := map[]]
  }

  function LastRoundSetup(): GameSetup {
    GameSetup(TaxiLine(), [false, false])
  }

  /** MrX on node 1 with two taxi tickets and a double ticket. */
  function LastRoundMrX(): Player {
    Player(MrX, map[Taxi := 2, DoubleTicket := 1], 1)
  }

  /** A red detective with one taxi ticket, out of the way on node 5. */
  function LastRoundRed(): Player {
    Player(Red, map[Taxi := 1], 5)
  }

  /** The taxi-taxi double move along 1-2-3. */
  function LastRoundMove(): Move {
    Double(MrX, 1, Taxi, 2, Taxi, 3)
  }

  /** As written, the double move is generated in the game's last round (round 1 of 2). */
  lemma LastRoundDoubleGenerated()
    ensures LastRoundMove() in MakeDoubleMoves(AsWritten, LastRoundSetup(), [LastRoundRed()], LastRoundMrX(), 1, 1)
  {
    var setup, mrX, red, m := LastRoundSetup(), LastRoundMrX(), LastRoundRed(), LastRoundMove();
    assert !CheckIfOccupied(2, [red]) && !CheckIfOccupied(3, [red]);
    assert (2, 3) in FindPaths(setup, [red], 1);
    assert TaxiRide in EdgeValue(setup.graph, 1, 2) && TaxiRide in EdgeValue(setup.graph, 2, 3);
    assert m in AddSecondMove(1, 2, 3, 2, mrX, Taxi, TaxiRide.RequiredTicket());
    assert m in SecondLegs(setup.graph, 1, 2, 3, 2, mrX, Taxi);
    assert m in RouteMoves(AsWritten, setup.graph, 1, 2, 3, 2, mrX, TaxiRide);
  }

  /** A double move of MrX on his turn in the last round of an as-written
      game is available, and playing it fails when its second leg is logged. */
  lemma LastRoundDoubleFails(s: State, m: Move)
    requires WellBuilt(s) && MrX in s.remaining && |s.log| + 1 == |s.setup.rounds|
    requires m in MakeDoubleMoves(s.rule, s.setup, s.detectives, s.mrX, s.mrX.location, |s.log|)
    requires TicketsLeft(s.detectives) && !Captured(s.mrX, s.detectives)
    ensures m in AvailableMoves(s)
    ensures Advance(s, m) == Failure(IndexOutOfBounds)
  {
    assert m in s.moves;
    assert MrXCanMove(s.moves);
    assert Advance(s, m) == MrXDouble(s, m);
  }

  /** The as-written game in round 1 of 2, MrX to move, passes the constructor's checks. */
  lemma LastRoundBuilds(setup: GameSetup, mrX: Player, red: Player)
    requires setup == LastRoundSetup() && mrX == LastRoundMrX() && red == LastRoundRed()
    ensures Build(AsWritten, setup, {MrX}, [Hidden(Taxi)], mrX, [red]).Success?
  {
    assert Checks.PlayersOk(mrX, [red]);
  }

  /** In that game the detective can still pay and has not caught MrX. */
  lemma LastRoundGoesOn(mrX: Player, red: Player)
    requires mrX == LastRoundMrX() && red == LastRoundRed()
    ensures TicketsLeft([red]) && !Captured(mrX, [red])
  {
    assert [red][0].HasAnyTicket();
  }

  /** The as-written game in round 1 of 2, MrX to move. */
  lemma LastRoundGame(setup: GameSetup, mrX: Player, red: Player, m: Move)
    requires setup == LastRoundSetup() && mrX == LastRoundMrX() && red == LastRoundRed() && m == LastRoundMove()
    ensures var s := Build(AsWritten, setup, {MrX}, [Hidden(Taxi)], mrX, [red]);
            && s.Success?
            && m in AvailableMoves(s.value)
            && Advance(s.value, m) == Failure(IndexOutOfBounds)
  {
    LastRoundDoubleGenerated();
    LastRoundBuilds(setup, mrX, red);
    LastRoundGoesOn(mrX, red);
    var s := Build(AsWritten, setup, {MrX}, [Hidden(Taxi)], mrX, [red]).value;
    LastRoundDoubleFails(s, m);
  }

  /** As written, a double move is offered in the last round of a two-round
      game, and playing it fails when its second leg is logged. */
  lemma LastRoundDouble()
    ensures var s := Build(AsWritten, LastRoundSetup(), {MrX}, [Hidden(Taxi)], LastRoundMrX(), [LastRoundRed()]);
            && s.Success?
            && LastRoundMove() in AvailableMoves(s.value)
            && Advance(s.value, LastRoundMove()) == Failure(IndexOutOfBounds)
  {
    LastRoundGame(LastRoundSetup(), LastRoundMrX(), LastRoundRed(), LastRoundMove());
  }

  /** A taxi edge 1-2 followed by a ferry edge 2-3. */
  function FerryRoute(): Graph {
    map[1 := map[2 := {TaxiRide}],
        2 := map[1 := {TaxiRide}, 3 := {Ferry}],
        3 := map[2 := {Ferry}]]
  }

  /** As written, MrX holding one secret ticket (and two taxi tickets) is
      offered a double move that spends two secret tickets. */
  lemma SecretTwiceWithOneSecret()
    ensures var setup := GameSetup(FerryRoute(), [false, false, false]);
            var mrX := Player(MrX, map[Taxi := 2, Secret := 1, DoubleTicket := 1], 1);
            var m := Double(MrX, 1, Secret, 2, Secret, 3);
            && m in MakeDoubleMoves(AsWritten, setup, [], mrX, 1, 0)
            && !Affordable(mrX, m)
  {
    var setup := GameSetup(FerryRoute(), [false, false, false]);
    var mrX := Player(MrX, map[Taxi := 2, Secret := 1, DoubleTicket := 1], 1);
    var m := Double(MrX, 1, Secret, 2, Secret, 3);
    assert (2, 3) in FindPaths(setup, [], 1);
    assert TaxiRide in EdgeValue(setup.graph, 1, 2) && Ferry in EdgeValue(setup.graph, 2, 3);
    assert m in AddSecondMove(1, 2, 3, 2, mrX, Secret, Ferry.RequiredTicket());
    assert m in SecondLegs(setup.graph, 1, 2, 3, 2, mrX, Secret);
    assert m in RouteMoves(AsWritten, setup.graph, 1, 2, 3, 2, mrX, TaxiRide);
  }
}

=== FILE: gamestate.dfy ===
/** `MyGameState`: the immutable game state, its constructor, the winner
    rules and `advance`. */
module GameState {
  import opened Wrappers
  import opened Types
  import opened Moves
  import opened Checks

  /** A constructed game state. The round is the length of the travel log. */
  datatype State = State(rule: DoubleRule, setup: GameSetup, remaining: set<Piece>, log: seq<LogEntry>,
                         mrX: Player, detectives: seq<Player>, moves: set<Move>, winner: set<Piece>)
  {
    function Round(): int { |log| }
  }

  /** Detective `i` is the player whose piece is `piece`. */
  predicate Plays(detectives: seq<Player>, piece: Piece) {
    exists i :: 0 <= i < |detectives| && detectives[i].piece == piece
  }

  function DetectivePieces(detectives: seq<Player>): (r: set<Piece>)
    ensures forall p :: p in r <==> Plays(detectives, p)
  {
    set i | 0 <= i < |detectives| :: detectives[i].piece
  }

  /** The moves of every player in `remaining`, and MrX's double moves when he is. */
  function AllMoves(rule: DoubleRule, setup: GameSetup, remaining: set<Piece>, mrX: Player,
                    detectives: seq<Player>, round: int): (r: set<Move>)
    ensures forall m :: m in r ==>
              || (mrX.piece in remaining && m in MakeSingleMoves(setup, detectives, mrX, mrX.location))
              || (MrX in remaining && m in MakeDoubleMoves(rule, setup, detectives, mrX, mrX.location, round))
              || (exists i :: 0 <= i < |detectives| && detectives[i].piece in remaining
                   && m in MakeSingleMoves(setup, detectives, detectives[i], detectives[i].location))
    ensures forall i, m :: (0 <= i < |detectives| && detectives[i].piece in remaining
              && m in MakeSingleMoves(setup, detectives, detectives[i], detectives[i].location)) ==> m in r
    ensures mrX.piece in remaining ==> MakeSingleMoves(setup, detectives, mrX, mrX.location) <= r
    ensures MrX in remaining ==> MakeDoubleMoves(rule, setup, detectives, mrX, mrX.location, round) <= r
  {
    var everyone := detectives + [mrX];
    assert forall i :: 0 <= i < |detectives| ==> everyone[i] == detectives[i];
    assert everyone[|detectives|] == mrX;
    (set p, m | p in everyone && p.piece in remaining && m in MakeSingleMoves(setup, detectives, p, p.location) :: m)
    + (if MrX in remaining then MakeDoubleMoves(rule, setup, detectives, mrX, mrX.location, round) else {})
  }

  /** Some detective still holds a ticket of some kind. */
  predicate TicketsLeft(detectives: seq<Player>) {
    exists i :: 0 <= i < |detectives| && detectives[i].HasAnyTicket()
  }

  /** Some detective stands on MrX's node. */
  predicate Captured(mrX: Player, detectives: seq<Player>) {
    exists i :: 0 <= i < |detectives| && detectives[i].location == mrX.location
  }

  predicate MrXCanMove(moves: set<Move>) {
    exists m :: m in moves && m.CommencedBy() == MrX
  }

  /** The game goes on: detectives can still pay, rounds are left, MrX is
      neither cornered on his turn nor caught. */
  predicate Continues(setup: GameSetup, remaining: set<Piece>, round: int, mrX: Player,
                      detectives: seq<Player>, moves: set<Move>) {
    && TicketsLeft(detectives)
    && round != |setup.rounds|
    && (MrX in remaining ==> MrXCanMove(moves))
    && !Captured(mrX, detectives)
  }

  /** `checkGameOver`: MrX wins when the detectives hold no tickets or the
      rounds are used up; otherwise all detectives win when MrX cannot move
      on his turn or is caught. */
  function CheckGameOver(setup: GameSetup, remaining: set<Piece>, round: int, mrX: Player,
                         detectives: seq<Player>, moves: set<Move>): (r: set<Piece>)
    ensures r == {} <==> Continues(setup, remaining, round, mrX, detectives, moves)
    ensures !TicketsLeft(detectives) || round == |setup.rounds| ==> r == {MrX}
    ensures TicketsLeft(detectives) && round != |setup.rounds| && r != {} ==> r == DetectivePieces(detectives)
  {
    if !TicketsLeft(detectives) then {MrX}
    else if round == |setup.rounds| then {MrX}
    else
      assert detectives[0].piece in DetectivePieces(detectives);
      if !MrXCanMove(moves) && MrX in remaining then DetectivePieces(detectives)
      else if Captured(mrX, detectives) then DetectivePieces(detectives)
      else {}
  }

  /** `s` is what the constructor builds from its own fields. */
  predicate WellBuilt(s: State) {
    && PlayersOk(s.mrX, s.detectives)
    && SetupOk(s.setup)
    && s.moves == AllMoves(s.rule, s.setup, s.remaining, s.mrX, s.detectives, |s.log|)
    && s.winner == CheckGameOver(s.setup, s.remaining, |s.log|, s.mrX, s.detectives, s.moves)
  }

  /** The `MyGameState` constructor: the checks, then the moves of the
      remaining players, then the winner. */
  function Build(rule: DoubleRule, setup: GameSetup, remaining: set<Piece>, log: seq<LogEntry>,
                 mrX: Player, detectives: seq<Player>): (r: Result<State>)
    ensures r.Success? <==> PlayersOk(mrX, detectives) && SetupOk(setup)
    ensures r.Failure? ==> r.error.IllegalArgument?
    ensures r.Success? ==>
              && WellBuilt(r.value)
              && r.value.rule == rule && r.value.setup == setup && r.value.remaining == remaining
              && r.value.log == log && r.value.mrX == mrX && r.value.detectives == detectives
  {
    var _ :- CheckPlayerAttributes(mrX, detectives);
    var _ :- CheckSetup(setup);
    var moves := AllMoves(rule, setup, remaining, mrX, detectives, |log|);
    Success(State(rule, setup, remaining, log, mrX, detectives, moves,
                  CheckGameOver(setup, remaining, |log|, mrX, detectives, moves)))
  }

  /** `getAvailableMoves`: nothing once there is a winner. */
  function AvailableMoves(s: State): (r: set<Move>)
    ensures r <= s.moves
    ensures r != {} ==> s.winner == {}
    ensures s.winner == {} ==> r == s.moves
    ensures s.winner != {} ==> r == {}
    ensures WellBuilt(s) ==> forall m :: m in r ==> m.CommencedBy() in s.remaining
    ensures WellBuilt(s) && MrX in s.remaining && r == {} ==> s.winner != {}
  {
    if s.winner != {} then {} else s.moves
  }

  /** `updateLog` in round `round`: the round advances and MrX's journey is
      logged, with its destination on a reveal round. */
  function UpdateLog(setup: GameSetup, log: seq<LogEntry>, round: int, ticket: Ticket, destination: int)
    : (r: Result<seq<LogEntry>>)
    ensures r.Success? <==> 0 <= round < |setup.rounds|
    ensures r.Failure? ==> r.error == IndexOutOfBounds
    ensures r.Success? ==>
              && |r.value| == |log| + 1 && r.value[..|log|] == log
              && r.value[|log|].ticket == ticket
              && (r.value[|log|].Reveal? <==> setup.rounds[round])
              && (r.value[|log|].Reveal? ==> r.value[|log|].location == destination)
    ensures r.Success? ==> r.value == log + [Logged(setup, round, ticket, destination)]
  {
    var next := round + 1;
    if !(0 <= next - 1 < |setup.rounds|) then Failure(IndexOutOfBounds)
    else if setup.rounds[next - 1] then Success(log + [Reveal(ticket, destination)])
    else Success(log + [Hidden(ticket)])
  }

  /** The entry logged for a journey by `ticket` to `destination` in round
      `round`: the destination is shown exactly on a reveal round. */
  function Logged(setup: GameSetup, round: nat, ticket: Ticket, destination: int): LogEntry
    requires round < |setup.rounds|
  {
    if setup.rounds[round] then Reveal(ticket, destination) else Hidden(ticket)
  }

  /** `updateRemaining` after `mover` moved from a state whose players to
      move were `remaining`. */
  function UpdateRemaining(remaining: set<Piece>, detectives: seq<Player>, mover: Piece): (r: set<Piece>)
    ensures MrX in remaining ==> forall p :: p in r <==>
              exists i :: 0 <= i < |detectives| && detectives[i].piece == p && detectives[i].HasAnyTicket()
    ensures MrX !in remaining && |remaining| > 1 ==> r <= remaining - {mover}
    ensures MrX !in remaining && |remaining| > 1 ==> forall p :: p in r <==>
              && p in remaining && p != mover
              && exists i :: 0 <= i < |detectives| && detectives[i].piece == p && detectives[i].HasAnyTicket()
    ensures MrX !in remaining && |remaining| <= 1 ==> r == {MrX}
  {
    if MrX in remaining then
      set i | 0 <= i < |detectives| && detectives[i].HasAnyTicket() :: detectives[i].piece
    else if |remaining| > 1 then
      (set i | 0 <= i < |detectives| && detectives[i].HasAnyTicket() && detectives[i].piece in remaining
             :: detectives[i].piece) - {mover}
    else {MrX}
  }

  /** The detective playing `piece` spends `ticket` and moves to `destination`. */
  function MoveDetective(detectives: seq<Player>, piece: Piece, ticket: Ticket, destination: int)
    : (r: seq<Player>)
    ensures |r| == |detectives|
    ensures forall i :: 0 <= i < |r| ==>
              r[i] == if detectives[i].piece == piece then detectives[i].Use(ticket).At(destination) else detectives[i]
  {
    seq(|detectives|, i requires 0 <= i < |detectives| =>
      if detectives[i].piece == piece then detectives[i].Use(ticket).At(destination) else detectives[i])
  }

  /** The first journey of a move (the only one a detective makes). */
  function FirstLeg(m: Move): (Ticket, int) {
    if m.Single? then (m.ticket, m.destination) else (m.ticket1, m.destination1)
  }

  /** `t` is what `advance` builds after `move` from `s`: same rules and
      setup, the turn rotated by `updateRemaining`. */
  predicate Successor(s: State, move: Move, t: State) {
    && WellBuilt(t) && t.rule == s.rule && t.setup == s.setup
    && t.remaining == UpdateRemaining(s.remaining, s.detectives, move.CommencedBy())
  }

  /** How many tickets of kind `u` MrX spends on `m`, the double ticket included. */
  function Spent(m: Move, u: Ticket): nat {
    if m.Single? then (if u == m.ticket then 1 else 0)
    else (if u == m.ticket1 then 1 else 0) + (if u == m.ticket2 then 1 else 0) + (if u == DoubleTicket then 1 else 0)
  }

  /** MrX's single journey: log it, then spend the ticket and move. */
  function MrXSingle(s: State, move: Move): (r: Result<State>)
    requires move.Single? && move.CommencedBy() == MrX
    ensures r.Success? <==> |s.log| < |s.setup.rounds| && PlayersOk(s.mrX, s.detectives) && SetupOk(s.setup)
    ensures |s.log| >= |s.setup.rounds| ==> r == Failure(IndexOutOfBounds)
    ensures r.Success? ==>
              && Successor(s, move, r.value)
              && r.value.mrX.piece == s.mrX.piece && r.value.mrX.location == move.destination
              && (forall u :: r.value.mrX.Count(u) == s.mrX.Count(u) - Spent(move, u))
              && r.value.detectives == s.detectives
              && |r.value.log| == |s.log| + 1 && r.value.log[..|s.log|] == s.log
    ensures r.Success? ==> r.value.log == s.log + [Logged(s.setup, |s.log|, move.ticket, move.destination)]
  {
    var log :- UpdateLog(s.setup, s.log, |s.log|, move.ticket, move.destination);
    Build(s.rule, s.setup, UpdateRemaining(s.remaining, s.detectives, MrX), log,
          s.mrX.Use(move.ticket).At(move.destination), s.detectives)
  }

  /** MrX's double journey: log each leg, spend both tickets and the double ticket. */
  function MrXDouble(s: State, move: Move): (r: Result<State>)
    requires move.Double? && move.CommencedBy() == MrX
    ensures r.Success? <==> |s.log| + 2 <= |s.setup.rounds| && PlayersOk(s.mrX, s.detectives) && SetupOk(s.setup)
    ensures |s.log| + 2 > |s.setup.rounds| ==> r == Failure(IndexOutOfBounds)
    ensures r.Success? ==>
              && Successor(s, move, r.value)
              && r.value.mrX.piece == s.mrX.piece && r.value.mrX.location == move.destination2
              && (forall u :: r.value.mrX.Count(u) == s.mrX.Count(u) - Spent(move, u))
              && r.value.detectives == s.detectives
              && |r.value.log| == |s.log| + 2 && r.value.log[..|s.log|] == s.log
    ensures r.Success? ==>
              r.value.log == s.log + [Logged(s.setup, |s.log|, move.ticket1, move.destination1),
                                      Logged(s.setup, |s.log| + 1, move.ticket2, move.destination2)]
  {
    var log1 :- UpdateLog(s.setup, s.log, |s.log|, move.ticket1, move.destination1);
    var log2 :- UpdateLog(s.setup, log1, |s.log| + 1, move.ticket2, move.destination2);
    assert log2[..|s.log|] == log1[..|s.log|];
    Build(s.rule, s.setup, UpdateRemaining(s.remaining, s.detectives, MrX), log2,
          s.mrX.Use(move.ticket1).At(move.destination1).Use(move.ticket2).At(move.destination2).Use(DoubleTicket),
          s.detectives)
  }

  /** A detective's journey: that detective spends the ticket and moves, and
      MrX receives the ticket. */
  function DetectiveTravels(s: State, move: Move): (r: Result<State>)
    requires move.CommencedBy() != MrX
    ensures r.Success? <==>
              && PlayersOk(s.mrX, MoveDetective(s.detectives, move.CommencedBy(), FirstLeg(move).0, FirstLeg(move).1))
              && SetupOk(s.setup)
    ensures r.Success? ==>
              && Successor(s, move, r.value)
              && |r.value.detectives| == |s.detectives|
              && (forall i :: 0 <= i < |s.detectives| && s.detectives[i].piece != move.CommencedBy() ==>
                    r.value.detectives[i] == s.detectives[i])
              && (forall i :: 0 <= i < |s.detectives| && s.detectives[i].piece == move.CommencedBy() ==>
                    && r.value.detectives[i].piece == s.detectives[i].piece
                    && r.value.detectives[i].location == FirstLeg(move).1
                    && r.value.detectives[i].Count(FirstLeg(move).0) == s.detectives[i].Count(FirstLeg(move).0) - 1
                    && r.value.detectives[i] == s.detectives[i].Use(FirstLeg(move).0).At(FirstLeg(move).1))
              && r.value.log == s.log
              && r.value.mrX.piece == s.mrX.piece && r.value.mrX.location == s.mrX.location
              && forall u :: r.value.mrX.Count(u) == s.mrX.Count(u)
                               + (if Plays(s.detectives, move.CommencedBy()) then multiset(move.Tickets())[u] else 0)
  {
    var (t, d) := FirstLeg(move);
    Build(s.rule, s.setup, UpdateRemaining(s.remaining, s.detectives, move.CommencedBy()), s.log,
          Receive(s.mrX, s.detectives, move), MoveDetective(s.detectives, move.CommencedBy(), t, d))
  }

  /** MrX after a detective's move: he receives its tickets when some detective plays the moving piece. */
  function Receive(mrX: Player, detectives: seq<Player>, move: Move): (r: Player)
    ensures r.piece == mrX.piece && r.location == mrX.location
    ensures forall u :: r.Count(u) == mrX.Count(u)
                          + (if Plays(detectives, move.CommencedBy()) then multiset(move.Tickets())[u] else 0)
  {
    if Plays(detectives, move.CommencedBy()) then mrX.Give(move.Tickets()) else mrX
  }

  /** `advance(move)`: reject a move not generated for this state, else
      play it and build the next state. */
  function Advance(s: State, move: Move): (r: Result<State>)
    ensures move !in s.moves ==> r.Failure? && r.error.IllegalArgument?
    ensures r.Success? ==> move in s.moves && Successor(s, move, r.value)
    ensures r.Success? && move.CommencedBy() == MrX ==>
              && r.value.mrX.location == move.FinalDestination()
              && (forall u :: r.value.mrX.Count(u) == s.mrX.Count(u) - Spent(move, u))
              && r.value.detectives == s.detectives
              && |r.value.log| == |s.log| + |move.Tickets()| && r.value.log[..|s.log|] == s.log
    ensures r.Success? && move.CommencedBy() != MrX ==>
              && r.value.log == s.log
              && r.value.mrX.location == s.mrX.location
              && |r.value.detectives| == |s.detectives|
    ensures r.Success? && move.CommencedBy() != MrX ==> r == DetectiveTravels(s, move)
    ensures r.Success? && move.Single? && move.CommencedBy() == MrX ==> r == MrXSingle(s, move)
    ensures r.Success? && move.Double? && move.CommencedBy() == MrX ==> r == MrXDouble(s, move)
    ensures r.Success? && move.Single? && move.CommencedBy() == MrX ==>
              && |s.log| < |s.setup.rounds|
              && r.value.log == s.log + [Logged(s.setup, |s.log|, move.ticket, move.destination)]
    ensures r.Success? && move.Double? && move.CommencedBy() == MrX ==>
              && |s.log| + 1 < |s.setup.rounds|
              && r.value.log == s.log + [Logged(s.setup, |s.log|, move.ticket1, move.destination1),
                                         Logged(s.setup, |s.log| + 1, move.ticket2, move.destination2)]
  {
    if move !in s.moves then Failure(IllegalArgument("Illegal move"))
    else if move.CommencedBy() != MrX then DetectiveTravels(s, move)
    else if move.Single? then MrXSingle(s, move)
    else MrXDouble(s, move)
  }
}

=== FILE: int32.dfy ===
/** Java's 32-bit `int`: its bounds, two's-complement wrap-around and the
    saturating `(int)` cast applied to a `double`. */
module Int32 {

  const MinValue: int := -0x8000_0000
  const MaxValue: int := 0x7FFF_FFFF

  predicate InRange(x: int) {
    MinValue <= x <= MaxValue
  }

  /** The 32-bit result of an `int` addition or subtraction whose exact value is `x`. */
  function Wrap(x: int): (r: int)
    ensures InRange(r)
    ensures (r - x) % 0x1_0000_0000 == 0
    ensures InRange(x) ==> r == x
  {
    (x - MinValue) % 0x1_0000_0000 + MinValue
  }

  /** Java's narrowing of an integral `double` to `int`: out-of-range values saturate. */
  function Clamp(x: int): (r: int)
    ensures InRange(r)
    ensures InRange(x) ==> r == x
    ensures x < MinValue ==> r == MinValue
    ensures x > MaxValue ==> r == MaxValue
  {
    if x < MinValue then MinValue else if x > MaxValue then MaxValue else x
  }
}

=== FILE: invariants.dfy ===
/** The game's invariant: every available move of a well-formed game can be
    played, and playing it yields a well-formed game again. */
module Invariants {
  import opened Types
  import opened Moves
  import opened Checks
  import opened GameState

  /** No ticket count is negative. */
  predicate NonNegative(p: Player) {
    forall t: Ticket :: p.Count(t) >= 0
  }

  /** A well-formed game: built by the constructor under the corrected double
      rule, with the log within the rounds and no negative ticket counts. */
  predicate Valid(s: State) {
    && s.rule == Corrected
    && WellBuilt(s)
    && |s.log| <= |s.setup.rounds|
    && NonNegative(s.mrX)
    && forall i :: 0 <= i < |s.detectives| ==> NonNegative(s.detectives[i])
  }

  /** `build(setup, mrX, detectives)` with the double-move generator under
      `rule` (`AsWritten` is the code's own build): MrX moves first with an
      empty log, and under the corrected rule the new game is valid. */
  function NewGame(rule: DoubleRule, setup: GameSetup, mrX: Player, detectives: seq<Player>): (r: Wrappers.Result<State>)
    ensures r.Success? <==> PlayersOk(mrX, detectives) && SetupOk(setup)
    ensures r.Success? ==> r.value.rule == rule && r.value.remaining == {MrX} && r.value.log == []
    ensures (r.Success? && rule == Corrected && NonNegative(mrX)
             && forall i :: 0 <= i < |detectives| ==> NonNegative(detectives[i]))
              ==> Valid(r.value)
  {
    Build(rule, setup, {MrX}, [], mrX, detectives)
  }

  /** A move in a well-built state was generated for the player who makes it. */
  lemma MoveOrigin(s: State, m: Move)
    requires WellBuilt(s) && m in s.moves
    ensures m.CommencedBy() == MrX ==>
              || m in MakeSingleMoves(s.setup, s.detectives, s.mrX, s.mrX.location)
              || m in MakeDoubleMoves(s.rule, s.setup, s.detectives, s.mrX, s.mrX.location, |s.log|)
    ensures m.CommencedBy() != MrX ==>
              exists i :: 0 <= i < |s.detectives| && s.detectives[i].piece == m.CommencedBy()
                          && m in MakeSingleMoves(s.setup, s.detectives, s.detectives[i], s.detectives[i].location)
  {
  }

  /** An available single move of MrX is affordable and a round remains for it. */
  lemma MrXSingleOrigin(s: State, m: Move)
    requires Valid(s) && m in AvailableMoves(s) && m.CommencedBy() == MrX && m.Single?
    ensures s.mrX.Has(m.ticket) && |s.log| < |s.setup.rounds|
  {
    MoveOrigin(s, m);
    assert Affordable(s.mrX, m);
    assert Continues(s.setup, s.remaining, |s.log|, s.mrX, s.detectives, s.moves);
  }

  /** MrX's single move: the round is not the last, and he holds the ticket. */
  lemma MrXSingleStep(s: State, m: Move)
    requires Valid(s) && m in AvailableMoves(s) && m.CommencedBy() == MrX && m.Single?
    ensures Advance(s, m).Success? && Valid(Advance(s, m).value)
  {
    MrXSingleOrigin(s, m);
    var r := MrXSingle(s, m);
    assert r.Success?;
    assert Advance(s, m) == r;
    ChargeSingle(s.mrX, r.value.mrX, m);
  }

  /** Paying for a single move with a held ticket leaves no count negative. */
  lemma ChargeSingle(p: Player, q: Player, m: Move)
    requires NonNegative(p) && m.Single? && p.Has(m.ticket)
    requires forall u :: q.Count(u) == p.Count(u) - Spent(m, u)
    ensures NonNegative(q)
  {
    forall t: Ticket ensures q.Count(t) >= 0 {
      assert p.Count(t) >= 0;
    }
  }

  /** Paying for an affordable double move leaves no count negative. */
  lemma ChargeDouble(p: Player, q: Player, m: Move)
    requires NonNegative(p) && m.Double? && Affordable(p, m)
    requires m.ticket1 != DoubleTicket && m.ticket2 != DoubleTicket
    requires forall u :: q.Count(u) == p.Count(u) - Spent(m, u)
    ensures NonNegative(q)
  {
    forall t: Ticket ensures q.Count(t) >= 0 {
      if t == m.ticket1 && t == m.ticket2 {
        assert p.Count(t) >= 2;
      }
    }
  }

  /** MrX's double move: two rounds remain, and he holds both leg tickets and the double ticket. */
  lemma MrXDoubleStep(s: State, m: Move)
    requires Valid(s) && m in AvailableMoves(s) && m.CommencedBy() == MrX && m.Double?
    ensures Advance(s, m).Success? && Valid(Advance(s, m).value)
  {
    MoveOrigin(s, m);
    var doubles := MakeDoubleMoves(s.rule, s.setup, s.detectives, s.mrX, s.mrX.location, |s.log|);
    assert m in doubles;
    assert !NoDoubles(s.rule, s.setup, s.mrX, |s.log|);
    assert Affordable(s.mrX, m);
    var r := MrXDouble(s, m);
    assert r.Success?;
    assert Advance(s, m) == r;
    ChargeDouble(s.mrX, r.value.mrX, m);
  }

  /** Moving one detective to a free node with a ticket it holds (neither
      secret nor double) keeps the detectives legal, distinct and solvent. */
  lemma MoveDetectiveKeepsOk(detectives: seq<Player>, i: int, t: Ticket, d: int)
    requires DetectivesOk(detectives) && Distinct(detectives)
    requires forall j :: 0 <= j < |detectives| ==> NonNegative(detectives[j])
    requires 0 <= i < |detectives| && detectives[i].Has(t) && t != Secret && t != DoubleTicket
    requires !CheckIfOccupied(d, detectives)
    ensures var moved := MoveDetective(detectives, detectives[i].piece, t, d);
            && DetectivesOk(moved) && Distinct(moved)
            && forall j :: 0 <= j < |moved| ==> NonNegative(moved[j])
  {
    var moved := MoveDetective(detectives, detectives[i].piece, t, d);
    forall j | 0 <= j < |detectives| && j != i ensures moved[j] == detectives[j] {
      assert detectives[j].piece != detectives[i].piece;
    }
    assert moved[i] == detectives[i].Use(t).At(d);
    assert forall j :: 0 <= j < |detectives| ==> detectives[j].location != d;
    forall u: Ticket ensures moved[i].Count(u) >= 0 {
      assert NonNegative(detectives[i]);
    }
  }

  /** The detective making an available move, who holds its ticket (neither
      secret nor double) and moves to a node no detective occupies. */
  lemma DetectiveOrigin(s: State, m: Move) returns (i: int)
    requires Valid(s) && m in s.moves && m.CommencedBy() != MrX
    ensures 0 <= i < |s.detectives| && s.detectives[i].piece == m.CommencedBy()
    ensures m.Single? && s.detectives[i].Has(m.ticket) && m.ticket != Secret && m.ticket != DoubleTicket
    ensures !CheckIfOccupied(m.destination, s.detectives)
  {
    MoveOrigin(s, m);
    i :| 0 <= i < |s.detectives| && s.detectives[i].piece == m.CommencedBy()
         && m in MakeSingleMoves(s.setup, s.detectives, s.detectives[i], s.detectives[i].location);
    assert !IllegalTicket(s.detectives[i]);
  }

  /** A detective's move: the detective holds the ticket, the destination is
      free, and MrX receives the ticket. */
  lemma DetectiveStep(s: State, m: Move)
    requires Valid(s) && m in AvailableMoves(s) && m.CommencedBy() != MrX
    ensures Advance(s, m).Success? && Valid(Advance(s, m).value)
  {
    var i := DetectiveOrigin(s, m);
    MoveDetectiveKeepsOk(s.detectives, i, m.ticket, m.destination);
    var r := DetectiveTravels(s, m);
    assert r.Success?;
    assert Advance(s, m) == r;
    assert NonNegative(r.value.mrX) by {
      forall u: Ticket ensures r.value.mrX.Count(u) >= 0 {
        assert NonNegative(s.mrX);
      }
    }
  }

  /** Every available move of a well-formed game can be played, and the game
      after it is well-formed again. */
  lemma AdvanceKeepsValid(s: State, m: Move)
    requires Valid(s) && m in AvailableMoves(s)
    ensures Advance(s, m).Success? && Valid(Advance(s, m).value)
  {
    if m.CommencedBy() != MrX {
      DetectiveStep(s, m);
    } else if m.Single? {
      MrXSingleStep(s, m);
    } else {
      MrXDoubleStep(s, m);
    }
  }
}

=== FILE: model.dfy ===
/** `MyModel`: the observer registry and the move loop around a game state. */
module ModelFactory {
  import opened Wrappers
  import opened Types
  import opened GameState
  import opened Moves
  import opened Checks
  import opened Invariants
  import AiGraph

  /** An observer reference: `null`, or an observer identified by `id`. */
  datatype Observer = Null | Ref(id: int)

  /** The events a model reports to its observers. */
  datatype Event = MoveMade | GameOver

  /** The registered observers, in registration order, and the current game. */
  datatype Model = Model(observers: seq<int>, game: State)

  /** The list with the first occurrence of `x` removed (`List.remove`). */
  function RemoveFirst(s: seq<int>, x: int): (r: seq<int>)
    ensures multiset(r) == multiset(s) - multiset{x}
    ensures x !in s ==> r == s
  {
    if s == [] then []
    else if s[0] == x then
      assert s == [s[0]] + s[1..];
      s[1..]
    else
      assert s == [s[0]] + s[1..];
      [s[0]] + RemoveFirst(s[1..], x)
  }

  /** `new MyModel(setup, mrX, detectives)`: no observers and a new game,
      built with the double-move generator under `rule` (`AsWritten` is the
      code's own). */
  function NewModel(rule: DoubleRule, setup: GameSetup, mrX: Player, detectives: seq<Player>): (r: Result<Model>)
    ensures r.Success? <==> PlayersOk(mrX, detectives) && SetupOk(setup)
    ensures r.Success? ==> r.value.observers == [] && r.value.game == NewGame(rule, setup, mrX, detectives).value
    ensures r.Success? ==> r.value.game.rule == rule && r.value.game.remaining == {MrX} && r.value.game.log == []
  {
    var game :- NewGame(rule, setup, mrX, detectives);
    Success(Model([], game))
  }

  /** `registerObserver`. */
  function Register(m: Model, o: Observer): (r: Result<Model>)
    ensures o.Null? ==> r == Failure(NullPointer)
    ensures o.Ref? && o.id in m.observers ==> r.Failure? && r.error.IllegalArgument?
    ensures r.Success? <==> o.Ref? && o.id !in m.observers
    ensures r.Success? ==>
              && r.value.game == m.game
              && r.value.observers == m.observers + [o.id]
    ensures r.Success? && AiGraph.NoDuplicates(m.observers) ==> AiGraph.NoDuplicates(r.value.observers)
  {
    if o.Null? then Failure(NullPointer)
    else if o.id in m.observers then Failure(IllegalArgument("Observer already registered!"))
    else Success(Model(m.observers + [o.id], m.game))
  }

  /** `unregisterObserver`. */
  function Unregister(m: Model, o: Observer): (r: Result<Model>)
    ensures o.Null? ==> r == Failure(NullPointer)
    ensures r.Success? <==> o.Ref? && o.id in m.observers
    ensures r.Failure? && o.Ref? ==> r.error.IllegalArgument?
    ensures r.Success? ==>
              && r.value.game == m.game
              && multiset(r.value.observers) == multiset(m.observers) - multiset{o.id}
  {
    if o.Null? then Failure(NullPointer)
    else if o.id !in m.observers then Failure(IllegalArgument("Observer not registered!"))
    else Success(Model(RemoveFirst(m.observers, o.id), m.game))
  }

  /** `getObservers`: the registered observers as a set. */
  function Observers(m: Model): (r: set<int>)
    ensures forall x :: x in r <==> x in m.observers
  {
    set i | 0 <= i < |m.observers| :: m.observers[i]
  }

  /** Removing an element just appended to a list that lacks it gives the list back. */
  lemma {:induction false} RemoveAppended(s: seq<int>, x: int)
    requires x !in s
    ensures RemoveFirst(s + [x], x) == s
  {
    if s != [] {
      assert (s + [x])[1..] == s[1..] + [x];
      RemoveAppended(s[1..], x);
    }
  }

  /** Registering and then unregistering an observer restores the registry exactly. */
  lemma RegisterUnregister(m: Model, o: Observer)
    requires Register(m, o).Success?
    ensures Unregister(Register(m, o).value, o) == Success(m)
  {
    RemoveAppended(m.observers, o.id);
  }

  /** With no duplicates, the observer set loses exactly the unregistered one. */
  lemma UnregisterRemovesExactly(m: Model, o: Observer)
    requires AiGraph.NoDuplicates(m.observers) && Unregister(m, o).Success?
    ensures Observers(Unregister(m, o).value) == Observers(m) - {o.id}
  {
    var r := Unregister(m, o).value;
    forall x ensures x in r.observers <==> x in m.observers && x != o.id {
      assert x in r.observers <==> multiset(r.observers)[x] > 0;
      assert x in m.observers <==> multiset(m.observers)[x] > 0;
      if x == o.id {
        assert multiset(m.observers)[x] == 1 by { CountOfDistinct(m.observers, x); }
      }
    }
  }

  /** An element of a list without duplicates occurs once. */
  lemma {:induction false} CountOfDistinct(s: seq<int>, x: int)
    requires AiGraph.NoDuplicates(s) && x in s
    ensures multiset(s)[x] == 1
  {
    assert s == [s[0]] + s[1..];
    if s[0] == x {
      assert x !in s[1..];
    } else {
      CountOfDistinct(s[1..], x);
    }
  }

  /** `chooseMove`: advance the game and report the event its winner set calls for. */
  function ChooseMove(m: Model, move: Move): (r: Result<(Model, Event)>)
    ensures r.Success? <==> Advance(m.game, move).Success?
    ensures r.Success? ==> r.value.0.observers == m.observers && r.value.0.game == Advance(m.game, move).value
    ensures r.Success? ==> (r.value.1 == GameOver <==> r.value.0.game.winner != {})
  {
    var game :- Advance(m.game, move);
    Success((Model(m.observers, game), if game.winner == {} then MoveMade else GameOver))
  }

  /** In a well-formed game every available move is accepted; after a game-over
      event no moves remain, and after a move-made event the next game is
      still well-formed. */
  lemma ChooseAvailableMove(m: Model, move: Move)
    requires Valid(m.game) && move in AvailableMoves(m.game)
    ensures ChooseMove(m, move).Success?
    ensures Valid(ChooseMove(m, move).value.0.game)
    ensures ChooseMove(m, move).value.1 == GameOver ==> AvailableMoves(ChooseMove(m, move).value.0.game) == {}
  {
    AdvanceKeepsValid(m.game, move);
  }
}

=== FILE: moves.dfy ===
/** Move generation of the game-rules engine (`makeSingleMoves`,
    `checkIfOccupied`, `findPaths`, `addSecondMove`, `makeDoubleMoves`). */
module Moves {
  import opened Types

  /** `checkIfOccupied`: the detectives scanned in order, stopping at the
      first one on `destination`; true exactly when some detective is there. */
  function CheckIfOccupied(destination: int, detectives: seq<Player>): (r: bool)
    ensures r <==> exists i :: 0 <= i < |detectives| && detectives[i].location == destination
    decreases |detectives|
  {
    if detectives == [] then false
    else if detectives[0].location == destination then true
    else
      var rest := CheckIfOccupied(destination, detectives[1..]);
      assert forall i :: 0 < i < |detectives| ==> detectives[i] == detectives[1..][i - 1];
      rest
  }

  /** The transports on the edge that `player` holds the ticket for. */
  predicate Payable(player: Player, t: Transport) {
    player.Has(t.RequiredTicket())
  }

  /** `player` holds the tickets `m` spends: the double ticket and both leg
      tickets of a double move, two of a kind when both legs use it. */
  predicate Affordable(player: Player, m: Move) {
    match m
    case Single(_, _, t, _) => player.Has(t)
    case Double(_, _, t1, _, t2, _) =>
      && player.Has(DoubleTicket)
      && (if t1 == t2 then player.Count(t1) >= 2 else player.Has(t1) && player.Has(t2))
  }

  /** `makeSingleMoves(setup, detectives, player, source)`: one move per
      held transport ticket on each edge to an unoccupied neighbour, and for
      MrX holding a secret ticket, a secret move to each such neighbour. */
  function MakeSingleMoves(setup: GameSetup, detectives: seq<Player>, player: Player, source: int): (r: set<Move>)
    ensures forall m :: m in r ==>
              && m.Single? && m.piece == player.piece && m.source == source
              && m.destination in Adjacent(setup.graph, source)
              && !CheckIfOccupied(m.destination, detectives)
              && Affordable(player, m)
              && ((exists t :: t in EdgeValue(setup.graph, source, m.destination) && t.RequiredTicket() == m.ticket)
                  || (m.ticket == Secret && player.piece.IsMrX()))
    ensures forall d, t :: d in Adjacent(setup.graph, source) && t in EdgeValue(setup.graph, source, d)
              && player.Has(t.RequiredTicket()) && !CheckIfOccupied(d, detectives)
              ==> Single(player.piece, source, t.RequiredTicket(), d) in r
    ensures forall d :: d in Adjacent(setup.graph, source) && player.piece.IsMrX() && player.Has(Secret)
              && !CheckIfOccupied(d, detectives)
              ==> Single(player.piece, source, Secret, d) in r
  {
    var g := setup.graph;
    (set d, t | d in Adjacent(g, source) && t in EdgeValue(g, source, d)
                && Payable(player, t) && !CheckIfOccupied(d, detectives)
              :: Single(player.piece, source, t.RequiredTicket(), d))
    + (set d | d in Adjacent(g, source) && player.piece.IsMrX() && player.Has(Secret)
                && !CheckIfOccupied(d, detectives)
              :: Single(player.piece, source, Secret, d))
  }

  /** `findPaths`: the two-step routes through unoccupied nodes. */
  function FindPaths(setup: GameSetup, detectives: seq<Player>, source: int): (r: set<(int, int)>)
    ensures forall p :: p in r <==>
              && p.0 in Adjacent(setup.graph, source) && !CheckIfOccupied(p.0, detectives)
              && p.1 in Adjacent(setup.graph, p.0) && !CheckIfOccupied(p.1, detectives)
  {
    var g := setup.graph;
    set d1, d2 | d1 in Adjacent(g, source) && !CheckIfOccupied(d1, detectives)
                 && d2 in Adjacent(g, d1) && !CheckIfOccupied(d2, detectives)
               :: (d1, d2)
  }

  /** `addSecondMove`: the double move with tickets `ticket1` then `ticket2`,
      kept when `count` (the caller's count for the first ticket) is at least
      two for a repeated ticket, or the player holds a different second ticket. */
  function AddSecondMove(source: int, destination1: int, destination2: int, count: int, player: Player,
                         ticket1: Ticket, ticket2: Ticket): (r: set<Move>)
    ensures r != {} <==> (ticket2 == ticket1 && count >= 2) || (ticket2 != ticket1 && player.Has(ticket2))
    ensures forall m :: m in r ==> m == Double(player.piece, source, ticket1, destination1, ticket2, destination2)
  {
    if (ticket2 == ticket1 && count >= 2) || (ticket2 != ticket1 && player.Has(ticket2)) then
      {Double(player.piece, source, ticket1, destination1, ticket2, destination2)}
    else {}
  }

  /** Which count the secret-first branch of the double-move loop passes on. */
  datatype DoubleRule =
    | AsWritten   // secret-first moves see the count of the route's transport ticket; only a one-round game refuses doubles
    | Corrected   // secret-first moves see the secret count; fewer than two rounds left refuses doubles

  /** `ticket` pays for one of the transports on the edge from `u` to `v`. */
  predicate EdgeTicket(g: Graph, u: int, v: int, ticket: Ticket) {
    exists t :: t in EdgeValue(g, u, v) && t.RequiredTicket() == ticket
  }

  /** The legs' tickets match the edges (a secret ticket matches any edge),
      and the player holds them, two of a kind when repeated unless both are secret. */
  predicate LegTickets(g: Graph, player: Player, m: Move)
    requires m.Double?
  {
    && (EdgeTicket(g, m.source, m.destination1, m.ticket1) || m.ticket1 == Secret)
    && (EdgeTicket(g, m.destination1, m.destination2, m.ticket2) || m.ticket2 == Secret)
    && player.Has(m.ticket1)
    && (m.ticket2 != m.ticket1 ==> player.Has(m.ticket2))
    && (m.ticket1 == m.ticket2 && m.ticket1 != Secret ==> player.Count(m.ticket1) >= 2)
  }

  /** The double moves along route (`d1`, `d2`) whose first leg uses
      `ticket1` and whose second leg pays for one of the edge's transports. */
  function SecondLegs(g: Graph, source: int, d1: int, d2: int, count: int, player: Player,
                      ticket1: Ticket): (r: set<Move>)
    ensures forall m :: m in r ==>
              && m.Double? && m == Double(player.piece, source, ticket1, d1, m.ticket2, d2)
              && EdgeTicket(g, d1, d2, m.ticket2)
              && (m.ticket2 == ticket1 ==> count >= 2)
              && (m.ticket2 != ticket1 ==> player.Has(m.ticket2))
  {
    set t2, m | t2 in EdgeValue(g, d1, d2)
                && m in AddSecondMove(source, d1, d2, count, player, ticket1, t2.RequiredTicket()) :: m
  }

  /** The double moves along the route (`d1`, `d2`) that start with
      transport `t1` (for which `count` tickets are held). */
  function RouteMoves(rule: DoubleRule, g: Graph, source: int, d1: int, d2: int, count: int,
                      player: Player, t1: Transport): (r: set<Move>)
    requires t1 in EdgeValue(g, source, d1)
    requires count == player.Count(t1.RequiredTicket()) >= 1
    ensures forall m :: m in r ==>
              && m.Double? && m.piece == player.piece && m.source == source
              && m.destination1 == d1 && m.destination2 == d2
              && m.ticket1 != DoubleTicket && m.ticket2 != DoubleTicket
              && LegTickets(g, player, m)
    ensures rule == Corrected && player.Has(DoubleTicket) ==> forall m :: m in r ==> Affordable(player, m)
  {
    TicketFirst(g, source, d1, d2, count, player, t1) + SecretFirst(rule, g, source, d1, d2, count, player)
  }

  /** The route's double moves whose first leg uses `t1`'s own ticket. */
  function TicketFirst(g: Graph, source: int, d1: int, d2: int, count: int,
                       player: Player, t1: Transport): (r: set<Move>)
    requires t1 in EdgeValue(g, source, d1)
    requires count == player.Count(t1.RequiredTicket()) >= 1
    ensures forall m :: m in r ==>
              && m.Double? && m.piece == player.piece && m.source == source
              && m.destination1 == d1 && m.destination2 == d2
              && m.ticket1 != DoubleTicket && m.ticket2 != DoubleTicket
              && LegTickets(g, player, m)
              && (player.Has(DoubleTicket) ==> Affordable(player, m))
  {
    var ticket1 := t1.RequiredTicket();
    SecondLegs(g, source, d1, d2, count, player, ticket1)
    + (if player.Has(Secret) then AddSecondMove(source, d1, d2, count, player, ticket1, Secret) else {})
  }

  /** The route's double moves whose first leg uses a secret ticket; under
      the code as written they see the count of the route's transport ticket. */
  function SecretFirst(rule: DoubleRule, g: Graph, source: int, d1: int, d2: int, count: int,
                       player: Player): (r: set<Move>)
    requires count >= 1
    ensures forall m :: m in r ==>
              && m.Double? && m.piece == player.piece && m.source == source
              && m.destination1 == d1 && m.destination2 == d2
              && m.ticket1 == Secret && m.ticket2 != DoubleTicket
              && LegTickets(g, player, m)
    ensures rule == Corrected && player.Has(DoubleTicket) ==> forall m :: m in r ==> Affordable(player, m)
  {
    var secretCount := if rule == AsWritten then count else player.Count(Secret);
    (if player.Has(Secret) then SecondLegs(g, source, d1, d2, secretCount, player, Secret) else {})
    + (if player.Count(Secret) >= 2 then AddSecondMove(source, d1, d2, secretCount, player, Secret, Secret) else {})
  }

  /** Double moves are refused outright. */
  predicate NoDoubles(rule: DoubleRule, setup: GameSetup, player: Player, round: int) {
    || !player.Has(DoubleTicket)
    || (rule == AsWritten && |setup.rounds| == 1)
    || (rule == Corrected && |setup.rounds| - round < 2)
  }

  /** `makeDoubleMoves(setup, detectives, player, source)` under `rule`,
      in the game's round `round`. */
  function MakeDoubleMoves(rule: DoubleRule, setup: GameSetup, detectives: seq<Player>, player: Player,
                           source: int, round: int): (r: set<Move>)
    ensures NoDoubles(rule, setup, player, round) ==> r == {}
    ensures forall m :: m in r ==>
              && m.Double? && m.piece == player.piece && m.source == source
              && (m.destination1, m.destination2) in FindPaths(setup, detectives, source)
              && player.Has(DoubleTicket)
              && m.ticket1 != DoubleTicket && m.ticket2 != DoubleTicket
              && LegTickets(setup.graph, player, m)
    ensures rule == Corrected ==> forall m :: m in r ==> Affordable(player, m)
    ensures forall m :: m in r ==>
              exists t :: t in EdgeValue(setup.graph, source, m.destination1) && player.Has(t.RequiredTicket())
  {
    if NoDoubles(rule, setup, player, round) then {}
    else
      var g := setup.graph;
      var paths := FindPaths(setup, detectives, source);
      set p, t1, m | p in paths && t1 in EdgeValue(g, source, p.0)
                     && player.Count(t1.RequiredTicket()) >= 1
                     && m in RouteMoves(rule, g, source, p.0, p.1, player.Count(t1.RequiredTicket()), player, t1)
                   :: m
  }

  /** Under the corrected rule the generator misses no double move: every
      affordable double along a `findPaths` route, with leg tickets that
      match the edges (a secret ticket matches any edge) and a held ticket
      for some transport of the first edge, is generated. */
  lemma DoubleMovesComplete(setup: GameSetup, detectives: seq<Player>, player: Player, source: int,
                            round: int, m: Move)
    requires !NoDoubles(Corrected, setup, player, round)
    requires m.Double? && m.piece == player.piece && m.source == source
    requires (m.destination1, m.destination2) in FindPaths(setup, detectives, source)
    requires EdgeTicket(setup.graph, source, m.destination1, m.ticket1) || m.ticket1 == Secret
    requires EdgeTicket(setup.graph, m.destination1, m.destination2, m.ticket2) || m.ticket2 == Secret
    requires exists t :: t in EdgeValue(setup.graph, source, m.destination1) && player.Has(t.RequiredTicket())
    requires Affordable(player, m)
    ensures m in MakeDoubleMoves(Corrected, setup, detectives, player, source, round)
  {
    var g := setup.graph;
    var t1: Transport;
    if EdgeTicket(g, source, m.destination1, m.ticket1) {
      t1 :| t1 in EdgeValue(g, source, m.destination1) && t1.RequiredTicket() == m.ticket1;
    } else {
      t1 :| t1 in EdgeValue(g, source, m.destination1) && player.Has(t1.RequiredTicket());
    }
    RouteComplete(g, source, m.destination1, m.destination2, player, t1, m);
  }

  /** The route's moves include every affordable double whose first ticket
      is `t1`'s or secret and whose second leg matches the edge or is secret. */
  lemma RouteComplete(g: Graph, source: int, d1: int, d2: int, player: Player, t1: Transport, m: Move)
    requires t1 in EdgeValue(g, source, d1) && player.Has(t1.RequiredTicket())
    requires m.Double? && m == Double(player.piece, source, m.ticket1, d1, m.ticket2, d2)
    requires m.ticket1 == t1.RequiredTicket() || m.ticket1 == Secret
    requires EdgeTicket(g, d1, d2, m.ticket2) || m.ticket2 == Secret
    requires Affordable(player, m)
    ensures m in RouteMoves(Corrected, g, source, d1, d2, player.Count(t1.RequiredTicket()), player, t1)
  {
    var count := player.Count(t1.RequiredTicket());
    if m.ticket1 == t1.RequiredTicket() {
      if EdgeTicket(g, d1, d2, m.ticket2) {
        var t2 :| t2 in EdgeValue(g, d1, d2) && t2.RequiredTicket() == m.ticket2;
        assert m in AddSecondMove(source, d1, d2, count, player, m.ticket1, t2.RequiredTicket());
        assert m in TicketFirst(g, source, d1, d2, count, player, t1);
      } else {
        assert m in AddSecondMove(source, d1, d2, count, player, m.ticket1, Secret);
        assert m in TicketFirst(g, source, d1, d2, count, player, t1);
      }
    } else {
      var secretCount := player.Count(Secret);
      if m.ticket2 == Secret {
        assert m in AddSecondMove(source, d1, d2, secretCount, player, Secret, Secret);
        assert m in SecretFirst(Corrected, g, source, d1, d2, count, player);
      } else {
        var t2 :| t2 in EdgeValue(g, d1, d2) && t2.RequiredTicket() == m.ticket2;
        assert m in AddSecondMove(source, d1, d2, secretCount, player, Secret, t2.RequiredTicket());
        assert m in SecondLegs(g, source, d1, d2, secretCount, player, Secret);
        assert m in SecretFirst(Corrected, g, source, d1, d2, count, player);
      }
    }
  }
}

=== FILE: opponents.dfy ===
/** The AI's model of the detectives' reply: each detective's candidate
    moves (`reduceCombinations`) and their joint combinations
    (`findCombinations`). */
module Opponents {
  import opened Wrappers
  import opened AiGraph
  import opened Distances

  /** `distances.get(i)`. */
  function Lookup(d: seq<int>, i: int): (r: Result<int>)
    ensures r.Success? <==> 0 <= i < |d|
    ensures r.Success? ==> r.value == d[i]
  {
    if 0 <= i < |d| then Success(d[i]) else Failure(IndexOutOfBounds)
  }

  /** The neighbours, in order, whose table entry is at most `bound`. */
  function Closer(d: seq<int>, bound: int, adjacent: seq<int>): (r: Result<seq<int>>)
    ensures r.Success? <==> forall k :: 0 <= k < |adjacent| ==> 0 <= adjacent[k] < |d|
    ensures r.Success? ==> forall x :: x in r.value <==> x in adjacent && d[x] <= bound
    ensures r.Success? ==> |r.value| <= |adjacent|
  {
    if adjacent == [] then Success([])
    else
      var x := adjacent[0];
      var dx :- Lookup(d, x);
      var rest :- Closer(d, bound, adjacent[1..]);
      assert adjacent == [x] + adjacent[1..];
      Success(if dx <= bound then [x] + rest else rest)
  }

  /** The pruning rule: keep the filtered moves unless that leaves at most
      one, or fewer than 30% of the moves (written 10·|r| < 3·|adjacent|). */
  predicate OverPruned(reduced: seq<int>, adjacent: seq<int>) {
    |reduced| <= 1 || 10 * |reduced| < 3 * |adjacent|
  }

  /** `reduceCombinations(currLocation, adjacent, jarvisXLocation)`: the moves
      of the detective at `curr` that do not take it further from MrX. */
  function ReduceCombinations(g: Adjacency, curr: int, adjacent: seq<int>, mrX: int): (r: Result<seq<int>>)
    requires WellFormed(g)
    ensures r.Success? ==> forall x :: x in r.value ==> x in adjacent
    ensures r.Success? <==>
              && FindDistances(g, mrX).Success? && 0 <= curr < TableSize
              && forall k :: 0 <= k < |adjacent| ==> 0 <= adjacent[k] < TableSize
    ensures r.Success? ==>
              var d := FindDistances(g, mrX).value;
              var closer := Closer(d, d[curr], adjacent);
              && closer.Success?
              && (OverPruned(closer.value, adjacent) ==> r.value == adjacent)
              && (!OverPruned(closer.value, adjacent) ==>
                    forall x :: x in r.value <==> x in adjacent && d[x] <= d[curr])
  {
    var d :- FindDistances(g, mrX);
    var currDistance :- Lookup(d, curr);
    var reduced :- Closer(d, currDistance, adjacent);
    if OverPruned(reduced, adjacent) then Success(adjacent) else Success(reduced)
  }

  /** Every combination of `combs` extended by `a`. */
  function ExtendAll(combs: seq<seq<int>>, a: int): (r: seq<seq<int>>)
    ensures |r| == |combs|
    ensures forall i :: 0 <= i < |r| ==> r[i] == combs[i] + [a]
  {
    seq(|combs|, i requires 0 <= i < |combs| => combs[i] + [a])
  }

  /** The inner loop of `findCombinations` over one detective's candidates:
      `combs` is `combinations`, `acc` is `newCombinations`. While
      `combinations` is empty, a candidate only adds an EMPTY list to it
      (`new ArrayList<>(adjacentNode)` sets a capacity, it adds no element). */
  function Inner(combs: seq<seq<int>>, acc: seq<seq<int>>, cands: seq<int>): seq<seq<int>>
    decreases |cands|
  {
    if cands == [] then acc
    else if |combs| == 0 then Inner([[]], acc, cands[1..])
    else Inner(combs, acc + ExtendAll(combs, cands[0]), cands[1..])
  }

  /** One detective's turn of the outer loop: the new `combinations`. */
  function Step(combs: seq<seq<int>>, cands: seq<int>): seq<seq<int>> {
    Inner(combs, [], cands)
  }

  /** The outer loop of `findCombinations` over the candidate lists. */
  function Fold(combs: seq<seq<int>>, candLists: seq<seq<int>>): seq<seq<int>>
    decreases |candLists|
  {
    if candLists == [] then combs else Fold(Step(combs, candLists[0]), candLists[1..])
  }

  /** Every detective stands on a node and, when there is one, MrX's
      distance table exists. */
  ghost predicate Enumerable(g: Adjacency, detectives: seq<int>, mrX: int)
    requires WellFormed(g)
  {
    && (forall j :: 0 <= j < |detectives| ==> detectives[j] in g)
    && (detectives != [] ==> FindDistances(g, mrX).Success?)
  }

  lemma EnumerableCons(g: Adjacency, detectives: seq<int>, mrX: int)
    requires WellFormed(g) && detectives != []
    ensures Enumerable(g, detectives, mrX) <==>
              detectives[0] in g && FindDistances(g, mrX).Success? && Enumerable(g, detectives[1..], mrX)
  {
    assert forall j :: 0 < j < |detectives| ==> detectives[j] == detectives[1..][j - 1];
  }

  /** The candidate list of each detective, in detective order. */
  function CandidateLists(g: Adjacency, detectives: seq<int>, mrX: int): (r: Result<seq<seq<int>>>)
    requires WellFormed(g)
    ensures r.Success? ==> |r.value| == |detectives|
    ensures r.Success? ==> forall j :: 0 <= j < |detectives| ==> MovesOf(g, detectives[j], r.value[j])
    ensures r.Success? <==> Enumerable(g, detectives, mrX)
    ensures r.Success? ==> forall j :: 0 <= j < |detectives| ==>
              Candidates(g, detectives[j], mrX) == Success(r.value[j])
    decreases |detectives|
  {
    if detectives == [] then Success([])
    else
      EnumerableCons(g, detectives, mrX);
      var cands :- Candidates(g, detectives[0], mrX);
      var rest :- CandidateLists(g, detectives[1..], mrX);
      ShiftIndex(detectives, cands, rest);
      Success([cands] + rest)
  }

  /** Prepending shifts every index of the tail by one. */
  lemma ShiftIndex(detectives: seq<int>, cands: seq<int>, rest: seq<seq<int>>)
    requires detectives != [] && |rest| == |detectives| - 1
    ensures ([cands] + rest)[0] == cands
    ensures forall j :: 0 < j < |detectives| ==>
              detectives[j] == detectives[1..][j - 1] && ([cands] + rest)[j] == rest[j - 1]
  {
  }

  /** `curr` is a node and every candidate is one of its neighbours. */
  ghost predicate MovesOf(g: Adjacency, curr: int, cands: seq<int>) {
    curr in g && forall x :: x in cands ==> x in g[curr]
  }

  /** The candidate moves of the detective at `curr`: its reduced neighbours. */
  function Candidates(g: Adjacency, curr: int, mrX: int): (r: Result<seq<int>>)
    requires WellFormed(g)
    ensures r.Success? ==> MovesOf(g, curr, r.value)
    ensures r.Success? <==> curr in g && FindDistances(g, mrX).Success?
  {
    var adjacent :- Neighbours(g, curr);
    ReduceCombinations(g, curr, adjacent, mrX)
  }

  /** `findCombinations(detectiveLocations, jarvisXLocation)`. */
  function FindCombinations(g: Adjacency, detectives: seq<int>, mrX: int): (r: Result<seq<seq<int>>>)
    requires WellFormed(g)
    ensures r.Success? <==> Enumerable(g, detectives, mrX)
    ensures r.Success? ==> Enumerates(r.value, CandidateLists(g, detectives, mrX).value)
  {
    var candLists :- CandidateLists(g, detectives, mrX);
    FoldCounted(candLists);
    Success(Fold([], candLists))
  }

  /** The first detective has at least two candidates and every other at least one. */
  ghost predicate Countable(candLists: seq<seq<int>>) {
    |candLists| > 0 && |candLists[0]| >= 2 && forall j :: 0 <= j < |candLists| ==> |candLists[j]| > 0
  }

  /** With enough candidates, `combs` holds (k1-1)·k2·…·kn combinations, one
      entry per detective drawn from its candidates, the first detective's
      first candidate excluded. */
  ghost predicate Enumerates(combs: seq<seq<int>>, candLists: seq<seq<int>>) {
    Countable(candLists) ==>
      && |combs| == (|candLists[0]| - 1) * Product(candLists[1..])
      && Shaped(combs, [candLists[0][1..]] + candLists[1..])
  }

  lemma FoldCounted(candLists: seq<seq<int>>)
    ensures Enumerates(Fold([], candLists), candLists)
  {
    if Countable(candLists) {
      CombinationCount(candLists);
    }
  }

  // ----- reference definitions and the shape of the enumeration -----

  /** Reference Cartesian extension: each candidate, in order, appended to
      every combination, in order. */
  function Cross(combs: seq<seq<int>>, cands: seq<int>): (r: seq<seq<int>>)
    ensures |r| == |combs| * |cands|
  {
    if cands == [] then [] else ExtendAll(combs, cands[0]) + Cross(combs, cands[1..])
  }

  /** Every combination has one entry per list, drawn from that list. */
  ghost predicate Shaped(combs: seq<seq<int>>, lists: seq<seq<int>>) {
    forall c :: c in combs ==>
      |c| == |lists| && forall j :: 0 <= j < |lists| ==> c[j] in lists[j]
  }

  function Product(lists: seq<seq<int>>): nat {
    if lists == [] then 1 else |lists[0]| * Product(lists[1..])
  }

  lemma {:induction false} InnerIsCross(combs: seq<seq<int>>, acc: seq<seq<int>>, cands: seq<int>)
    requires |combs| > 0
    ensures Inner(combs, acc, cands) == acc + Cross(combs, cands)
    decreases |cands|
  {
    if cands != [] {
      InnerIsCross(combs, acc + ExtendAll(combs, cands[0]), cands[1..]);
    }
  }

  /** Once some combination exists, a detective's turn extends every
      combination by every candidate. */
  lemma StepExtendsEvery(combs: seq<seq<int>>, cands: seq<int>)
    requires |combs| > 0
    ensures Step(combs, cands) == Cross(combs, cands)
  {
    InnerIsCross(combs, [], cands);
  }

  lemma {:induction false} InnerFromEmpty(acc: seq<seq<int>>, cands: seq<int>)
    requires |cands| > 0
    ensures Inner([], acc, cands) == acc + Cross([[]], cands[1..])
  {
    InnerIsCross([[]], acc, cands[1..]);
  }

  /** While no combination exists, a detective's turn yields one singleton
      per candidate except the first, which is lost. */
  lemma StepFromEmpty(cands: seq<int>)
    requires |cands| > 0
    ensures Step([], cands) == Cross([[]], cands[1..])
    ensures |Step([], cands)| == |cands| - 1
  {
    InnerFromEmpty([], cands);
  }

  lemma {:induction false} CrossShaped(combs: seq<seq<int>>, lists: seq<seq<int>>, cands: seq<int>)
    requires Shaped(combs, lists)
    ensures Shaped(Cross(combs, cands), lists + [cands])
    decreases |cands|
  {
    if cands != [] {
      CrossShaped(combs, lists, cands[1..]);
      ExtendShaped(combs, lists, cands);
      var ls := lists + [cands];
      forall c | c in Cross(combs, cands[1..])
        ensures |c| == |ls| && forall j :: 0 <= j < |ls| ==> c[j] in ls[j]
      {
        assert forall j :: 0 <= j < |ls| ==> c[j] in (lists + [cands[1..]])[j];
      }
    }
  }

  /** Extending shaped combinations by a candidate gives combinations shaped
      by the lists and that candidate's list. */
  lemma ExtendShaped(combs: seq<seq<int>>, lists: seq<seq<int>>, cands: seq<int>)
    requires Shaped(combs, lists) && cands != []
    ensures Shaped(ExtendAll(combs, cands[0]), lists + [cands])
  {
    var head := ExtendAll(combs, cands[0]);
    var ls := lists + [cands];
    forall c | c in head
      ensures |c| == |ls| && forall j :: 0 <= j < |ls| ==> c[j] in ls[j]
    {
      var i :| 0 <= i < |head| && head[i] == c;
      assert c == combs[i] + [cands[0]];
    }
  }

  lemma {:induction false} FoldSize(combs: seq<seq<int>>, candLists: seq<seq<int>>)
    requires |combs| > 0
    requires forall j :: 0 <= j < |candLists| ==> |candLists[j]| > 0
    ensures |Fold(combs, candLists)| == |combs| * Product(candLists)
    decreases |candLists|
  {
    if candLists != [] {
      var k := |candLists[0]|;
      var next := Step(combs, candLists[0]);
      StepExtendsEvery(combs, candLists[0]);
      assert |next| == |combs| * k;
      MulPositive(|combs|, k);
      FoldSize(next, candLists[1..]);
      MulAssoc(|combs|, k, Product(candLists[1..]));
    }
  }

  lemma MulPositive(a: int, b: int)
    requires a > 0 && b > 0
    ensures a * b > 0
  {
  }

  lemma MulAssoc(a: int, b: int, c: int)
    ensures (a * b) * c == a * (b * c)
  {
  }

  lemma {:induction false} FoldShaped(combs: seq<seq<int>>, lists: seq<seq<int>>, candLists: seq<seq<int>>)
    requires |combs| > 0 && Shaped(combs, lists)
    requires forall j :: 0 <= j < |candLists| ==> |candLists[j]| > 0
    ensures Shaped(Fold(combs, candLists), lists + candLists)
    decreases |candLists|
  {
    if candLists != [] {
      var next := Step(combs, candLists[0]);
      StepExtendsEvery(combs, candLists[0]);
      CrossShaped(combs, lists, candLists[0]);
      MulPositive(|combs|, |candLists[0]|);
      FoldShaped(next, lists + [candLists[0]], candLists[1..]);
      assert lists + [candLists[0]] + candLists[1..] == lists + candLists;
    }
  }

  /** With at least one candidate per detective and two for the first, the
      enumeration has (k1-1)·k2·…·kn combinations, each with one entry per
      detective drawn from its candidates, the first never being the first
      detective's first candidate. */
  lemma CombinationCount(candLists: seq<seq<int>>)
    requires |candLists| > 0 && |candLists[0]| >= 2
    requires forall j :: 0 <= j < |candLists| ==> |candLists[j]| > 0
    ensures |Fold([], candLists)| == (|candLists[0]| - 1) * Product(candLists[1..])
    ensures Shaped(Fold([], candLists), [candLists[0][1..]] + candLists[1..])
  {
    var first := candLists[0];
    FirstStep(first);
    var combs := Step([], first);
    FoldSize(combs, candLists[1..]);
    FoldShaped(combs, [first[1..]], candLists[1..]);
  }

  /** The first detective's turn leaves its candidates but the first, each
      as a one-entry combination. */
  lemma FirstStep(first: seq<int>)
    requires |first| >= 2
    ensures |Step([], first)| == |first| - 1
    ensures Shaped(Step([], first), [first[1..]])
  {
    StepFromEmpty(first);
    assert Shaped([[]], []);
    CrossShaped([[]], [], first[1..]);
    assert [] + [first[1..]] == [first[1..]];
  }
}

=== FILE: priority.dfy ===
/** `jarvisXLocationPriority`: MrX's immediate locations in a `TreeSet`
    whose comparator orders by descending score, treating `MIN_VALUE` as
    -10000 and two locations of equal score as the same element. */
module Priority {
  import opened Wrappers
  import opened Int32
  import opened AiGraph
  import opened Evaluator

  /** The score the comparator uses in place of `Integer.MIN_VALUE`. */
  const DeadlyKey: int := -10000

  function Key(score: int): int {
    if score == MinValue then DeadlyKey else score
  }

  /** A location together with its comparator key. */
  type Ranked = (int, int)

  ghost predicate Descending(s: seq<Ranked>) {
    forall i, j :: 0 <= i < j < |s| ==> s[i].1 > s[j].1
  }

  /** The element carries its location's comparator key. */
  ghost predicate KeyOf(g: Adjacency, occupied: seq<int>, y: Ranked)
    requires WellFormed(g)
  {
    Score(g, y.0, occupied).Success? && y.1 == Key(Score(g, y.0, occupied).value)
  }

  lemma ConsDescending(h: Ranked, t: seq<Ranked>)
    requires Descending(t)
    requires t == [] || h.1 > t[0].1
    ensures Descending([h] + t)
  {
    var r := [h] + t;
    forall i, j | 0 <= i < j < |r|
      ensures r[i].1 > r[j].1
    {
      if i > 0 {
        assert r[i] == t[i - 1] && r[j] == t[j - 1];
      } else {
        assert r[j] == t[j - 1] && t[0].1 >= t[j - 1].1;
      }
    }
  }

  /** Some element of `s` has key `k`. */
  ghost predicate HasKey(s: seq<Ranked>, k: int) {
    exists y :: y in s && y.1 == k
  }

  /** Every location's score exists and its key is held by an element of `s`. */
  ghost predicate Represented(g: Adjacency, occupied: seq<int>, locations: seq<int>, s: seq<Ranked>)
    requires WellFormed(g)
  {
    forall l :: l in locations ==> Score(g, l, occupied).Success? && HasKey(s, Key(Score(g, l, occupied).value))
  }

  /** Every location has a score. */
  ghost predicate AllScore(g: Adjacency, occupied: seq<int>, locations: seq<int>)
    requires WellFormed(g)
  {
    forall l :: l in locations ==> Score(g, l, occupied).Success?
  }

  /** The locations all have scores and come by strictly descending key. */
  ghost predicate RankedByKey(g: Adjacency, occupied: seq<int>, locations: seq<int>)
    requires WellFormed(g)
  {
    && AllScore(g, occupied, locations)
    && forall i, j :: 0 <= i < j < |locations| ==>
         Key(Score(g, locations[i], occupied).value) > Key(Score(g, locations[j], occupied).value)
  }

  lemma AllScoreCons(g: Adjacency, occupied: seq<int>, locations: seq<int>)
    requires WellFormed(g) && locations != []
    ensures AllScore(g, occupied, locations) <==>
      Score(g, locations[0], occupied).Success? && AllScore(g, occupied, locations[1..])
  {
    assert locations == [locations[0]] + locations[1..];
  }

  /** `TreeSet.add`: inserts before the first element of smaller key, and
      drops `x` when an element of the same key is already present. */
  function PlaceIn(sorted: seq<Ranked>, x: Ranked): (r: seq<Ranked>)
    requires Descending(sorted)
    ensures Descending(r)
    ensures forall y :: y in r ==> y in sorted || y == x
    ensures forall y :: y in sorted ==> y in r
    ensures HasKey(r, x.1)
    ensures |r| > 0 && r[0].1 == if sorted != [] && sorted[0].1 > x.1 then sorted[0].1 else x.1
  {
    if sorted == [] then
      assert x in [x];
      [x]
    else if x.1 > sorted[0].1 then
      ConsDescending(x, sorted);
      [x] + sorted
    else if x.1 == sorted[0].1 then
      assert sorted[0] in sorted;
      sorted
    else
      var t := PlaceIn(sorted[1..], x);
      assert sorted == [sorted[0]] + sorted[1..];
      ConsDescending(sorted[0], t);
      [sorted[0]] + t
  }

  /** `addAll(locations)` into a `TreeSet` already holding `sorted`. */
  function PlaceAll(g: Adjacency, occupied: seq<int>, sorted: seq<Ranked>, locations: seq<int>): (r: Result<seq<Ranked>>)
    requires WellFormed(g)
    requires Descending(sorted)
    ensures r.Success? ==> Descending(r.value)
    ensures r.Success? ==> forall y :: y in r.value ==> y in sorted || (y.0 in locations && KeyOf(g, occupied, y))
    ensures r.Success? ==> forall y :: y in sorted ==> y in r.value
    ensures r.Success? ==> Represented(g, occupied, locations, r.value)
    ensures r.Success? <==> AllScore(g, occupied, locations)
    decreases |locations|
  {
    if locations == [] then Success(sorted)
    else
      AllScoreCons(g, occupied, locations);
      var l := locations[0];
      var s :- Score(g, l, occupied);
      var next := PlaceIn(sorted, (l, Key(s)));
      var r :- PlaceAll(g, occupied, next, locations[1..]);
      KeyKept(next, r, Key(s));
      RepresentedCons(g, occupied, locations, r);
      Success(r)
  }

  /** The head's key and the tail's keys held make every key held. */
  lemma RepresentedCons(g: Adjacency, occupied: seq<int>, locations: seq<int>, s: seq<Ranked>)
    requires WellFormed(g) && locations != []
    requires Score(g, locations[0], occupied).Success?
    requires HasKey(s, Key(Score(g, locations[0], occupied).value))
    requires Represented(g, occupied, locations[1..], s)
    ensures Represented(g, occupied, locations, s)
  {
    forall l | l in locations
      ensures Score(g, l, occupied).Success? && HasKey(s, Key(Score(g, l, occupied).value))
    {
      if l != locations[0] {
        assert l in locations[1..];
      }
    }
  }

  /** `jarvisXLocationPriority(detectiveLocations, locations)`: the locations
      by strictly descending key, one per distinct key. */
  function LocationPriority(g: Adjacency, occupied: seq<int>, locations: seq<int>): (r: Result<seq<Ranked>>)
    requires WellFormed(g)
    ensures r.Success? ==> Descending(r.value)
    ensures r.Success? ==> forall y :: y in r.value ==> y.0 in locations && KeyOf(g, occupied, y)
    ensures r.Success? ==> Represented(g, occupied, locations, r.value)
    ensures r.Success? ==> (r.value == [] <==> locations == [])
    ensures r.Success? <==> AllScore(g, occupied, locations)
  {
    var r :- PlaceAll(g, occupied, [], locations);
    PlacedSomething(g, occupied, locations, r);
    Success(r)
  }

  /** A key held by `a` is held by any `b` containing `a`'s elements. */
  lemma KeyKept(a: seq<Ranked>, b: seq<Ranked>, k: int)
    requires HasKey(a, k) && forall y :: y in a ==> y in b
    ensures HasKey(b, k)
  {
    var y :| y in a && y.1 == k;
    assert y in b;
  }

  lemma PlacedSomething(g: Adjacency, occupied: seq<int>, locations: seq<int>, r: seq<Ranked>)
    requires WellFormed(g)
    requires forall y :: y in r ==> y.0 in locations
    requires Represented(g, occupied, locations, r)
    ensures r == [] <==> locations == []
  {
    if locations != [] {
      var l := locations[0];
      assert l in locations;
      var y :| y in r && y.1 == Key(Score(g, l, occupied).value);
    }
    if r != [] {
      assert r[0] in r;
      assert r[0].0 in locations;
    }
  }

  /** Reading off the locations of a descending sequence of keyed elements
      ranks them by key. */
  lemma LocationsRanked(g: Adjacency, occupied: seq<int>, s: seq<Ranked>)
    requires WellFormed(g) && Descending(s)
    requires forall y :: y in s ==> KeyOf(g, occupied, y)
    ensures RankedByKey(g, occupied, Locations(s))
  {
    var locs := Locations(s);
    forall l | l in locs
      ensures Score(g, l, occupied).Success?
    {
      var i :| 0 <= i < |locs| && locs[i] == l;
      assert KeyOf(g, occupied, s[i]);
    }
    forall i, j | 0 <= i < j < |locs|
      ensures Key(Score(g, locs[i], occupied).value) > Key(Score(g, locs[j], occupied).value)
    {
      assert KeyOf(g, occupied, s[i]) && KeyOf(g, occupied, s[j]);
    }
  }

  /** The locations of a ranked sequence, in order. */
  function Locations(s: seq<Ranked>): (r: seq<int>)
    ensures |r| == |s| && forall i :: 0 <= i < |s| ==> r[i] == s[i].0
  {
    seq(|s|, i requires 0 <= i < |s| => s[i].0)
  }
}

=== FILE: search.dfy ===
/** The AI's depth-limited minimax with alpha-beta pruning (`maximiser`
    and `minimiser`), MrX maximising and the detectives minimising. The
    wall-clock cut-off is not modelled: this is the search run to completion. */
module Search {
  import opened Wrappers
  import opened Int32
  import opened AiGraph
  import opened Evaluator
  import opened Opponents
  import opened Priority

  /** Subtracted from a reply in which a detective lands on MrX. */
  const CapturePenalty: int := 500

  /** `HashSet.addAll`: `base` followed by the elements of `extra` it lacks. */
  function AppendNew(base: seq<int>, extra: seq<int>): (r: seq<int>)
    ensures forall x :: x in r <==> x in base || x in extra
    ensures NoDuplicates(base) ==> NoDuplicates(r)
    ensures |r| >= |base| && r[..|base|] == base
    decreases |extra|
  {
    if extra == [] then base
    else AppendNew(if extra[0] in base then base else base + [extra[0]], extra[1..])
  }

  /** `x` is a neighbour of an unoccupied location among `singles`. */
  ghost predicate HopOf(g: Adjacency, occupied: seq<int>, singles: seq<int>, x: int) {
    exists k :: 0 <= k < |singles| && singles[k] in g && singles[k] !in occupied && x in g[singles[k]]
  }

  /** The two-hop locations: every neighbour of an unoccupied neighbour. */
  function Hops(g: Adjacency, occupied: seq<int>, singles: seq<int>, acc: seq<int>): (r: seq<int>)
    requires forall x :: x in singles ==> x in g
    ensures forall x :: x in r <==> (x in acc || HopOf(g, occupied, singles, x))
    ensures NoDuplicates(acc) ==> NoDuplicates(r)
    decreases |singles|
  {
    if singles == [] then acc
    else
      var a := singles[0];
      var acc' := if a !in occupied then AppendNew(acc, g[a]) else acc;
      var r := Hops(g, occupied, singles[1..], acc');
      HopOfCons(g, occupied, singles);
      r
  }

  lemma HopOfCons(g: Adjacency, occupied: seq<int>, singles: seq<int>)
    requires singles != [] && singles[0] in g
    ensures forall x :: HopOf(g, occupied, singles, x) <==>
              ((singles[0] !in occupied && x in g[singles[0]]) || HopOf(g, occupied, singles[1..], x))
  {
    forall x
      ensures HopOf(g, occupied, singles, x) <==>
                ((singles[0] !in occupied && x in g[singles[0]]) || HopOf(g, occupied, singles[1..], x))
    {
      if HopOf(g, occupied, singles, x) {
        var k :| 0 <= k < |singles| && singles[k] in g && singles[k] !in occupied && x in g[singles[k]];
        if k > 0 {
          assert singles[1..][k - 1] == singles[k];
        }
      }
      if HopOf(g, occupied, singles[1..], x) {
        var k :| 0 <= k < |singles[1..]| && singles[1..][k] in g && singles[1..][k] !in occupied
                 && x in g[singles[1..][k]];
        assert singles[k + 1] == singles[1..][k];
      }
    }
  }

  /** The double-move locations, as a set. */
  function HopSet(g: Adjacency, occupied: seq<int>, singles: seq<int>): (r: set<int>)
    requires forall x :: x in singles ==> x in g
    ensures forall x :: x in r <==> HopOf(g, occupied, singles, x)
  {
    set x | x in Hops(g, occupied, singles, [])
  }

  /** The double-move rule fires: a double ticket is left, the median
      detective distance exists, and MrX is cornered (median at most 3, at
      most `degree` 4 neighbours) or `allDeadly` holds. */
  ghost predicate Fires(g: Adjacency, mrX: int, occupied: seq<int>, tickets: int, degree: int, allDeadly: bool)
    requires WellFormed(g)
  {
    && tickets >= 1
    && TwiceMedianDistance(g, mrX, occupied).Success?
    && ((TwiceMedianDistance(g, mrX, occupied).value <= 6 && degree <= 4) || allDeadly)
  }

  /** The rule can be decided: no double ticket is left, or the median exists. */
  ghost predicate Decided(g: Adjacency, mrX: int, occupied: seq<int>, tickets: int)
    requires WellFormed(g)
  {
    tickets < 1 || TwiceMedianDistance(g, mrX, occupied).Success?
  }

  /** Every double-move location has a score. */
  ghost predicate HopsScore(g: Adjacency, occupied: seq<int>, singles: seq<int>)
    requires WellFormed(g) && forall x :: x in singles ==> x in g
  {
    forall x :: x in HopSet(g, occupied, singles) ==> Score(g, x, occupied).Success?
  }

  /** The throttle on double moves: a double ticket is left and MrX is
      cornered (median detective distance at most 3, at most 4 neighbours),
      or every root single location is deadly. The median is only computed
      once a double ticket is known to be left. */
  function DoubleCondition(g: Adjacency, mrX: int, occupied: seq<int>, tickets: int,
                           degree: int, allDeadly: bool): (r: Result<bool>)
    requires WellFormed(g)
    ensures tickets < 1 ==> r == Success(false)
    ensures r.Success? && r.value ==> tickets >= 1
    ensures r.Success? && tickets >= 1 ==>
              && TwiceMedianDistance(g, mrX, occupied).Success?
              && (r.value <==> (TwiceMedianDistance(g, mrX, occupied).value <= 6 && degree <= 4) || allDeadly)
    ensures r.Success? <==> Decided(g, mrX, occupied, tickets)
    ensures r.Success? ==> (r.value <==> Fires(g, mrX, occupied, tickets, degree, allDeadly))
  {
    if tickets >= 1 then
      var twice :- TwiceMedianDistance(g, mrX, occupied);
      Success((twice <= 6 && degree <= 4) || allDeadly)
    else Success(false)
  }

  /** The locations a maximising ply iterates over, and which of them count
      as double-move locations. */
  datatype Plies = Plies(locations: seq<int>, doubles: set<int>)

  /** Every location of `singles` scores below zero. */
  ghost predicate AllDeadly(g: Adjacency, occupied: seq<int>, singles: seq<int>)
    requires WellFormed(g)
  {
    forall l :: l in singles ==> Score(g, l, occupied).Success? && Score(g, l, occupied).value < 0
  }

  lemma TopKeyIsLargest(sorted: seq<Ranked>, k: int)
    requires Descending(sorted)
    requires HasKey(sorted, k)
    ensures sorted != [] && k <= sorted[0].1
  {
    var y :| y in sorted && y.1 == k;
    var i :| 0 <= i < |sorted| && sorted[i] == y;
  }

  /** All root single locations are deadly exactly when the first (best) has a negative score. */
  lemma FirstNegativeMeansAllNegative(g: Adjacency, occupied: seq<int>, singles: seq<int>,
                                      sorted: seq<Ranked>, first: int)
    requires WellFormed(g)
    requires Descending(sorted)
    requires Represented(g, occupied, singles, sorted)
    requires sorted != [] && sorted[0].0 in singles
    requires Score(g, sorted[0].0, occupied) == Success(first) && sorted[0].1 == Key(first)
    ensures first < 0 <==> AllDeadly(g, occupied, singles)
  {
    if first < 0 {
      forall l | l in singles
        ensures Score(g, l, occupied).value < 0
      {
        TopKeyIsLargest(sorted, Key(Score(g, l, occupied).value));
      }
    }
  }

  /** The root ply's candidates: the single locations by descending score,
      then any double-move locations placed among them. */
  function RootCandidates(g: Adjacency, mrX: int, occupied: seq<int>, singles: seq<int>, tickets: int): (r: Result<Plies>)
    requires WellFormed(g) && mrX in g && singles == g[mrX]
    ensures r.Success? ==> forall x :: x in r.value.locations ==> x in singles || x in r.value.doubles
    ensures r.Success? && r.value.doubles != {} ==>
              r.value.doubles == HopSet(g, occupied, singles)
    ensures r.Success? && r.value.doubles != {} ==>
              && tickets >= 1
              && TwiceMedianDistance(g, mrX, occupied).Success?
              && ((TwiceMedianDistance(g, mrX, occupied).value <= 6 && |singles| <= 4)
                  || AllDeadly(g, occupied, singles))
    ensures r.Success? && tickets < 1 ==> r.value.doubles == {}
    ensures r.Success? <==>
              && singles != [] && AllScore(g, occupied, singles)
              && Decided(g, mrX, occupied, tickets)
              && (Fires(g, mrX, occupied, tickets, |singles|, AllDeadly(g, occupied, singles)) ==>
                    HopsScore(g, occupied, singles))
    ensures r.Success? ==>
              r.value.doubles == if Fires(g, mrX, occupied, tickets, |singles|, AllDeadly(g, occupied, singles))
                                 then HopSet(g, occupied, singles) else {}
    ensures r.Success? ==> RankedByKey(g, occupied, r.value.locations)
  {
    var sorted :- LocationPriority(g, occupied, singles);
    if sorted == [] then Failure(NoSuchElement)
    else
      assert sorted[0] in sorted;
      var first := Score(g, sorted[0].0, occupied).value;
      FirstNegativeMeansAllNegative(g, occupied, singles, sorted, first);
      RootPlies(g, mrX, occupied, singles, tickets, sorted, first < 0)
  }

  /** The root ply's candidates once the single locations are ranked. */
  function RootPlies(g: Adjacency, mrX: int, occupied: seq<int>, singles: seq<int>, tickets: int,
                     sorted: seq<Ranked>, allDeadly: bool): (r: Result<Plies>)
    requires WellFormed(g) && mrX in g && singles == g[mrX]
    requires Descending(sorted) && forall y :: y in sorted ==> y.0 in singles && KeyOf(g, occupied, y)
    ensures r.Success? ==> forall x :: x in r.value.locations ==> x in singles || x in r.value.doubles
    ensures r.Success? && r.value.doubles != {} ==>
              r.value.doubles == HopSet(g, occupied, singles)
    ensures r.Success? && r.value.doubles != {} ==>
              && tickets >= 1
              && TwiceMedianDistance(g, mrX, occupied).Success?
              && ((TwiceMedianDistance(g, mrX, occupied).value <= 6 && |singles| <= 4) || allDeadly)
    ensures r.Success? && tickets < 1 ==> r.value.doubles == {}
    ensures r.Success? <==>
              && Decided(g, mrX, occupied, tickets)
              && (Fires(g, mrX, occupied, tickets, |singles|, allDeadly) ==> HopsScore(g, occupied, singles))
    ensures r.Success? ==>
              r.value.doubles == if Fires(g, mrX, occupied, tickets, |singles|, allDeadly)
                                 then HopSet(g, occupied, singles) else {}
    ensures r.Success? ==> RankedByKey(g, occupied, r.value.locations)
  {
    var fire :- DoubleCondition(g, mrX, occupied, tickets, |singles|, allDeadly);
    var doubles := if fire then HopSet(g, occupied, singles) else {};
    var locations :- RootLocations(g, occupied, singles, sorted, fire);
    Success(Plies(locations, doubles))
  }

  /** The root's `TreeSet`, with the double-move locations added when `fire`. */
  function RootLocations(g: Adjacency, occupied: seq<int>, singles: seq<int>, sorted: seq<Ranked>, fire: bool): (r: Result<seq<int>>)
    requires WellFormed(g) && forall x :: x in singles ==> x in g
    requires Descending(sorted) && forall y :: y in sorted ==> y.0 in singles && KeyOf(g, occupied, y)
    ensures r.Success? ==> forall x :: x in r.value ==> x in singles || (fire && x in HopSet(g, occupied, singles))
    ensures r.Success? <==> (fire ==> HopsScore(g, occupied, singles))
    ensures r.Success? ==> RankedByKey(g, occupied, r.value)
  {
    if fire then
      var hops := Hops(g, occupied, singles, []);
      assert AllScore(g, occupied, hops) <==> HopsScore(g, occupied, singles);
      var all :- PlaceAll(g, occupied, sorted, hops);
      CandidatesFromRanked(all, singles, hops, sorted);
      LocationsRanked(g, occupied, all);
      Success(Locations(all))
    else
      CandidatesFromRanked(sorted, singles, [], sorted);
      LocationsRanked(g, occupied, sorted);
      Success(Locations(sorted))
  }

  /** A deeper ply's candidates: the single locations, then any double-move
      locations not among them. */
  function InnerCandidates(g: Adjacency, mrX: int, occupied: seq<int>, singles: seq<int>, tickets: int): (r: Result<Plies>)
    requires WellFormed(g) && mrX in g && singles == g[mrX]
    ensures r.Success? ==> forall x :: x in r.value.locations ==> x in singles || x in r.value.doubles
    ensures r.Success? ==> forall x :: x in singles ==> x in r.value.locations
    ensures r.Success? && r.value.doubles != {} ==>
              r.value.doubles == HopSet(g, occupied, singles)
    ensures r.Success? && r.value.doubles != {} ==>
              && tickets >= 1
              && TwiceMedianDistance(g, mrX, occupied).Success?
              && TwiceMedianDistance(g, mrX, occupied).value <= 6 && |singles| <= 4
    ensures r.Success? && tickets < 1 ==> r.value == Plies(singles, {})
    ensures r.Success? <==> Decided(g, mrX, occupied, tickets)
    ensures r.Success? ==>
              r.value.doubles == if Fires(g, mrX, occupied, tickets, |singles|, false)
                                 then HopSet(g, occupied, singles) else {}
    ensures r.Success? ==> forall x :: x in r.value.doubles ==> x in r.value.locations
    ensures r.Success? ==> |r.value.locations| >= |singles| && r.value.locations[..|singles|] == singles
  {
    var fire :- DoubleCondition(g, mrX, occupied, tickets, |singles|, false);
    if fire then
      var hops := Hops(g, occupied, singles, []);
      Success(Plies(AppendNew(singles, hops), HopSet(g, occupied, singles)))
    else
      Success(Plies(singles, {}))
  }

  /** The candidate locations of a maximising ply at `depth`. */
  function Candidates(g: Adjacency, mrX: int, occupied: seq<int>, depth: int, tickets: int): (r: Result<Plies>)
    requires WellFormed(g)
    ensures r.Success? ==> mrX in g
    ensures r.Success? ==>
              forall x :: x in r.value.locations ==> x in g[mrX] || x in HopSet(g, occupied, g[mrX])
    ensures r.Success? && r.value.doubles != {} ==>
              tickets >= 1 && r.value.doubles == HopSet(g, occupied, g[mrX])
    ensures r.Success? && depth != 1 ==> forall x :: x in g[mrX] ==> x in r.value.locations
    ensures r.Success? && depth == 1 ==> r == RootCandidates(g, mrX, occupied, g[mrX], tickets)
    ensures r.Success? && depth != 1 ==> r == InnerCandidates(g, mrX, occupied, g[mrX], tickets)
    ensures r.Success? <==>
              && mrX in g && Decided(g, mrX, occupied, tickets)
              && (depth == 1 ==>
                    && g[mrX] != [] && AllScore(g, occupied, g[mrX])
                    && (Fires(g, mrX, occupied, tickets, |g[mrX]|, AllDeadly(g, occupied, g[mrX])) ==>
                          HopsScore(g, occupied, g[mrX])))
    ensures r.Success? && depth == 1 ==> RankedByKey(g, occupied, r.value.locations)
  {
    var singles :- Neighbours(g, mrX);
    if depth == 1 then RootCandidates(g, mrX, occupied, singles, tickets)
    else InnerCandidates(g, mrX, occupied, singles, tickets)
  }

  lemma CandidatesFromRanked(all: seq<Ranked>, singles: seq<int>, hops: seq<int>, sorted: seq<Ranked>)
    requires forall y :: y in sorted ==> y.0 in singles
    requires forall y :: y in all ==> y in sorted || y.0 in hops
    ensures forall x :: x in Locations(all) ==> x in singles || x in hops
  {
    forall x | x in Locations(all)
      ensures x in singles || x in hops
    {
      var i :| 0 <= i < |all| && Locations(all)[i] == x;
      assert all[i] in all;
    }
  }

  /** The double-ticket count handed to the subtree of `location`: one less
      exactly when the location was added as a double-move location (even if
      it is also a single-move neighbour). */
  function NextTickets(tickets: int, location: int, doubles: set<int>): (r: int)
    ensures r <= tickets
    ensures r == tickets - 1 <==> location in doubles
    ensures r == tickets <==> location !in doubles
  {
    if location in doubles then tickets - 1 else tickets
  }

  /** The location of a move that a ply may evaluate: at the root, never one a detective occupies. */
  predicate Eligible(occupied: seq<int>, depth: int, location: int) {
    location !in occupied || depth != 1
  }

  /** `maximiser(jarvisXLocation, detectiveLocations, depth, maxDepth, alpha, beta, doubleTickets)`:
      the best location and its score. */
  function Maximiser(g: Adjacency, mrX: int, occupied: seq<int>, depth: int, maxDepth: int,
                     alpha: int, beta: int, tickets: int): (r: Result<(int, int)>)
    requires WellFormed(g)
    requires 1 <= depth <= maxDepth && (maxDepth - depth) % 2 == 0
    ensures r.Success? ==> Candidates(g, mrX, occupied, depth, tickets).Success?
    ensures r.Success? ==>
              var c := Candidates(g, mrX, occupied, depth, tickets).value;
              || r.value == (0, MinValue)
              || (r.value.0 in c.locations && Eligible(occupied, depth, r.value.0))
    ensures r.Success? ==>
              var c := Candidates(g, mrX, occupied, depth, tickets).value;
              (forall x :: x in c.locations ==> !Eligible(occupied, depth, x)) ==> r.value == (0, MinValue)
    decreases maxDepth - depth, 2, 0
  {
    var c :- Candidates(g, mrX, occupied, depth, tickets);
    MaxLoop(g, mrX, occupied, depth, maxDepth, c.locations, c.doubles, alpha, beta, tickets, 0, MinValue)
  }

  /** The candidate loop of `maximiser` from the state (`best`, `maxScore`, `alpha`). */
  function MaxLoop(g: Adjacency, mrX: int, occupied: seq<int>, depth: int, maxDepth: int,
                   locations: seq<int>, doubles: set<int>, alpha: int, beta: int, tickets: int,
                   best: int, maxScore: int): (r: Result<(int, int)>)
    requires WellFormed(g)
    requires 1 <= depth <= maxDepth && (maxDepth - depth) % 2 == 0
    ensures r.Success? ==> r.value.1 >= maxScore
    ensures r.Success? ==> (r.value == (best, maxScore) ||
              (r.value.0 in locations && Eligible(occupied, depth, r.value.0)))
    ensures (forall x :: x in locations ==> !Eligible(occupied, depth, x)) ==> r == Success((best, maxScore))
    ensures r.Success? && r.value.1 == maxScore && best != 0 ==> r.value.0 == best
    decreases maxDepth - depth, 1, |locations|
  {
    if locations == [] then Success((best, maxScore))
    else
      var location := locations[0];
      if !Eligible(occupied, depth, location) then
        MaxLoop(g, mrX, occupied, depth, maxDepth, locations[1..], doubles, alpha, beta, tickets, best, maxScore)
      else
        var best1 := if best == 0 then location else best;
        var score :- PlyScore(g, location, occupied, depth, maxDepth, alpha, beta,
                              NextTickets(tickets, location, doubles));
        var best2 := if score > maxScore then location else best1;
        var max2 := if score > maxScore then score else maxScore;
        var alpha2 := if score > alpha then score else alpha;
        if beta <= alpha2 then Success((best2, max2))
        else MaxLoop(g, mrX, occupied, depth, maxDepth, locations[1..], doubles, alpha2, beta, tickets, best2, max2)
  }

  /** At the search horizon a raised best score is the `Score` of the best
      location (node 0, which stands for "none yet", is left out). */
  lemma {:induction false} HorizonBest(g: Adjacency, mrX: int, occupied: seq<int>, depth: int, maxDepth: int,
                                       locations: seq<int>, doubles: set<int>, alpha: int, beta: int,
                                       tickets: int, best: int, maxScore: int)
    requires WellFormed(g)
    requires 1 <= depth == maxDepth
    ensures var r := MaxLoop(g, mrX, occupied, depth, maxDepth, locations, doubles, alpha, beta, tickets, best, maxScore);
            0 !in locations && r.Success? && r.value.1 > maxScore ==>
              Score(g, r.value.0, occupied) == Success(r.value.1)
    decreases |locations|
  {
    if locations != [] && 0 !in locations {
      var location := locations[0];
      if !Eligible(occupied, depth, location) {
        HorizonBest(g, mrX, occupied, depth, maxDepth, locations[1..], doubles, alpha, beta, tickets, best, maxScore);
      } else {
        var score := Score(g, location, occupied);
        assert PlyScore(g, location, occupied, depth, maxDepth, alpha, beta, NextTickets(tickets, location, doubles)) == score;
        if score.Success? {
          var best1 := if best == 0 then location else best;
          var best2 := if score.value > maxScore then location else best1;
          var max2 := if score.value > maxScore then score.value else maxScore;
          var alpha2 := if score.value > alpha then score.value else alpha;
          HorizonBest(g, mrX, occupied, depth, maxDepth, locations[1..], doubles, alpha2, beta, tickets, best2, max2);
        }
      }
    }
  }

  /** At the search horizon, unless a score reached `beta` and closed the
      window, no eligible location scores above the loop's best score. */
  lemma {:induction false} HorizonNoneHigher(g: Adjacency, mrX: int, occupied: seq<int>, depth: int, maxDepth: int,
                                             locations: seq<int>, doubles: set<int>, alpha: int, beta: int,
                                             tickets: int, best: int, maxScore: int)
    requires WellFormed(g)
    requires 1 <= depth == maxDepth
    ensures var r := MaxLoop(g, mrX, occupied, depth, maxDepth, locations, doubles, alpha, beta, tickets, best, maxScore);
            r.Success? && alpha < beta && r.value.1 < beta ==>
              forall x :: x in locations && Eligible(occupied, depth, x) ==>
                Score(g, x, occupied).Success? && Score(g, x, occupied).value <= r.value.1
    decreases |locations|
  {
    if locations != [] {
      var location := locations[0];
      assert locations == [location] + locations[1..];
      if !Eligible(occupied, depth, location) {
        HorizonNoneHigher(g, mrX, occupied, depth, maxDepth, locations[1..], doubles, alpha, beta, tickets, best, maxScore);
      } else {
        var score := Score(g, location, occupied);
        assert PlyScore(g, location, occupied, depth, maxDepth, alpha, beta, NextTickets(tickets, location, doubles)) == score;
        if score.Success? {
          var best1 := if best == 0 then location else best;
          var best2 := if score.value > maxScore then location else best1;
          var max2 := if score.value > maxScore then score.value else maxScore;
          var alpha2 := if score.value > alpha then score.value else alpha;
          if beta > alpha2 {
            HorizonNoneHigher(g, mrX, occupied, depth, maxDepth, locations[1..], doubles, alpha2, beta, tickets, best2, max2);
          }
        }
      }
    }
  }

  /** A horizon ply (`depth == maxDepth`) of `maximiser` returns the best
      `Score` over the eligible candidates: a best score above MIN_VALUE is
      the score of the best location when node 0 is not a node, and unless a
      score reached `beta` no eligible candidate scores higher. */
  lemma HorizonMaximiser(g: Adjacency, mrX: int, occupied: seq<int>, depth: int,
                         alpha: int, beta: int, tickets: int)
    requires WellFormed(g) && 1 <= depth
    ensures var r := Maximiser(g, mrX, occupied, depth, depth, alpha, beta, tickets);
            && (0 !in g && r.Success? && r.value.1 > MinValue ==>
                  Score(g, r.value.0, occupied) == Success(r.value.1))
            && (r.Success? && alpha < beta && r.value.1 < beta ==>
                  var c := Candidates(g, mrX, occupied, depth, tickets).value;
                  forall x :: x in c.locations && Eligible(occupied, depth, x) ==>
                    Score(g, x, occupied).Success? && Score(g, x, occupied).value <= r.value.1)
  {
    var c := Candidates(g, mrX, occupied, depth, tickets);
    if c.Success? {
      var v := c.value;
      HorizonBest(g, mrX, occupied, depth, depth, v.locations, v.doubles, alpha, beta, tickets, 0, MinValue);
      HorizonNoneHigher(g, mrX, occupied, depth, depth, v.locations, v.doubles, alpha, beta, tickets, 0, MinValue);
      CandidatesAreNodes(g, mrX, occupied, depth, tickets);
    }
  }

  /** Every candidate location is a node. */
  lemma CandidatesAreNodes(g: Adjacency, mrX: int, occupied: seq<int>, depth: int, tickets: int)
    requires WellFormed(g)
    requires Candidates(g, mrX, occupied, depth, tickets).Success?
    ensures forall x :: x in Candidates(g, mrX, occupied, depth, tickets).value.locations ==> x in g
  {
    var c := Candidates(g, mrX, occupied, depth, tickets).value;
    forall x | x in c.locations
      ensures x in g
    {
      if x !in g[mrX] {
        var k :| 0 <= k < |g[mrX]| && g[mrX][k] in g && g[mrX][k] !in occupied && x in g[g[mrX][k]];
      }
    }
  }

  /** The value of moving MrX to `location`: its score at the search horizon,
      else the detectives' best reply. */
  function PlyScore(g: Adjacency, location: int, occupied: seq<int>, depth: int, maxDepth: int,
                    alpha: int, beta: int, tickets: int): Result<int>
    requires WellFormed(g)
    requires 1 <= depth <= maxDepth && (maxDepth - depth) % 2 == 0
    decreases maxDepth - depth, 0, 0
  {
    if depth == maxDepth then Score(g, location, occupied)
    else Minimiser(g, location, occupied, depth + 1, maxDepth, alpha, beta, tickets)
  }

  /** `minimiser(jarvisXLocation, detectiveLocations, depth, maxDepth, alpha, beta, doubleTickets)`:
      the least score over the detectives' replies. */
  function Minimiser(g: Adjacency, mrX: int, occupied: seq<int>, depth: int, maxDepth: int,
                     alpha: int, beta: int, tickets: int): (r: Result<int>)
    requires WellFormed(g)
    requires 2 <= depth < maxDepth && (maxDepth - depth) % 2 == 1
    ensures r.Success? ==> FindCombinations(g, occupied, mrX).Success?
    ensures r.Success? && FindCombinations(g, occupied, mrX).value == [] ==> r.value == MaxValue
    ensures r.Success? ==> r.value <= MaxValue
    decreases maxDepth - depth, 2, 0
  {
    var combinations :- FindCombinations(g, occupied, mrX);
    MinLoop(g, mrX, depth, maxDepth, combinations, alpha, beta, tickets, MaxValue)
  }

  /** The reply loop of `minimiser` from the state (`minScore`, `beta`). */
  function MinLoop(g: Adjacency, mrX: int, depth: int, maxDepth: int, combinations: seq<seq<int>>,
                   alpha: int, beta: int, tickets: int, minScore: int): (r: Result<int>)
    requires WellFormed(g)
    requires 2 <= depth < maxDepth && (maxDepth - depth) % 2 == 1
    ensures r.Success? ==> r.value <= minScore
    ensures combinations == [] ==> r == Success(minScore)
    ensures r.Success? && combinations != [] ==>
              && ReplyValue(g, mrX, combinations[0], depth, maxDepth, alpha, beta, tickets).Success?
              && r.value <= ReplyValue(g, mrX, combinations[0], depth, maxDepth, alpha, beta, tickets).value
    decreases maxDepth - depth, 1, |combinations|
  {
    if combinations == [] then Success(minScore)
    else
      var score :- ReplyValue(g, mrX, combinations[0], depth, maxDepth, alpha, beta, tickets);
      var min2 := if score < minScore then score else minScore;
      var beta2 := if score < beta then score else beta;
      if beta2 <= alpha then Success(min2)
      else MinLoop(g, mrX, depth, maxDepth, combinations[1..], alpha, beta2, tickets, min2)
  }

  /** MrX's value once the detectives move to `combination`: the score of
      his best answer, less the capture penalty (wrapping as Java's `int`
      does) when a detective lands on him. */
  function ReplyValue(g: Adjacency, mrX: int, combination: seq<int>, depth: int, maxDepth: int,
                      alpha: int, beta: int, tickets: int): Result<int>
    requires WellFormed(g)
    requires 2 <= depth < maxDepth && (maxDepth - depth) % 2 == 1
    decreases maxDepth - depth, 0, 0
  {
    var pair :- Maximiser(g, mrX, combination, depth + 1, maxDepth, alpha, beta, tickets);
    Success(if mrX in combination then Wrap(pair.1 - CapturePenalty) else pair.1)
  }

  /** A reply is MrX's best answer, lowered by the capture penalty when a
      detective lands on him. The subtraction is 32-bit: an answer within
      500 of `MIN_VALUE` wraps around, so a capture with no escape (answer
      `MIN_VALUE`) is worth `MAX_VALUE - 499` to the detectives' ply. */
  lemma CapturePenalised(g: Adjacency, mrX: int, combination: seq<int>, depth: int, maxDepth: int,
                         alpha: int, beta: int, tickets: int)
    requires WellFormed(g)
    requires 2 <= depth < maxDepth && (maxDepth - depth) % 2 == 1
    ensures var m := Maximiser(g, mrX, combination, depth + 1, maxDepth, alpha, beta, tickets);
            var r := ReplyValue(g, mrX, combination, depth, maxDepth, alpha, beta, tickets);
            && (r.Success? <==> m.Success?)
            && (m.Success? && mrX !in combination ==> r.value == m.value.1)
            && (m.Success? && mrX in combination && MinValue + CapturePenalty <= m.value.1 <= MaxValue ==>
                  r.value == m.value.1 - CapturePenalty)
            && (m.Success? && mrX in combination && m.value.1 == MinValue ==> r.value == MaxValue - 499)
  {
  }

  /** Some evaluation of the reply `combination`, with `beta` narrowed to
      at most `beta`, is worth exactly `v`. */
  ghost predicate ReplyIs(g: Adjacency, mrX: int, combination: seq<int>, depth: int, maxDepth: int,
                          alpha: int, beta: int, tickets: int, v: int)
    requires WellFormed(g)
    requires 2 <= depth < maxDepth && (maxDepth - depth) % 2 == 1
  {
    exists b :: b <= beta && ReplyValue(g, mrX, combination, depth, maxDepth, alpha, b, tickets) == Success(v)
  }

  /** A reply evaluated with `b <= beta` witnesses `ReplyIs` at `beta`. */
  lemma ReplyIsAt(g: Adjacency, mrX: int, combination: seq<int>, depth: int, maxDepth: int,
                  alpha: int, beta: int, b: int, tickets: int, v: int)
    requires WellFormed(g)
    requires 2 <= depth < maxDepth && (maxDepth - depth) % 2 == 1
    requires b <= beta && ReplyValue(g, mrX, combination, depth, maxDepth, alpha, b, tickets) == Success(v)
    ensures ReplyIs(g, mrX, combination, depth, maxDepth, alpha, beta, tickets, v)
  {
  }

  /** The reply loop's value is its starting minimum or the value of one of
      the replies, evaluated with `beta` narrowed to some `b`. */
  lemma {:induction false} MinLoopAttained(g: Adjacency, mrX: int, depth: int, maxDepth: int,
                                           combinations: seq<seq<int>>, alpha: int, beta: int,
                                           tickets: int, minScore: int)
    requires WellFormed(g)
    requires 2 <= depth < maxDepth && (maxDepth - depth) % 2 == 1
    ensures var r := MinLoop(g, mrX, depth, maxDepth, combinations, alpha, beta, tickets, minScore);
            r.Success? && r.value < minScore ==>
              exists k :: 0 <= k < |combinations|
                          && ReplyIs(g, mrX, combinations[k], depth, maxDepth, alpha, beta, tickets, r.value)
    decreases |combinations|
  {
    var r := MinLoop(g, mrX, depth, maxDepth, combinations, alpha, beta, tickets, minScore);
    if combinations != [] && r.Success? && r.value < minScore {
      var score := ReplyValue(g, mrX, combinations[0], depth, maxDepth, alpha, beta, tickets);
      var min2 := if score.value < minScore then score.value else minScore;
      var beta2 := if score.value < beta then score.value else beta;
      var rest := combinations[1..];
      if beta2 > alpha {
        MinLoopAttained(g, mrX, depth, maxDepth, rest, alpha, beta2, tickets, min2);
      }
      if beta2 > alpha && r.value < min2 {
        var k :| 0 <= k < |rest| && ReplyIs(g, mrX, rest[k], depth, maxDepth, alpha, beta2, tickets, r.value);
        var b :| b <= beta2 && ReplyValue(g, mrX, rest[k], depth, maxDepth, alpha, b, tickets) == Success(r.value);
        assert combinations[k + 1] == rest[k];
        ReplyIsAt(g, mrX, combinations[k + 1], depth, maxDepth, alpha, beta, b, tickets, r.value);
      } else {
        assert r.value >= min2 by {
          if beta2 <= alpha {
            assert r == Success(min2);
          }
        }
        assert score.Success? && r.value <= score.value;
        assert score.value == r.value;
        ReplyIsAt(g, mrX, combinations[0], depth, maxDepth, alpha, beta, beta, tickets, r.value);
      }
    }
  }

  /** Some evaluation of the reply `combination`, with `beta` narrowed to
      at most `beta`, is worth at least `v`. */
  ghost predicate ReplyAtLeast(g: Adjacency, mrX: int, combination: seq<int>, depth: int, maxDepth: int,
                               alpha: int, beta: int, tickets: int, v: int)
    requires WellFormed(g)
    requires 2 <= depth < maxDepth && (maxDepth - depth) % 2 == 1
  {
    exists b :: b <= beta
                && ReplyValue(g, mrX, combination, depth, maxDepth, alpha, b, tickets).Success?
                && v <= ReplyValue(g, mrX, combination, depth, maxDepth, alpha, b, tickets).value
  }

  /** When the window was open (`alpha < beta`) and never closed (the value
      stays above `alpha`), every reply was evaluated and none is worth less
      than the loop's value. */
  lemma {:induction false} MinLoopBelowEvery(g: Adjacency, mrX: int, depth: int, maxDepth: int,
                                             combinations: seq<seq<int>>, alpha: int, beta: int,
                                             tickets: int, minScore: int)
    requires WellFormed(g)
    requires 2 <= depth < maxDepth && (maxDepth - depth) % 2 == 1
    ensures var r := MinLoop(g, mrX, depth, maxDepth, combinations, alpha, beta, tickets, minScore);
            r.Success? && alpha < beta && r.value > alpha ==>
              forall k :: 0 <= k < |combinations| ==>
                ReplyAtLeast(g, mrX, combinations[k], depth, maxDepth, alpha, beta, tickets, r.value)
    decreases |combinations|
  {
    var r := MinLoop(g, mrX, depth, maxDepth, combinations, alpha, beta, tickets, minScore);
    if combinations != [] && r.Success? && alpha < beta && r.value > alpha {
      var score := ReplyValue(g, mrX, combinations[0], depth, maxDepth, alpha, beta, tickets);
      var min2 := if score.value < minScore then score.value else minScore;
      var beta2 := if score.value < beta then score.value else beta;
      var rest := combinations[1..];
      assert beta2 > alpha;
      MinLoopBelowEvery(g, mrX, depth, maxDepth, rest, alpha, beta2, tickets, min2);
      forall k | 0 <= k < |combinations|
        ensures ReplyAtLeast(g, mrX, combinations[k], depth, maxDepth, alpha, beta, tickets, r.value)
      {
        if k == 0 {
          assert r.value <= score.value;
        } else {
          assert combinations[k] == rest[k - 1];
          assert ReplyAtLeast(g, mrX, rest[k - 1], depth, maxDepth, alpha, beta2, tickets, r.value);
        }
      }
    }
  }
}

=== FILE: sorting.dfy ===
/** Ascending sort of a list of integers, as done by
    `stream().sorted((x, y) -> x - y)` on distances (which are never far
    enough apart for the comparator's subtraction to wrap). */
module Sorting {

  ghost predicate Sorted(s: seq<int>) {
    forall i, j :: 0 <= i < j < |s| ==> s[i] <= s[j]
  }

  /** Prepending an element no larger than the head keeps a list sorted. */
  lemma ConsSorted(h: int, t: seq<int>)
    requires Sorted(t)
    requires t == [] || h <= t[0]
    ensures Sorted([h] + t)
  {
    var r := [h] + t;
    forall i, j | 0 <= i < j < |r|
      ensures r[i] <= r[j]
    {
      if i > 0 {
        assert r[i] == t[i - 1] && r[j] == t[j - 1];
      } else {
        assert r[j] == t[j - 1] && t[0] <= t[j - 1];
      }
    }
  }

  /** Inserts `x` into the sorted list `s` before the first larger element. */
  function Insert(x: int, s: seq<int>): (r: seq<int>)
    requires Sorted(s)
    ensures Sorted(r)
    ensures multiset(r) == multiset(s) + multiset{x}
    ensures |r| == |s| + 1
    ensures r[0] == if s == [] || x <= s[0] then x else s[0]
  {
    if s == [] || x <= s[0] then
      ConsSorted(x, s);
      [x] + s
    else
      assert s == [s[0]] + s[1..];
      var t := Insert(x, s[1..]);
      ConsSorted(s[0], t);
      [s[0]] + t
  }

  function Sort(s: seq<int>): (r: seq<int>)
    ensures Sorted(r)
    ensures multiset(r) == multiset(s)
    ensures |r| == |s|
  {
    if s == [] then []
    else
      assert s == [s[0]] + s[1..];
      Insert(s[0], Sort(s[1..]))
  }

  /** The least element of a non-empty sorted list is its head. */
  lemma {:induction false} HeadIsMinimum(s: seq<int>, x: int)
    requires Sorted(s) && x in multiset(s)
    ensures s[0] <= x
  {
    var i :| 0 <= i < |s| && s[i] == x;
  }

  /** A sorted list is determined by its multiset of elements. */
  lemma {:induction false} SortedUnique(a: seq<int>, b: seq<int>)
    requires Sorted(a) && Sorted(b)
    requires multiset(a) == multiset(b)
    ensures a == b
  {
    if a == [] {
      assert |b| == |multiset(b)| == 0;
    } else {
      assert |b| == |multiset(b)| == |multiset(a)| == |a|;
      assert a[0] in multiset(b);
      assert b[0] in multiset(a);
      HeadIsMinimum(b, a[0]);
      HeadIsMinimum(a, b[0]);
      var h := a[0];
      assert b[0] == h;
      assert a == [h] + a[1..];
      assert b == [h] + b[1..];
      assert multiset(a) == multiset{h} + multiset(a[1..]);
      assert multiset(b) == multiset{h} + multiset(b[1..]);
      assert multiset(a[1..]) == multiset(a) - multiset{h};
      assert multiset(b[1..]) == multiset(b) - multiset{h};
      SortedUnique(a[1..], b[1..]);
    }
  }

  /** Sorting depends only on the multiset of the input. */
  lemma SortIsPermutationInvariant(a: seq<int>, b: seq<int>)
    requires multiset(a) == multiset(b)
    ensures Sort(a) == Sort(b)
  {
    SortedUnique(Sort(a), Sort(b));
  }
}

=== FILE: types.dfy ===
/** The framework values the core reads: pieces, tickets, transports,
    moves, players, the travel log and the game setup. */
module Types {

  datatype Piece = MrX | Red | Green | Blue | White | Yellow {
    predicate IsMrX() { this == MrX }
    predicate IsDetective() { this != MrX }
  }

  datatype Ticket = Taxi | Bus | Underground | DoubleTicket | Secret

  datatype Transport = TaxiRide | BusRide | UndergroundRide | Ferry {
    /** The ticket a journey by this transport costs; a ferry needs a secret ticket. */
    function RequiredTicket(): (t: Ticket)
      ensures t != DoubleTicket
    {
      match this
      case TaxiRide => Taxi
      case BusRide => Bus
      case UndergroundRide => Underground
      case Ferry => Secret
    }
  }

  /** A move: one journey, or two journeys on a double ticket. */
  datatype Move =
    | Single(piece: Piece, source: int, ticket: Ticket, destination: int)
    | Double(piece: Piece, source: int, ticket1: Ticket, destination1: int,
             ticket2: Ticket, destination2: int)
  {
    function CommencedBy(): Piece { piece }

    /** Where the move ends. */
    function FinalDestination(): int {
      if Single? then destination else destination2
    }

    /** The tickets the move spends, in journey order, the double ticket excluded. */
    function Tickets(): seq<Ticket> {
      if Single? then [ticket] else [ticket1, ticket2]
    }
  }

  /** A player: its piece, its ticket counts (absent means none) and its location. */
  datatype Player = Player(piece: Piece, tickets: map<Ticket, int>, location: int) {

    function Count(t: Ticket): int {
      if t in tickets then tickets[t] else 0
    }

    predicate Has(t: Ticket) {
      Count(t) > 0
    }

    predicate HasAnyTicket() {
      Has(Taxi) || Has(Bus) || Has(Underground) || Has(DoubleTicket) || Has(Secret)
    }

    /** One ticket of kind `t` spent. */
    function Use(t: Ticket): (p: Player)
      ensures p.Count(t) == Count(t) - 1
      ensures forall u :: u != t ==> p.Count(u) == Count(u)
      ensures p.piece == piece && p.location == location
    {
      Player(piece, tickets[t := Count(t) - 1], location)
    }

    /** One ticket of each kind in `ts` received (`ts` may repeat a kind). */
    function Give(ts: seq<Ticket>): (p: Player)
      ensures forall u :: p.Count(u) == Count(u) + multiset(ts)[u]
      ensures p.piece == piece && p.location == location
      decreases |ts|
    {
      if ts == [] then this
      else
        var q := Player(piece, tickets[ts[0] := Count(ts[0]) + 1], location).Give(ts[1..]);
        assert ts == [ts[0]] + ts[1..];
        q
    }

    /** The same player, moved to `destination`. */
    function At(destination: int): (p: Player)
      ensures forall u :: p.Count(u) == Count(u)
      ensures p.piece == piece && p.location == destination
    {
      Player(piece, tickets, destination)
    }
  }

  /** An entry of MrX's travel log: the ticket always, the location only on reveal rounds. */
  datatype LogEntry = Hidden(ticket: Ticket) | Reveal(ticket: Ticket, location: int)

  /** The board: for each node, its neighbours and the transports on each edge. */
  type Graph = map<int, map<int, set<Transport>>>

  /** The game setup: the board and, per round, whether MrX's location is revealed. */
  datatype GameSetup = GameSetup(graph: Graph, rounds: seq<bool>)

  function Adjacent(g: Graph, v: int): set<int> {
    if v in g then g[v].Keys else {}
  }

  /** `edgeValueOrDefault(u, v, {})`. */
  function EdgeValue(g: Graph, u: int, v: int): set<Transport> {
    if u in g && v in g[u] then g[u][v] else {}
  }
}

=== FILE: wrappers.dfy ===
/** The failure outcomes of the modelled Java code: every exception the
    source can throw becomes a `Failure` carrying the exception's kind. */
module Wrappers {

  /** The Java exception classes the core can raise. */
  datatype Error =
    | IllegalArgument(reason: string)
    | NullPointer
    | IndexOutOfBounds
    | NoSuchElement

  /** A value, or the exception that replaced it. Usable with `:-`. */
  datatype Result<+T> = Success(value: T) | Failure(error: Error) {

    predicate IsFailure() {
      Failure?
    }

    function PropagateFailure<U>(): Result<U>
      requires Failure?
    {
      Failure(error)
    }

    function Extract(): T
      requires Success?
    {
      value
    }
  }
}
